=== FILE: README.md ===
# Trendway marketplace: order, stock and account logic

This project is a Dafny model of the Trendway marketplace. It is a multi-seller shop: a Spring backend and an Angular frontend.

The model covers the backend's transactional services and the controllers that turn their outcomes into HTTP replies:

- placing orders directly and from the cart, with stock reservation;
- rolling item statuses up into an order status;
- seller and admin cancellation with restocking;
- order status changes and the exchange round trip;
- the cart;
- reviews and seller replies;
- categories and products;
- users: registration, ban and unban, the seller request, password change;
- login and the name split of the login response;
- addresses;
- shipments;
- the Stripe webhook that records a payment intent.

On the frontend it covers:

- the quantity pickers of the cart page and the product page;
- the product list's filter and sort;
- the admin's status dialog;
- the role guard.

The whole database is one immutable `Domain.Shop` value: a map per table plus `nextId`, the identity generator. Every service call is a pure function from a `Shop` to a `Result`. An `Err` carries the kind of the exception the Java code throws. A transaction that throws leaves nothing behind, so on `Err` there is no new state. Controller endpoints return a `Reply` holding the HTTP status the controller picks. Money is integer cents.

Modules follow the source files: `Common` holds the helpers, `Domain` the entities, and `Stock` the stock arithmetic shared by ordering and cancelling. Each remaining module is named after the service, controller or component it models.

The item statuses are PREPARING, SHIPPED, DELIVERED, EXCHANGED and CANCELLED, plus CANCELLED_BY_SELLER, which the seller cancel sets. The refund endpoints call service methods whose source is not part of this model.

## Model

| member | source | states |
|---|---|---|
| Stock.Reserve | backend/src/main/java/com/ecommerce/backend/service/OrderService.java:52-74 | reservation fails only with a RuntimeError, succeeds only when every line names a known product, and changes nothing but stock levels |
| Stock.ReserveStock | backend/src/main/java/com/ecommerce/backend/service/OrderService.java:57-62 | after a successful reservation each product's stock has dropped by the total quantity ordered of it, and no ordered product's stock is negative |
| Stock.ReserveSucceedsIff | backend/src/main/java/com/ecommerce/backend/service/OrderService.java:52-62 | a reservation succeeds exactly when every product exists and its stock covers the summed quantity of all lines naming it, so repeated lines of one product are checked against the running stock |
| Stock.ReserveCovers | backend/src/main/java/com/ecommerce/backend/service/OrderService.java:111-115 | a reservation that goes through never oversells: the starting stock of every ordered product covers the total quantity all lines ask of it |
| Stock.ReserveOkWhenCovered | backend/src/main/java/com/ecommerce/backend/service/OrderService.java:57-59 | when the stock covers every product's total demand, no stock check fails |
| Stock.DemandCoversLine | backend/src/main/java/com/ecommerce/backend/service/OrderService.java:57-59 | a product's total demand is at least any single line's quantity of it |
| Stock.DemandNonNegative | backend/src/main/java/com/ecommerce/backend/service/OrderService.java:61-62 | with non-negative quantities a product's total demand is non-negative |
| Stock.Restock | backend/src/main/java/com/ecommerce/backend/service/OrderService.java:261-265 | restocking an order's items fails with a NullPointer exactly when an item or its product is missing, and otherwise changes only stock levels |
| Stock.RestockStock | backend/src/main/java/com/ecommerce/backend/service/OrderService.java:261-265 | after restocking each product's stock has grown by the total quantity of it in the given items |
| OrderService.ValidateUserAddress | backend/src/main/java/com/ecommerce/backend/service/OrderService.java:30-34 | a user is refused with a MissingAddress exception exactly when they have no saved address |
| OrderService.Pair | backend/src/main/java/com/ecommerce/backend/service/OrderService.java:52-55 | the i-th ordered line is the i-th product id with the i-th quantity |
| OrderService.CartOrderLines | backend/src/main/java/com/ecommerce/backend/service/OrderService.java:106-110 | the order from a cart has one line per cart line, with the same product and quantity, in cart order |
| OrderService.NewItems | backend/src/main/java/com/ecommerce/backend/service/OrderService.java:64-71 | the new order items get fresh consecutive ids, one per line, each PREPARING, with the product's current price frozen in |
| OrderService.CommitPlaces | backend/src/main/java/com/ecommerce/backend/service/OrderService.java:73-79 | the saved order belongs to the user, ships to their first address, totals price times quantity over its lines, lists exactly the new items, and nothing but stock, orders and items changes |
| OrderService.PlaceOrder | backend/src/main/java/com/ecommerce/backend/service/OrderService.java:36-79 | an unknown user fails with a RuntimeError, a user without an address fails with MissingAddress, too few quantities fail, and a success is a placed order in the sense of CommitPlaces, whose starting stock covered every product's total demand |
| OrderService.PlaceOrderSucceedsIff | backend/src/main/java/com/ecommerce/backend/service/OrderService.java:36-79 | with non-negative quantities an order is placed exactly when the user exists, has an address, gives a quantity for every product, and every product exists with stock covering its total demand |
| OrderService.PlaceOrderKeepsValid | backend/src/main/java/com/ecommerce/backend/service/OrderService.java:77-78 | placing an order keeps every stored id below the identity generator, and the new order's id was free |
| OrderService.PlaceOrderFromCart | backend/src/main/java/com/ecommerce/backend/service/OrderService.java:81-139 | the same refusals as placeOrder, plus a RuntimeError for a missing or empty cart; on success the starting stock covered each cart product's total quantity, the cart's lines became the placed order and the cart is left empty |
| OrderService.PlaceOrderFromCartSucceedsIff | backend/src/main/java/com/ecommerce/backend/service/OrderService.java:81-139 | with non-negative cart quantities, an order is placed from the cart exactly when the user exists, has an address and a non-empty cart, and every cart product exists with stock covering the total quantity the cart asks of it |
| OrderService.CheckSeller | backend/src/main/java/com/ecommerce/backend/service/OrderService.java:242-246 | the ownership check passes exactly when every item exists and its product's seller is the caller |
| OrderService.UpdateOrderItemStatus | backend/src/main/java/com/ecommerce/backend/service/OrderService.java:186-198 | an unknown item fails; otherwise only that item's status changes, and its order's status is recomputed from the new item statuses while every other order stays as it was |
| OrderService.RestoreAndMark | backend/src/main/java/com/ecommerce/backend/service/OrderService.java:225-233 | a seller cancel returns the item's quantity to its product's stock, marks the item CANCELLED_BY_SELLER, sets the item's order to the rollup of its items' new statuses and touches no other order |
| OrderService.CancelItemAs | backend/src/main/java/com/ecommerce/backend/service/OrderService.java:205-236 | an unknown item fails with a RuntimeError, another seller's item with a SecurityError, and a delivered or already cancelled item with an IllegalState; the cancel succeeds exactly for the item's own seller while it is cancellable, with the restock, mark and order rollup of RestoreAndMark |
| OrderService.CancelOrderItemBySeller | backend/src/main/java/com/ecommerce/backend/service/OrderService.java:200-236 | an unknown seller email fails with a RuntimeError; otherwise the outcome is the cancel attempted as the seller that email names |
| OrderService.SecondSellerCancelFails | backend/src/main/java/com/ecommerce/backend/service/OrderService.java:221-223 | cancelling the same item twice is refused the second time with an IllegalState, so stock is restored only once |
| OrderService.SellerCancelRollsUp | backend/src/main/java/com/ecommerce/backend/service/OrderService.java:200-236 | in the state a successful seller cancel produces (CancelItemAs returns RestoreAndMark), the order is CANCELLED when every other item of it was already cancelled (and, unless it already was, only then); while another item is still PREPARING the order is PREPARING |
| OrderService.RollupAfterCancel | backend/src/main/java/com/ecommerce/backend/service/OrderService.java:142-184 | the rollup of an order in which one item has just become CANCELLED_BY_SELLER, stated through the other items: all of them cancelled gives CANCELLED, a PREPARING one gives PREPARING |
| OrderService.UpdateOrderStatus | backend/src/main/java/com/ecommerce/backend/service/OrderService.java:238-255 | an order's status is set exactly when the caller sells every one of its items and the new status is PREPARING, SHIPPED or DELIVERED; nothing else changes |
| OrderService.CancelOrderByAdmin | backend/src/main/java/com/ecommerce/backend/service/OrderService.java:257-269 | an admin cancel of an order whose items and products all exist always succeeds, marks the order CANCELLED and returns every item's quantity to stock |
| OrderService.AdminCancelRestocksTwice | backend/src/main/java/com/ecommerce/backend/service/OrderService.java:257-269 | the admin cancel has no guard against repetition: a second cancel of the same order succeeds and returns the quantities to stock a second time |
| OrderService.RequestExchange | backend/src/main/java/com/ecommerce/backend/service/OrderService.java:292-306 | an exchange may be requested exactly by the order's customer on a DELIVERED order, and it sets the order to EXCHANGE_REQUESTED and nothing else |
| OrderService.ApproveExchangeRequest | backend/src/main/java/com/ecommerce/backend/service/OrderService.java:309-324 | an exchange is approved exactly by the seller of every item of an order in EXCHANGE_REQUESTED, and it moves the order back to PREPARING |
| OrderService.ExchangeRoundTrip | backend/src/main/java/com/ecommerce/backend/service/OrderService.java:292-324 | request then approval of an exchange on a delivered order leaves the shop as it was except that the order is PREPARING again |
| OrderAggregate.AllCancelled | backend/src/main/java/com/ecommerce/backend/service/OrderService.java:147-150 | true exactly when every item is cancelled by anyone |
| OrderAggregate.ActiveOnly | backend/src/main/java/com/ecommerce/backend/service/OrderService.java:158-163 | keeps exactly the statuses that are not a cancellation |
| OrderAggregate.AllDelivered | backend/src/main/java/com/ecommerce/backend/service/OrderService.java:165-166 | true exactly when every status is DELIVERED |
| OrderAggregate.AllShippedOrDelivered | backend/src/main/java/com/ecommerce/backend/service/OrderService.java:167-168 | true exactly when every status is SHIPPED or DELIVERED |
| OrderAggregate.AnyPreparing | backend/src/main/java/com/ecommerce/backend/service/OrderService.java:173-178 | true exactly when some status is PREPARING |
| OrderAggregate.Rollup | backend/src/main/java/com/ecommerce/backend/service/OrderService.java:142-184 | no items keep the order's status; all cancelled gives CANCELLED; live items never newly cancel the order; live items all delivered give DELIVERED; shipped ones with the rest delivered give SHIPPED; any preparing item gives PREPARING; an exchanged item without a preparing one keeps the status |
| OrderAggregate.StatusesOf | backend/src/main/java/com/ecommerce/backend/service/OrderService.java:143 | when every id is a stored item, the statuses are those items' statuses in order |
| OrderAggregate.RecomputeOrder | backend/src/main/java/com/ecommerce/backend/service/OrderService.java:142-184 | recomputing one order sets its status to the rollup of its current status and its items' statuses, and changes nothing else |
| OrderController.ItemActionStatus | backend/src/main/java/com/ecommerce/backend/controller/OrderController.java:107-113 | a SecurityError becomes 403, an IllegalState 409, and any other exception 404 |
| OrderController.RefundActionStatus | backend/src/main/java/com/ecommerce/backend/controller/OrderController.java:290-297 | a SecurityError becomes 403, an IllegalState 409, and any other exception 500 |
| OrderController.ClassificationsAgree | backend/src/main/java/com/ecommerce/backend/controller/OrderController.java:207-213 | the item endpoints and the refund endpoints agree on 403 and 409 and differ only on the other exceptions, 404 against 500 |
| OrderController.ItemReply | backend/src/main/java/com/ecommerce/backend/controller/OrderController.java:98-114 | an item endpoint answers 200 with the result exactly on success, and otherwise the classified status with the exception message and no body |
| OrderController.PlaceOrderFromCartEndpoint | backend/src/main/java/com/ecommerce/backend/controller/OrderController.java:53-82 | for a caller the CUSTOMER-only role gate admits: an unknown principal escapes; a principal other than the path's user gets 403; the path's own user gets 200 exactly when the placement succeeds, and the 200 carries the placed order; it gets 400 exactly when the placement fails, and then nothing changes |
| OrderController.PlacedOrderIsPrincipals | backend/src/main/java/com/ecommerce/backend/controller/OrderController.java:53-82 | an order placed through the endpoint belongs to the logged-in principal, whose cart is then empty |
| OrderController.GetOrders | backend/src/main/java/com/ecommerce/backend/controller/OrderController.java:147-169 | for a caller the CUSTOMER-only role gate admits: a user sees exactly their own orders, as a set (the newest-first order of the list is not modelled); anyone else gets 403, and an unknown principal 400 |
| OrderController.CancelBySellerEndpoint | backend/src/main/java/com/ecommerce/backend/controller/OrderController.java:200-214 | a refused seller cancel changes nothing; a 200 carries the cancelled item the service returned |
| OrderController.CancelBySellerStatus | backend/src/main/java/com/ecommerce/backend/controller/OrderController.java:200-214 | 200 exactly for the item's own seller while it is cancellable; 403 for another seller; 409 for a delivered or cancelled item; 404 for an unknown seller, item or product owner |
| OrderController.RefundOrder | backend/src/main/java/com/ecommerce/backend/controller/OrderController.java:127-143 | for a caller the ADMIN-only role gate admits, a refund answers 200 exactly for a known order with a non-blank payment intent whose refund goes through, and then marks the order CANCELLED; every refusal is a 400 that changes nothing |
| OrderController.RefundRepeats | backend/src/main/java/com/ecommerce/backend/controller/OrderController.java:131-137 | nothing stops a second refund of an already refunded order: it answers 200 again |
| OrderController.RefundActionReply | backend/src/main/java/com/ecommerce/backend/controller/OrderController.java:277-297 | a refund-request endpoint answers 200 exactly on success and otherwise the refund classification with no body |
| CartService.FirstLineOf | backend/src/main/java/com/ecommerce/backend/service/CartService.java:51-56 | finds the first cart line of the product, or reports that there is none |
| CartService.GetOrCreateCart | backend/src/main/java/com/ecommerce/backend/service/CartService.java:23-37 | an unknown user fails; an existing cart is returned untouched; otherwise a new empty cart is stored |
| CartService.PutLine | backend/src/main/java/com/ecommerce/backend/service/CartService.java:51-66 | the first line of the product gets the new quantity and every other line stays; a product not yet in the cart is appended |
| CartService.AddToCart | backend/src/main/java/com/ecommerce/backend/service/CartService.java:38-67 | adding succeeds exactly for a known user and a known product whose stock covers the quantity; the stored cart is the old cart with that product's quantity set |
| CartService.PutLineKeepsOneLinePerProduct | backend/src/main/java/com/ecommerce/backend/service/CartService.java:51-66 | a cart with one line per product keeps that shape, and the product's line holds the quantity just set |
| CartService.WithoutProduct | backend/src/main/java/com/ecommerce/backend/service/CartService.java:71-75 | removes every line of the product and keeps all other lines |
| CartService.RemoveFromCart | backend/src/main/java/com/ecommerce/backend/service/CartService.java:71-75 | removing fails only for an unknown user and otherwise drops the product's lines from the stored cart |
| CartService.ClearCart | backend/src/main/java/com/ecommerce/backend/service/CartService.java:77-81 | clearing fails only for an unknown user and leaves the user's cart empty |
| CartService.AddThenRemove | backend/src/main/java/com/ecommerce/backend/service/CartService.java:38-75 | adding a new product and removing it again restores the shop and the cart |
| CategoryService.NormaliseId | backend/src/main/java/com/ecommerce/backend/service/CategoryService.java:26-28 | an id of 0 counts as no id; any other id is kept |
| CategoryService.MergeTarget | backend/src/main/java/com/ecommerce/backend/service/CategoryService.java:26-30 | the save overwrites a stored category exactly when the normalised id is present and names one |
| CategoryService.AddCategory | backend/src/main/java/com/ecommerce/backend/service/CategoryService.java:20-31 | a taken name is refused; otherwise a category without an id, with id 0 or with an id naming no category is stored under a fresh id, and one whose id names a stored category overwrites it |
| CategoryService.AddCategoryKeepsNamesUnique | backend/src/main/java/com/ecommerce/backend/service/CategoryService.java:20-31 | adding a category keeps category names unique, and the name is then taken |
| CategoryService.AddCategoryKeepsValid | backend/src/main/java/com/ecommerce/backend/service/CategoryService.java:20-31 | adding a category, by insert or by overwrite, keeps every stored id among the ids handed out |
| CategoryService.DeleteCategory | backend/src/main/java/com/ecommerce/backend/service/CategoryService.java:33-35 | deleting fails with a constraint violation exactly while a product belongs to the category (the foreign key of Product.java:37-39); otherwise it removes that id only and keeps every other category |
| CategoryService.DeleteFreesName | backend/src/main/java/com/ecommerce/backend/service/CategoryService.java:33-35 | a category no product belongs to is deleted, and its name may then be used again |
| CategoryService.AddThenDeleteCategory | backend/src/main/java/com/ecommerce/backend/service/CategoryService.java:20-35 | a category just inserted holds no product, so deleting it restores the shop apart from the used id |
| ReviewService.AddReview | backend/src/main/java/com/ecommerce/backend/service/ReviewService.java:22-42 | an unknown product or email fails with a RuntimeError; a second review by the same customer fails with an IllegalState; otherwise one new review is stored, without a seller reply |
| ReviewService.AddReviewKeepsOnePerCustomer | backend/src/main/java/com/ecommerce/backend/service/ReviewService.java:29-31 | adding a review keeps at most one review per customer and product |
| ReviewService.SecondReviewRefused | backend/src/main/java/com/ecommerce/backend/service/ReviewService.java:29-31 | right after a review, any second review of the product by the same customer is refused |
| ReviewService.ReplyToReview | backend/src/main/java/com/ecommerce/backend/service/ReviewService.java:51-61 | only the seller of the reviewed product may reply, and the reply changes only that review's reply text |
| ReviewService.LastReplyWins | backend/src/main/java/com/ecommerce/backend/service/ReviewService.java:51-61 | replying twice is the same as replying once with the second text |
| ProductService.AddProduct | backend/src/main/java/com/ecommerce/backend/service/ProductService.java:40-56 | a product is saved exactly for a known seller-role user and a known category, active, with that seller and category; a body whose id names a stored product overwrites it, and any other body is stored under a fresh id |
| ProductService.AddProductKeepsValid | backend/src/main/java/com/ecommerce/backend/service/ProductService.java:40-56 | adding a product, by insert or by overwrite, keeps every stored id and every reference among the ids handed out |
| ProductService.DeactivateProduct | backend/src/main/java/com/ecommerce/backend/service/ProductService.java:58-64 | deactivating a known product clears only its active flag |
| ProductService.DeleteProductByAdmin | backend/src/main/java/com/ecommerce/backend/service/ProductService.java:66-73 | an admin delete only sets the deleted-by-admin flag and keeps the product stored |
| ProductService.DeleteProductBySeller | backend/src/main/java/com/ecommerce/backend/service/ProductService.java:82-94 | a seller delete removes the product exactly when the email names the product's seller and no order item, cart line or review names the product (the foreign keys of OrderItem.java:21-22, CartItem.java:19-22 and Review.java:20-21); such a reference gives a constraint violation, a product without a seller a NullPointer, and every other refusal a RuntimeError |
| ProductService.UnlistingKeepsProduct | backend/src/main/java/com/ecommerce/backend/service/ProductService.java:58-73 | deactivation and admin deletion both unlist the product without removing it, and the two commute |
| ProductService.AddThenSellerDeletes | backend/src/main/java/com/ecommerce/backend/service/ProductService.java:40-94 | a freshly inserted product is referenced by nothing, so exactly its seller can delete it, which restores the shop apart from the used id |
| ProductService.Rating | backend/src/main/java/com/ecommerce/backend/service/ProductService.java:104-114 | the review count is the number of reviews, and no reviews give a zero sum |
| ProductService.RatingAppend | backend/src/main/java/com/ecommerce/backend/service/ProductService.java:104-114 | the rating summary of two review lists together is the sum of their summaries |
| ProductService.RatingSingle | backend/src/main/java/com/ecommerce/backend/service/ProductService.java:110-113 | one review counts once with its own rating |
| ProductService.RatingIsTotal | backend/src/main/java/com/ecommerce/backend/service/ProductService.java:111-112 | the sum behind the average is the plain total of the reviews' ratings |
| ProductService.RatingOnScale | backend/src/main/java/com/ecommerce/backend/service/ProductService.java:104-114 | with ratings from 1 to 5, the average lies between 1 and 5 |
| ShipmentService.CreateShipment | backend/src/main/java/com/ecommerce/backend/service/ShipmentService.java:20-31 | a shipment is created exactly for a known order, PENDING and with no timestamps |
| ShipmentService.Advance | backend/src/main/java/com/ecommerce/backend/service/ShipmentService.java:33-46 | a status change stamps the shipped time on SHIPPED and the delivered time on DELIVERED and keeps the other stamp |
| ShipmentService.UpdateShipmentStatus | backend/src/main/java/com/ecommerce/backend/service/ShipmentService.java:33-46 | an unknown shipment fails; otherwise only that shipment changes |
| ShipmentService.AdvanceAllStamps | backend/src/main/java/com/ecommerce/backend/service/ShipmentService.java:39-43 | after any series of status changes the shipped and delivered stamps are the times of the last SHIPPED and DELIVERED changes, and the status is the last one set |
| ShipmentService.NewShipmentStamps | backend/src/main/java/com/ecommerce/backend/service/ShipmentService.java:20-46 | a new shipment has a shipped stamp exactly when some change set SHIPPED, and likewise for DELIVERED |
| StripeWebhook.ParseLong | backend/src/main/java/com/ecommerce/backend/service/StripeWebhookService.java:42 | the order id parses exactly when its text is a sign or digit followed by digits only, with at least one digit, and the value fits the 64-bit range; the parsed value then has the digits' magnitude and the text's sign |
| StripeWebhook.MalformedIdRefused | backend/src/main/java/com/ecommerce/backend/service/StripeWebhookService.java:42 | text with a non-digit anywhere other than a leading sign before further text is refused |
| StripeWebhook.ParseDecimal | backend/src/main/java/com/ecommerce/backend/service/StripeService.java:53 | the order id written into the session metadata parses back to the same id |
| StripeWebhook.HandleEvent | backend/src/main/java/com/ecommerce/backend/service/StripeWebhookService.java:31-78 | other event types and sessions without an order id change nothing; an undeserialisable session, a malformed id and an unknown order fail; a paid session records a new non-blank payment intent and otherwise leaves the order |
| StripeWebhook.RedeliveryIsHarmless | backend/src/main/java/com/ecommerce/backend/service/StripeWebhookService.java:56-75 | handling the same event a second time changes nothing further |
| StripeWebhook.HandleEventChangesOnlyIntent | backend/src/main/java/com/ecommerce/backend/service/StripeWebhookService.java:56-63 | the webhook changes at most one order's payment intent, and only to the intent of a paid session |
| UserService.NewUser | backend/src/main/java/com/ecommerce/backend/service/UserService.java:34-39 | a new user has the given email, encoded password and role, is not banned, has no seller request and no addresses |
| UserService.RegisterUser | backend/src/main/java/com/ecommerce/backend/service/UserService.java:29-42 | a taken email is refused; otherwise exactly one new user is stored under a fresh id |
| UserService.RegisterKeepsEmailsUnique | backend/src/main/java/com/ecommerce/backend/service/UserService.java:29-42 | registration keeps emails unique, and the email then finds the new user |
| UserService.BanUser | backend/src/main/java/com/ecommerce/backend/service/UserService.java:44-50 | banning fails only for an unknown user and sets only that user's banned flag |
| UserService.UnbanUser | backend/src/main/java/com/ecommerce/backend/service/UserService.java:52-58 | unbanning fails only for an unknown user and clears only that user's banned flag |
| UserService.BanThenUnban | backend/src/main/java/com/ecommerce/backend/service/UserService.java:44-58 | banning then unbanning a user who was not banned restores the shop |
| UserService.ChangeUserPassword | backend/src/main/java/com/ecommerce/backend/service/UserService.java:60-82 | the password changes exactly for a known email whose current password matches and a non-empty new password, which is stored encoded; a wrong current password gets its own message |
| UserService.ChangePasswordTwice | backend/src/main/java/com/ecommerce/backend/service/UserService.java:60-82 | after a change, the new password is accepted as the current one |
| UserController.Field | backend/src/main/java/com/ecommerce/backend/controller/UserController.java:45-64 | a field is overwritten exactly when a value is given and differs from the stored one |
| UserController.Patched | backend/src/main/java/com/ecommerce/backend/controller/UserController.java:45-71 | only the five patchable fields may change, and the address is unchanged exactly when no field differs |
| UserController.UpdateAddress | backend/src/main/java/com/ecommerce/backend/controller/UserController.java:31-72 | only the owner of a stored address may patch it; the changed flag says whether anything differs, and without a change nothing is saved |
| UserController.UpdateAddressIdempotent | backend/src/main/java/com/ecommerce/backend/controller/UserController.java:31-72 | applying the same patch again reports no change and saves nothing |
| UserController.BanUser | backend/src/main/java/com/ecommerce/backend/controller/UserController.java:89-101 | an admin is never banned and gets 400; any other known user is banned |
| UserController.UnbanUser | backend/src/main/java/com/ecommerce/backend/controller/UserController.java:105-113 | any known user is unbanned |
| UserController.BanNeverBansAdmin | backend/src/main/java/com/ecommerce/backend/controller/UserController.java:89-101 | the ban endpoint keeps every banned user a non-admin |
| UserController.ApproveSellerRequest | backend/src/main/java/com/ecommerce/backend/controller/UserController.java:117-130 | only a customer is approved, becoming a seller with the request cleared; anyone else gets 400 and nothing changes |
| UserController.RequestSellerStatus | backend/src/main/java/com/ecommerce/backend/controller/UserController.java:134-156 | a non-customer gets 400 and a banned customer 403; any other customer ends with the request recorded, and a repeated request changes nothing |
| UserController.RequestThenApprove | backend/src/main/java/com/ecommerce/backend/controller/UserController.java:117-156 | a customer who requests and is approved becomes a seller, and a further request is refused with 400 |
| AdminController.GetUserById | backend/src/main/java/com/ecommerce/backend/controller/AdminController.java:29-33 | returns exactly the stored user, and fails for an unknown id |
| AdminController.BanUser | backend/src/main/java/com/ecommerce/backend/controller/AdminController.java:37-48 | an admin target gets 400 and is not banned; any other target ends banned; no other user changes |
| AdminController.BanIdempotent | backend/src/main/java/com/ecommerce/backend/controller/AdminController.java:37-48 | banning twice answers the same and changes nothing the second time |
| AdminController.UnbanUser | backend/src/main/java/com/ecommerce/backend/controller/AdminController.java:52-59 | any known user is unbanned |
| AdminController.SameAsUserController | backend/src/main/java/com/ecommerce/backend/controller/AdminController.java:37-59 | the admin endpoints and the user endpoints for ban and unban agree on every input |
| AuthService.SplitOnce | backend/src/main/java/com/ecommerce/backend/service/AuthService.java:60-68 | the first name is the text before the first whitespace run, and the last name is the rest after that run |
| AuthService.NameParts | backend/src/main/java/com/ecommerce/backend/service/AuthService.java:60-68 | a missing or empty full name gives an empty first and last name |
| AuthService.JoinName | backend/src/main/java/com/ecommerce/backend/service/AuthService.java:29 | the full name is the first name, one space and the last name |
| AuthService.NamesRoundTrip | backend/src/main/java/com/ecommerce/backend/service/AuthService.java:29-68 | a first name without whitespace and a last name not starting with whitespace come back unchanged from the login split |
| AuthService.NullNameJoined | backend/src/main/java/com/ecommerce/backend/service/AuthService.java:29 | a null first name is stored as a full name starting "null ", and a null last name as one ending " null" |
| AuthService.Register | backend/src/main/java/com/ecommerce/backend/service/AuthService.java:27-38 | a taken email fails; otherwise one new user is stored with the joined name (a null name written as "null") and the encoded password, and the response echoes the role, the id and the names as given, null included |
| AuthService.Login | backend/src/main/java/com/ecommerce/backend/service/AuthService.java:40-71 | an unknown email, a banned user and a wrong password each fail with their own exception; otherwise the response carries the user's role, id and split name |
| AuthService.RegisterThenLogin | backend/src/main/java/com/ecommerce/backend/service/AuthService.java:27-71 | logging in with the password just registered gives back the registration's response, except that a name registered as null comes back as the text "null" |
| AuthController.LoginFailureReply | backend/src/main/java/com/ecommerce/backend/controller/AuthController.java:30-43 | a message mentioning "banned" gives 403; otherwise bad credentials give 401, an unknown user 404, and anything else 500 |
| AuthController.LoginEndpoint | backend/src/main/java/com/ecommerce/backend/controller/AuthController.java:27-45 | login answers 200 with the service's response exactly when the service succeeds, and otherwise the classified failure |
| AuthController.LoginStatus | backend/src/main/java/com/ecommerce/backend/controller/AuthController.java:27-45 | 404 exactly for an unknown email, 403 for a banned user, 401 for a wrong password and 200 otherwise |
| AddressController.GetUserAddresses | backend/src/main/java/com/ecommerce/backend/controller/AddressController.java:26-42 | a caller who is neither an admin nor the user gets 403; otherwise the reply lists exactly that user's addresses |
| AddressController.AddAddress | backend/src/main/java/com/ecommerce/backend/controller/AddressController.java:44-53 | the address is stored under a fresh id, owned by the caller and appended to the caller's list |
| AddressController.UpdateAddress | backend/src/main/java/com/ecommerce/backend/controller/AddressController.java:55-92 | an unknown address gets 404 and another user's address 403, both changing nothing; otherwise each given field overwrites the stored one and the rest stay |
| AddressController.DeleteAddress | backend/src/main/java/com/ecommerce/backend/controller/AddressController.java:94-112 | an unknown address gets 404 and another user's address 403; an address an order ships to is refused with a constraint violation (the foreign key of Order.java:38-40); otherwise the address is removed from the table and from every user's list |
| AddressController.AddAddressKeepsLinked | backend/src/main/java/com/ecommerce/backend/controller/AddressController.java:44-53 | after adding, every listed address still exists and belongs to the user listing it |
| AddressController.DeleteAddressKeepsLinked | backend/src/main/java/com/ecommerce/backend/controller/AddressController.java:94-112 | after deleting, every listed address still exists and belongs to the user listing it |
| AddressController.AddThenDelete | backend/src/main/java/com/ecommerce/backend/controller/AddressController.java:44-112 | no order ships to an address just added, so deleting it restores the shop apart from the used id |
| AddressController.ListedAreUpdatable | backend/src/main/java/com/ecommerce/backend/controller/AddressController.java:26-92 | any address the list endpoint shows the caller can be updated by the same caller |
| AddressController.UpdateAddressIdempotent | backend/src/main/java/com/ecommerce/backend/controller/AddressController.java:55-92 | applying the same update twice gives the same address |
| CartView.Increase | frontend/frontend/src/app/cart/cart.component.ts:63-123 | a busy line does nothing; at or above a known stock the press is refused; otherwise one more is requested for the logged-in user, and nothing is sent without a user with a non-zero id |
| CartView.Decrease | frontend/frontend/src/app/cart/cart.component.ts:79-147 | a busy line, or no user with a non-zero id, sends nothing; otherwise going below one removes the line and anything else requests one less, still at least one, each for the logged-in user |
| CartView.Corrected | frontend/frontend/src/app/cart/cart.component.ts:90-118 | the typed quantity is kept when it lies between 1 and the stock, and is otherwise pulled into that range |
| CartView.QuantityInput | frontend/frontend/src/app/cart/cart.component.ts:90-123 | for a logged-in user with a non-zero id, a request is sent exactly when the corrected quantity differs from the line's; without one nothing is sent |
| CartView.RequestsStayWithinStock | frontend/frontend/src/app/cart/cart.component.ts:63-118 | from a line within its stock, every request asks for between 1 and the stock |
| CartView.DecreaseThenIncrease | frontend/frontend/src/app/cart/cart.component.ts:63-88 | for a logged-in user, minus then plus requests the original quantity again |
| CartView.NoUserNoRequest | frontend/frontend/src/app/cart/cart.component.ts:120-147 | without a logged-in user with a non-zero id, no quantity handler sends a request |
| CartView.CartTotal | frontend/frontend/src/app/cart/cart.component.ts:185-194 | without a cart or lines the total is 0 |
| CartView.ViewOf | frontend/frontend/src/app/cart/cart.component.ts:185-194 | each shown line has the stored quantity and, when the product exists, its current price and stock |
| CartView.ShownTotalIsOrderTotal | frontend/frontend/src/app/cart/cart.component.ts:185-194 | the total the cart page shows equals the total of the order placed from that cart |
| CartView.MayCheckout | frontend/frontend/src/app/cart/cart.component.ts:196-202 | checkout goes ahead exactly when a user with a non-zero id is logged in and the cart has at least one line |
| CartView.EmptyCartRefusedOnBothSides | frontend/frontend/src/app/cart/cart.component.ts:196-202 | whenever the page refuses checkout for a known user with a cart, the backend refuses the order too |
| ProductDetail.Increase | frontend/frontend/src/app/product-detail/product-detail.component.ts:185-189 | the quantity grows by one only below a known stock |
| ProductDetail.Decrease | frontend/frontend/src/app/product-detail/product-detail.component.ts:191-195 | the quantity shrinks by one only above one |
| ProductDetail.QuantityInput | frontend/frontend/src/app/product-detail/product-detail.component.ts:197-209 | a typed quantity between 1 and the stock is kept; anything else is pulled into that range |
| ProductDetail.PickerStaysInRange | frontend/frontend/src/app/product-detail/product-detail.component.ts:185-209 | from a quantity within the stock, every picker action stays within 1 and the stock |
| ProductDetail.QuantityInputIdempotent | frontend/frontend/src/app/product-detail/product-detail.component.ts:197-209 | correcting an already corrected quantity leaves it as it is |
| ProductDetail.AddToCart | frontend/frontend/src/app/product-detail/product-detail.component.ts:211-248 | a visitor who is not logged in goes to login, carrying the product and quantity when there is a product; a cart request is sent exactly with a product, a real user id and a positive quantity |
| ProductDetail.MaySubmitReview | frontend/frontend/src/app/product-detail/product-detail.component.ts:145-150 | a review is sent only with a rating from 1 to 5, a comment of at least 10 characters, a logged-in buyer and a loaded product |
| ProductDetail.TypedQuantityAccepted | frontend/frontend/src/app/product-detail/product-detail.component.ts:197-248 | any quantity the product page settles on is accepted by the backend cart |
| ProductList.Filter | frontend/frontend/src/app/products/products.component.ts:141-154 | keeps exactly the loaded products in the URL's category and inside the inclusive price range |
| ProductList.FilterSingle | frontend/frontend/src/app/products/products.component.ts:141-154 | one loaded product is shown exactly when it is in the URL's category and inside the inclusive price range |
| ProductList.FilterAppend | frontend/frontend/src/app/products/products.component.ts:141-154 | the filter of two runs of products is the filter of the first followed by the filter of the second, so loaded order and repeats are kept |
| ProductList.Sort | frontend/frontend/src/app/products/products.component.ts:156-166 | the sorted list is a permutation of its input |
| ProductList.ApplyFiltersAndSorting | frontend/frontend/src/app/products/products.component.ts:139-168 | shows exactly the products that pass the filters, each as often as loaded, in loaded order when no known sort is chosen |
| ProductList.SortSorted | frontend/frontend/src/app/products/products.component.ts:156-166 | sorting orders the list by the chosen key |
| ProductList.SortStable | frontend/frontend/src/app/products/products.component.ts:156-166 | sorting keeps products with equal keys in their loaded order |
| ProductList.SortedAndStable | frontend/frontend/src/app/products/products.component.ts:139-168 | for each known sort the shown list is ordered by its key, with ties in loaded order |
| ProductList.SortedMeans | frontend/frontend/src/app/products/products.component.ts:156-166 | price ascending puts the cheapest first, price descending the dearest, and rating the best rated |
| StatusModal.Init | frontend/frontend/src/app/admin-dashboard/change-item-status-modal/change-item-status-modal.component.ts:36-40 | the dialog opens with the item's status selected, or nothing without an item |
| StatusModal.Save | frontend/frontend/src/app/admin-dashboard/change-item-status-modal/change-item-status-modal.component.ts:48-68 | an event is emitted exactly for a non-empty selection other than the item's status on an item with a non-zero id, and it carries that id and the selection |
| StatusModal.SaveAfterInitIsSilent | frontend/frontend/src/app/admin-dashboard/change-item-status-modal/change-item-status-modal.component.ts:36-68 | saving without changing the selection emits nothing |
| StatusModal.OfferedChangeIsEmitted | frontend/frontend/src/app/admin-dashboard/change-item-status-modal/change-item-status-modal.component.ts:31-68 | choosing any other offered status for a real item emits it |
| StatusModal.OfferedAgainstService | frontend/frontend/src/app/admin-dashboard/change-item-status-modal/change-item-status-modal.component.ts:7-14 | of the offered names only PREPARING, SHIPPED, DELIVERED and EXCHANGED are statuses the backend knows, and its two cancelled statuses are not offered |
| RoleGuard.CanActivate | frontend/frontend/src/app/auth/guards/role.guard.ts:13-35 | a visitor who is not logged in goes to login with the URL to come back to; a user of the route's role passes; any other user goes to the product list |
| RoleGuard.Target | frontend/frontend/src/app/auth/guards/role.guard.ts:20-34 | exactly the refusals navigate away, and only to the login page or the product list |

## Left out

- The refund-request workflow: `requestRefund`, `approveRefund`, `rejectRefund`, `cancelOrderItemByAdmin`, the three-argument `updateOrderItemStatus` and the refund queries. The controller calls these service methods, whose source is not part of this model. Only the controller's status mapping around them is modelled.
- StripeService, the Stripe session creation and refund calls, and webhook signature checking: these are calls into Stripe. The webhook model starts from the verified, parsed event, and a refund's outcome is a boolean parameter.
- Logging, the JPA repositories, transaction plumbing and the framework's exception-to-HTTP mapping. An `Err` stands for an exception escaping the call.
- The method-level `@PreAuthorize` role gates of the controllers. Each endpoint model describes a caller whose role the gate admits; a caller with another role is answered 403 by the framework before the method runs. For example, `placeOrderFromCart` and `getOrders` admit only CUSTOMER (OrderController.java:52 and :146), and `refundOrder` only ADMIN (OrderController.java:126).
- Category.java is not part of this model. The category side of the product association is taken to have no cascade, so a category that still holds products cannot be deleted.
- ProductService.AddProduct: a body whose id names no stored product is inserted under a fresh id, which is what a JPA merge of such an entity does in Hibernate before 6.6. Hibernate 6.6 and later refuse that merge with an optimistic-locking failure, and the framework version is not part of this model.
- CategoryService.AddCategory: a non-zero id naming no stored category is inserted under a fresh id, for the same reason and with the same caveat as for products.
- Clock readings are integer parameters.
- Password hashing and matching are function parameters.
- Read-only queries such as the category list, reviews by product, orders by seller, active-product lists and the purchase check: they change nothing and are not modelled.
- Thin controllers that only forward to a modelled service method.
- `UserController.addAddress`, which duplicates `AddressController.addAddress`.
- `ReviewService.deleteReview`, which is a bare repository delete.
- Floating point. Prices are integer cents. The product rating is kept as a (count, sum) pair rather than a double average. On the product page the average rating is an integer.
- Integer overflow: quantities, stock and totals are unbounded. The only exception is `Long.parseLong` in the webhook.
- ASCII only: whitespace, digits and case folding cover ASCII characters only.
- Messages: the Turkish exception messages are modelled by English constants. The controllers that match on message text ("banned") match on those constants.
- ShipmentStatus.java is not part of this model: its values are taken as PENDING, SHIPPED and DELIVERED, plus any other name.
- ProductList.Filter: a category query parameter that is not a number is taken as no category filter. The page actually compares against NaN and keeps no product.
- CartView.QuantityInput and ProductDetail.QuantityInput take the result of `parseInt` as an optional integer. JavaScript's leniency about trailing characters is not modelled.
- The components' loading flags, messages, console output and HTTP subscriptions, and the dialog's backdrop and close handlers.
- OrderController.GetOrders: the reply is the set of the user's order ids. The repository's query sorts them newest first, and that order is not modelled.
- Stock.Reserve: stock is checked and decremented line by line as in the loop. A failure part-way leaves no state, because the transaction rolls back.

=== FILE: address_controller.dfy ===
/** AddressController: every endpoint first resolves the principal (an
    unknown principal escapes as UsernameNotFoundException, returned as
    `Err` here); an address may then be read, changed or deleted by its
    owner or by an admin. The user's address list and the address's owner
    are the two sides of one association, kept in step here. */
module AddressController {
  import opened Common
  import opened Domain

  const PRINCIPAL_UNKNOWN := "Authenticated user not found with email: "
  const ADDRESS_IN_USE := "address still referenced by an order"

  /** Both sides of the user-address association agree: every listed
      address exists and is owned by the listing user, and every address is
      on its owner's list. */
  ghost predicate AddressesLinked(s: Shop) {
    Linked(s.addresses, s.users)
  }

  ghost predicate Linked(addresses: map<int, Address>, users: map<int, User>) {
    && (forall k, x :: k in users && x in users[k].addressIds ==> x in addresses && addresses[x].owner == k)
    && (forall x :: x in addresses ==> addresses[x].owner in users && x in users[addresses[x].owner].addressIds)
  }

  /** The owner or an admin may manage an address. */
  predicate MayManage(s: Shop, callerId: int, addressId: int)
    requires callerId in s.users && addressId in s.addresses
  {
    s.addresses[addressId].owner == callerId || s.users[callerId].role == Admin
  }

  /** The list with every occurrence of `x` dropped, in order. */
  function Without(xs: seq<int>, x: int): (r: seq<int>)
    ensures forall y :: y in r <==> y in xs && y != x
    ensures |r| <= |xs|
  {
    if |xs| == 0 then []
    else if xs[0] == x then Without(xs[1..], x)
    else [xs[0]] + Without(xs[1..], x)
  }

  /** GET /user/{userId}: 403 unless the principal is that user or an
      admin; an unknown target user gives an empty list, otherwise the ids
      of the addresses the target owns. */
  function GetUserAddresses(s: Shop, principal: string, userId: int): (r: Result<Reply<set<int>>>)
    ensures r.Err? <==> UserIdByEmail(s.users, principal).None?
    ensures r.Err? ==> r.failure.kind == UsernameNotFound
    ensures r.Ok? ==> var me := UserIdByEmail(s.users, principal).value;
                      (r.value.status == FORBIDDEN <==> s.users[me].role != Admin && me != userId)
    ensures r.Ok? ==> r.value.status in {OK, FORBIDDEN}
    ensures r.Ok? && r.value.status == OK && userId !in s.users ==> r.value.body == Some({})
    ensures r.Ok? && r.value.status == OK && userId in s.users ==>
              r.value.body.Some? && forall x :: x in r.value.body.value <==> x in s.addresses && s.addresses[x].owner == userId
  {
    match UserIdByEmail(s.users, principal)
    case None => Fail(UsernameNotFound, PRINCIPAL_UNKNOWN + principal)
    case Some(me) =>
      if s.users[me].role != Admin && me != userId then Ok(Reply(FORBIDDEN, "", None))
      else if userId !in s.users then Ok(Reply(OK, "", Some({})))
      else Ok(Reply(OK, "", Some(set x | x in s.addresses && s.addresses[x].owner == userId)))
  }

  /** POST: the request's id and owner are ignored; the address is stored
      under a new id, owned by the principal, and joins its list. */
  function AddAddress(s: Shop, principal: string, a: Address): (r: Result<(Shop, Reply<Address>)>)
    ensures r.Err? <==> UserIdByEmail(s.users, principal).None?
    ensures r.Err? ==> r.failure.kind == UsernameNotFound
    ensures r.Ok? ==>
              var me := UserIdByEmail(s.users, principal).value;
              var stored := a.(id := s.nextId, owner := me);
              && r.value.1 == Reply(CREATED, "", Some(stored))
              && r.value.0 == s.(addresses := s.addresses[s.nextId := stored],
                                 users := s.users[me := s.users[me].(addressIds := s.users[me].addressIds + [s.nextId])],
                                 nextId := s.nextId + 1)
  {
    match UserIdByEmail(s.users, principal)
    case None => Fail(UsernameNotFound, PRINCIPAL_UNKNOWN + principal)
    case Some(me) =>
      var stored := a.(id := s.nextId, owner := me);
      var u := s.users[me];
      Ok((s.(addresses := s.addresses[s.nextId := stored],
             users := s.users[me := u.(addressIds := u.addressIds + [s.nextId])],
             nextId := s.nextId + 1),
          Reply(CREATED, "", Some(stored))))
  }

  /** The request body of PUT /{addressId}; `None` is a null field. */
  datatype AddressDetails = AddressDetails(
    addressLine: Option<string>,
    city: Option<string>,
    state: Option<string>,
    postalCode: Option<string>,
    country: Option<string>,
    phoneNumber: Option<string>)

  /** A non-null field replaces the stored one. */
  function Given(given: Option<string>, stored: Option<string>): (r: Option<string>)
    ensures given.Some? ==> r == given
    ensures given.None? ==> r == stored
  {
    if given.Some? then given else stored
  }

  function Apply(d: AddressDetails, a: Address): Address {
    a.(addressLine := Given(d.addressLine, a.addressLine),
       city := Given(d.city, a.city),
       state := Given(d.state, a.state),
       postalCode := Given(d.postalCode, a.postalCode),
       country := Given(d.country, a.country),
       phoneNumber := Given(d.phoneNumber, a.phoneNumber))
  }

  /** PUT /{addressId}: 404 for an unknown address, 403 for a caller who is
      neither its owner nor an admin; otherwise the non-null fields replace
      the stored ones and the address is saved (even when nothing
      changed). */
  function UpdateAddress(s: Shop, principal: string, addressId: int, d: AddressDetails): (r: Result<(Shop, Reply<Address>)>)
    ensures r.Err? <==> UserIdByEmail(s.users, principal).None?
    ensures r.Err? ==> r.failure.kind == UsernameNotFound
    ensures r.Ok? ==> (r.value.1.status == NOT_FOUND <==> addressId !in s.addresses)
    ensures r.Ok? ==> (r.value.1.status == FORBIDDEN <==>
                         addressId in s.addresses && !MayManage(s, UserIdByEmail(s.users, principal).value, addressId))
    ensures r.Ok? ==> r.value.1.status in {OK, NOT_FOUND, FORBIDDEN}
    ensures r.Ok? && r.value.1.status != OK ==> r.value.0 == s
    ensures r.Ok? && r.value.1.status == OK ==>
              && r.value.1.body.Some?
              && r.value.0 == s.(addresses := s.addresses[addressId := r.value.1.body.value])
              && var (before, after) := (s.addresses[addressId], r.value.1.body.value);
              && after.id == before.id && after.owner == before.owner && after.contactName == before.contactName
              && after.addressLine == (if d.addressLine.Some? then d.addressLine else before.addressLine)
              && after.city == (if d.city.Some? then d.city else before.city)
              && after.state == (if d.state.Some? then d.state else before.state)
              && after.postalCode == (if d.postalCode.Some? then d.postalCode else before.postalCode)
              && after.country == (if d.country.Some? then d.country else before.country)
              && after.phoneNumber == (if d.phoneNumber.Some? then d.phoneNumber else before.phoneNumber)
  {
    match UserIdByEmail(s.users, principal)
    case None => Fail(UsernameNotFound, PRINCIPAL_UNKNOWN + principal)
    case Some(me) =>
      if addressId !in s.addresses then Ok((s, Reply(NOT_FOUND, "", None)))
      else if !MayManage(s, me, addressId) then Ok((s, Reply(FORBIDDEN, "", None)))
      else
        var updated := Apply(d, s.addresses[addressId]);
        Ok((s.(addresses := s.addresses[addressId := updated]), Reply(OK, "", Some(updated))))
  }

  /** DELETE /{addressId}: the same 404 and 403 rules; otherwise exactly
      that address is removed, and with it every list entry naming it. The
      database refuses the removal while an order ships to the address, and
      that exception escapes the endpoint. */
  function DeleteAddress(s: Shop, principal: string, addressId: int): (r: Result<(Shop, Reply<()>)>)
    ensures r.Err? <==>
              || UserIdByEmail(s.users, principal).None?
              || (&& addressId in s.addresses
                  && MayManage(s, UserIdByEmail(s.users, principal).value, addressId)
                  && AddressInUse(s.orders, addressId))
    ensures r.Err? && UserIdByEmail(s.users, principal).None? ==> r.failure.kind == UsernameNotFound
    ensures r.Err? && UserIdByEmail(s.users, principal).Some? ==> r.failure.kind == DataIntegrity
    ensures r.Ok? ==> (r.value.1.status == NOT_FOUND <==> addressId !in s.addresses)
    ensures r.Ok? ==> (r.value.1.status == FORBIDDEN <==>
                         addressId in s.addresses && !MayManage(s, UserIdByEmail(s.users, principal).value, addressId))
    ensures r.Ok? ==> r.value.1.status in {OK, NOT_FOUND, FORBIDDEN}
    ensures r.Ok? && r.value.1.status != OK ==> r.value.0 == s
    ensures r.Ok? && r.value.1.status == OK ==>
              && r.value.0 == s.(addresses := r.value.0.addresses, users := r.value.0.users)
              && r.value.0.addresses == s.addresses - {addressId}
              && r.value.0.users.Keys == s.users.Keys
              && forall k :: k in s.users ==>
                   r.value.0.users[k] == s.users[k].(addressIds := r.value.0.users[k].addressIds)
                   && forall x :: x in r.value.0.users[k].addressIds <==> x in s.users[k].addressIds && x != addressId
  {
    match UserIdByEmail(s.users, principal)
    case None => Fail(UsernameNotFound, PRINCIPAL_UNKNOWN + principal)
    case Some(me) =>
      if addressId !in s.addresses then Ok((s, Reply(NOT_FOUND, "", None)))
      else if !MayManage(s, me, addressId) then Ok((s, Reply(FORBIDDEN, "", None)))
      else if AddressInUse(s.orders, addressId) then Fail(DataIntegrity, ADDRESS_IN_USE)
      else
        Ok((s.(addresses := s.addresses - {addressId}, users := Unlisted(s.users, addressId)), Reply(OK, "", None)))
  }

  /** Every user's list without the address. */
  function Unlisted(users: map<int, User>, addressId: int): map<int, User> {
    map k | k in users :: users[k].(addressIds := Without(users[k].addressIds, addressId))
  }

  lemma {:induction false} WithoutAbsent(xs: seq<int>, x: int)
    requires x !in xs
    ensures Without(xs, x) == xs
  {
    if |xs| > 0 {
      WithoutAbsent(xs[1..], x);
      assert [xs[0]] + xs[1..] == xs;
    }
  }

  lemma {:induction false} WithoutLast(xs: seq<int>, x: int)
    requires x !in xs
    ensures Without(xs + [x], x) == xs
  {
    if |xs| == 0 {
      assert [x][1..] == [];
    } else {
      assert (xs + [x])[1..] == xs[1..] + [x];
      WithoutLast(xs[1..], x);
      assert [xs[0]] + xs[1..] == xs;
    }
  }

  /** Adding an address keeps the association consistent. */
  lemma AddAddressKeepsLinked(s: Shop, principal: string, a: Address)
    requires Valid(s) && AddressesLinked(s)
    requires AddAddress(s, principal, a).Ok?
    ensures AddressesLinked(AddAddress(s, principal, a).value.0)
  {
    var s1 := AddAddress(s, principal, a).value.0;
    var me := UserIdByEmail(s.users, principal).value;
    var stored := a.(id := s.nextId, owner := me);
    assert s1.addresses == s.addresses[s.nextId := stored];
    assert s1.users == s.users[me := s.users[me].(addressIds := s.users[me].addressIds + [s.nextId])];
    forall k, x | k in s1.users && x in s1.users[k].addressIds
      ensures x in s1.addresses && s1.addresses[x].owner == k
    {
      if k == me {
        if x != s.nextId {
          assert x in s.users[me].addressIds + [s.nextId];
          assert x in s.users[me].addressIds;
          assert s.addresses[x].owner == k;
        }
      } else {
        assert s1.users[k] == s.users[k];
        assert x in s.addresses && s.addresses[x].owner == k;
        assert x != s.nextId;
      }
    }
    forall x | x in s1.addresses
      ensures s1.addresses[x].owner in s1.users && x in s1.users[s1.addresses[x].owner].addressIds
    {
      if x == s.nextId {
        assert s1.users[me].addressIds == s.users[me].addressIds + [s.nextId];
      } else {
        var k := s.addresses[x].owner;
        assert x in s.users[k].addressIds;
        if k == me {
          assert s1.users[me].addressIds == s.users[me].addressIds + [s.nextId];
        }
      }
    }
  }

  /** Deleting an address keeps the association consistent. */
  lemma DeleteAddressKeepsLinked(s: Shop, principal: string, addressId: int)
    requires AddressesLinked(s)
    requires DeleteAddress(s, principal, addressId).Ok?
    ensures AddressesLinked(DeleteAddress(s, principal, addressId).value.0)
  {
    var me := UserIdByEmail(s.users, principal).value;
    if addressId in s.addresses && MayManage(s, me, addressId) {
      var s1 := DeleteAddress(s, principal, addressId).value.0;
      assert s1.addresses == s.addresses - {addressId};
      assert s1.users == Unlisted(s.users, addressId);
      UnlistedKeepsLinked(s.addresses, s.users, addressId);
    }
  }

  /** Removing an address from the table and from every list keeps the two
      sides of the association in step. */
  lemma UnlistedKeepsLinked(addresses: map<int, Address>, users: map<int, User>, addressId: int)
    requires Linked(addresses, users)
    ensures Linked(addresses - {addressId}, Unlisted(users, addressId))
  {
    var (a1, u1) := (addresses - {addressId}, Unlisted(users, addressId));
    forall k, x | k in u1 && x in u1[k].addressIds
      ensures x in a1 && a1[x].owner == k
    {
      UnlistedEntry(users, addressId, k, x);
      assert x in users[k].addressIds && x != addressId;
    }
    forall x | x in a1
      ensures a1[x].owner in u1 && x in u1[a1[x].owner].addressIds
    {
      var owner := addresses[x].owner;
      assert a1[x].owner == owner && owner in users && x in users[owner].addressIds;
      UnlistedEntry(users, addressId, owner, x);
    }
  }

  /** A list entry survives the removal of an address exactly when it names
      another address. */
  lemma UnlistedEntry(users: map<int, User>, addressId: int, k: int, x: int)
    ensures k in Unlisted(users, addressId) <==> k in users
    ensures k in users ==>
              (x in Unlisted(users, addressId)[k].addressIds <==> x in users[k].addressIds && x != addressId)
  {
  }

  /** Deleting the address just added gives back the shop as it was, but
      for the identity generator, which has moved on. */
  lemma AddThenDelete(s: Shop, principal: string, a: Address)
    requires Valid(s) && ReferencesIssued(s) && AddressesLinked(s)
    requires AddAddress(s, principal, a).Ok?
    ensures var s1 := AddAddress(s, principal, a).value.0;
            DeleteAddress(s1, principal, s.nextId) == Ok((s.(nextId := s.nextId + 1), Reply(OK, "", None)))
  {
    var s1 := AddAddress(s, principal, a).value.0;
    var me := UserIdByEmail(s.users, principal).value;
    SameEmailsSameLookup(s.users, s1.users, principal);
    assert s1.addresses[s.nextId].owner == me;
    AddedListsRestored(s, me, s1.users);
    FreshIdUnused(s);
    assert s1.orders == s.orders;
    assert s.nextId !in s.addresses;
    RemoveAdded(s.addresses, s.nextId, s1.addresses[s.nextId]);
    var after := s1.(addresses := s1.addresses - {s.nextId}, users := Unlisted(s1.users, s.nextId));
    assert after == s.(nextId := s.nextId + 1);
    assert UserIdByEmail(s1.users, principal) == Some(me) && MayManage(s1, me, s.nextId);
    assert DeleteAddress(s1, principal, s.nextId) == Ok((after, Reply(OK, "", None)));
  }

  /** Removing a key just added to a map gives back the map. */
  lemma RemoveAdded(m: map<int, Address>, k: int, v: Address)
    requires k !in m
    ensures m[k := v] - {k} == m
  {
  }

  /** Dropping the new id from every list undoes its addition to `me`'s. */
  lemma AddedListsRestored(s: Shop, me: int, users: map<int, User>)
    requires Valid(s) && AddressesLinked(s) && me in s.users
    requires users == s.users[me := s.users[me].(addressIds := s.users[me].addressIds + [s.nextId])]
    ensures Unlisted(users, s.nextId) == s.users
  {
    forall k | k in s.users ensures s.nextId !in s.users[k].addressIds {
      assert s.nextId in s.users[k].addressIds ==> s.nextId in s.addresses;
    }
    WithoutLast(s.users[me].addressIds, s.nextId);
    forall k | k in s.users && k != me ensures Without(s.users[k].addressIds, s.nextId) == s.users[k].addressIds {
      WithoutAbsent(s.users[k].addressIds, s.nextId);
    }
  }

  /** Every address the listing shows the principal is one it may also
      update. */
  lemma ListedAreUpdatable(s: Shop, principal: string, userId: int, x: int, d: AddressDetails)
    requires GetUserAddresses(s, principal, userId).Ok?
    requires GetUserAddresses(s, principal, userId).value.body.Some?
    requires x in GetUserAddresses(s, principal, userId).value.body.value
    ensures UpdateAddress(s, principal, x, d).Ok? && UpdateAddress(s, principal, x, d).value.1.status == OK
  {
  }

  /** Sending the same update twice leaves the address as the first one
      did. */
  lemma UpdateAddressIdempotent(s: Shop, principal: string, addressId: int, d: AddressDetails)
    requires UpdateAddress(s, principal, addressId, d).Ok?
    requires UpdateAddress(s, principal, addressId, d).value.1.status == OK
    ensures var s1 := UpdateAddress(s, principal, addressId, d).value.0;
            UpdateAddress(s1, principal, addressId, d) == Ok((s1, Reply(OK, "", Some(s1.addresses[addressId]))))
  {
    var s1 := UpdateAddress(s, principal, addressId, d).value.0;
    var a := Apply(d, s.addresses[addressId]);
    assert s1.users == s.users && s1.addresses[addressId] == a;
    assert Apply(d, a) == a;
    assert s1.addresses[addressId := a] == s1.addresses;
  }
}

=== FILE: admin_controller.dfy ===
/** AdminController: user lookup and the admin panel's ban and unban, which
    repeat UserController's rule that an admin cannot be banned. */
module AdminController {
  import opened Common
  import opened Domain
  import UserController

  const ADMIN_USER_NOT_FOUND := "User not found"
  const ADMINS_NOT_BANNABLE := "Admin users cannot be banned"
  const BAN_DONE := "User banned successfully"
  const UNBAN_DONE := "User unbanned successfully"

  /** GET /users/{userId}. */
  function GetUserById(s: Shop, userId: int): (r: Result<User>)
    ensures r.Ok? <==> userId in s.users
    ensures r.Ok? ==> r.value == s.users[userId]
    ensures r.Err? ==> r.failure.kind == RuntimeError
  {
    if userId in s.users then Ok(s.users[userId]) else Fail(RuntimeError, ADMIN_USER_NOT_FOUND)
  }

  /** PUT /users/{userId}/ban. */
  function BanUser(s: Shop, userId: int): (r: Result<(Shop, Reply<()>)>)
    ensures r.Err? <==> userId !in s.users
    ensures r.Ok? ==> (r.value.1.status == BAD_REQUEST <==> s.users[userId].role == Admin)
    ensures r.Ok? ==> r.value.1.status in {OK, BAD_REQUEST}
    ensures r.Ok? ==> r.value.0.users.Keys == s.users.Keys
    ensures r.Ok? ==> r.value.0 == s.(users := r.value.0.users)
    ensures r.Ok? ==> forall k :: k in s.users && k != userId ==> r.value.0.users[k] == s.users[k]
    ensures r.Ok? ==> r.value.0.users[userId].banned == (s.users[userId].role != Admin || s.users[userId].banned)
  {
    if userId !in s.users then Fail(RuntimeError, ADMIN_USER_NOT_FOUND)
    else
      var u := s.users[userId];
      if u.role == Admin then Ok((s, Reply(BAD_REQUEST, ADMINS_NOT_BANNABLE, None)))
      else Ok((s.(users := s.users[userId := u.(banned := true)]), Reply(OK, BAN_DONE, None)))
  }

  /** Banning is idempotent: a second ban leaves the shop as the first did
      and answers the same status. */
  lemma BanIdempotent(s: Shop, userId: int)
    requires BanUser(s, userId).Ok?
    ensures var (s1, reply) := BanUser(s, userId).value;
            BanUser(s1, userId).Ok? && BanUser(s1, userId).value.0 == s1
            && BanUser(s1, userId).value.1.status == reply.status
  {
    var s1 := BanUser(s, userId).value.0;
    assert s1.users[userId].role == s.users[userId].role;
    if s.users[userId].role != Admin {
      assert s1.users[userId := s1.users[userId].(banned := true)] == s1.users;
    }
  }

  /** PUT /users/{userId}/unban. */
  function UnbanUser(s: Shop, userId: int): (r: Result<(Shop, Reply<()>)>)
    ensures r.Err? <==> userId !in s.users
    ensures r.Ok? ==> r.value.1.status == OK
    ensures r.Ok? ==> r.value.0 == s.(users := s.users[userId := s.users[userId].(banned := false)])
  {
    if userId !in s.users then Fail(RuntimeError, ADMIN_USER_NOT_FOUND)
    else Ok((s.(users := s.users[userId := s.users[userId].(banned := false)]), Reply(OK, UNBAN_DONE, None)))
  }

  /** The two controllers' ban and unban endpoints differ only in their
      messages: same failures, same statuses, same resulting shop. */
  lemma SameAsUserController(s: Shop, userId: int)
    ensures BanUser(s, userId).Ok? <==> UserController.BanUser(s, userId).Ok?
    ensures BanUser(s, userId).Ok? ==>
              && BanUser(s, userId).value.0 == UserController.BanUser(s, userId).value.0
              && BanUser(s, userId).value.1.status == UserController.BanUser(s, userId).value.1.status
    ensures UnbanUser(s, userId).Ok? <==> UserController.UnbanUser(s, userId).Ok?
    ensures UnbanUser(s, userId).Ok? ==> UnbanUser(s, userId).value.0 == UserController.UnbanUser(s, userId).value.0
  {
  }
}

=== FILE: auth_controller.dfy ===
/** AuthController's login endpoint: every RuntimeException from the
    service is caught, and the reply status is chosen by looking at the
    message first and at the exception class after. */
module AuthController {
  import opened Common
  import opened Domain
  import opened AuthService

  const BANNED_WORD := "banned"
  const INVALID_CREDENTIALS := "Invalid email or password"
  const LOGIN_ERROR := "An error occurred during login: "

  /** The catch block of login: a message containing "banned" is 403 (for
      any exception class), then BadCredentials is 401 with a fixed
      message, UsernameNotFound is 404, and anything else is 500. */
  function LoginFailureReply(f: Failure): (reply: Reply<AuthResponse>)
    ensures reply.body == None
    ensures reply.status == FORBIDDEN <==> Contains(f.message, BANNED_WORD)
    ensures reply.status == UNAUTHORIZED <==> !Contains(f.message, BANNED_WORD) && f.kind == BadCredentials
    ensures reply.status == NOT_FOUND <==> !Contains(f.message, BANNED_WORD) && f.kind == UsernameNotFound
    ensures reply.status == INTERNAL_SERVER_ERROR <==>
              !Contains(f.message, BANNED_WORD) && f.kind != BadCredentials && f.kind != UsernameNotFound
    ensures reply.status == UNAUTHORIZED ==> reply.message == INVALID_CREDENTIALS
  {
    if Contains(f.message, BANNED_WORD) then Reply(FORBIDDEN, f.message, None)
    else if f.kind == BadCredentials then Reply(UNAUTHORIZED, INVALID_CREDENTIALS, None)
    else if f.kind == UsernameNotFound then Reply(NOT_FOUND, f.message, None)
    else Reply(INTERNAL_SERVER_ERROR, LOGIN_ERROR + f.message, None)
  }

  /** POST /login. */
  function LoginEndpoint(s: Shop, email: string, password: string, matches: (string, string) -> bool): (reply: Reply<AuthResponse>)
    ensures reply.status == OK <==> Login(s, email, password, matches).Ok?
    ensures reply.status == OK ==> reply.body == Some(Login(s, email, password, matches).value)
    ensures reply.status != OK ==> reply == LoginFailureReply(Login(s, email, password, matches).failure)
  {
    match Login(s, email, password, matches)
    case Ok(a) => Reply(OK, "", Some(a))
    case Err(f) => LoginFailureReply(f)
  }

  /** A string without the letter 'b' does not contain "banned". */
  lemma NoBannedWithoutB(s: string)
    requires forall i :: 0 <= i < |s| ==> s[i] != 'b'
    ensures !Contains(s, BANNED_WORD)
  {
    forall i | 0 <= i <= |s| - 6 ensures !OccursAt(s, BANNED_WORD, i) {
      assert BANNED_WORD[0] == 'b';
      assert s[i..i + 6][0] == s[i];
    }
  }

  /** The login reply in terms of the shop: 403 for a banned user whatever
      the password, 404 for an unknown email, 401 for a wrong password, and
      200 otherwise; 500 does not occur. */
  lemma LoginStatus(s: Shop, email: string, password: string, matches: (string, string) -> bool)
    ensures var code := LoginEndpoint(s, email, password, matches).status;
            var who := UserIdByEmail(s.users, email);
            && (code == NOT_FOUND <==> who.None?)
            && (code == FORBIDDEN <==> who.Some? && s.users[who.value].banned)
            && (code == UNAUTHORIZED <==> who.Some? && !s.users[who.value].banned && !matches(password, s.users[who.value].password))
            && (code == OK <==> who.Some? && !s.users[who.value].banned && matches(password, s.users[who.value].password))
  {
    assert USER_BANNED[8..14] == BANNED_WORD;
    assert OccursAt(USER_BANNED, BANNED_WORD, 8);
    NoBannedWithoutB(LOGIN_USER_NOT_FOUND);
    NoBannedWithoutB(BAD_CREDENTIALS);
  }
}

=== FILE: auth_service.dfy ===
/** AuthService: registration stores the first and last name joined by one
    space, and login splits the stored full name again with Java's
    `split("\\s+", 2)`. Login checks the ban before the credentials. The
    token the service issues is left out; `encode` and `matches` stand for
    the password encoder. */
module AuthService {
  import opened Common
  import opened Domain

  // Exception messages, one constant each.
  const LOGIN_USER_NOT_FOUND := "User not found"
  const USER_BANNED := "User is " + "banned" + ". Please contact support for assistance."
  const BAD_CREDENTIALS := "Bad credentials"
  const DUPLICATE_EMAIL := "could not execute statement; constraint [users.email]"

  /** The body of an AuthResponse, without the token; a name is `None`
      where the response carries null. */
  datatype AuthResponse = AuthResponse(role: Role, userId: int, firstName: Option<string>, lastName: Option<string>)

  /** A possibly null string as string concatenation writes it. */
  function JavaText(o: Option<string>): string {
    if o.Some? then o.value else "null"
  }

  predicate NoSpace(s: string) {
    forall i :: 0 <= i < |s| ==> !IsRegexSpace(s[i])
  }

  /** The index of the first `\s` character, if any. */
  function FirstSpace(s: string): (r: Option<nat>)
    ensures r.None? <==> NoSpace(s)
    ensures r.Some? ==> r.value < |s| && IsRegexSpace(s[r.value]) && NoSpace(s[..r.value])
  {
    if |s| == 0 then None
    else if IsRegexSpace(s[0]) then Some(0)
    else
      match FirstSpace(s[1..])
      case None =>
        assert forall i :: 1 <= i < |s| ==> s[i] == s[1..][i - 1];
        None
      case Some(k) =>
        assert s[1..][k] == s[k + 1];
        assert s[..k + 1] == [s[0]] + s[1..][..k];
        Some(k + 1)
  }

  /** The end of the run of `\s` characters that starts at `i` (the greedy
      `\s+` match). */
  function SpaceRunEnd(s: string, i: nat): (j: nat)
    requires i <= |s|
    ensures i <= j <= |s|
    ensures forall k :: i <= k < j ==> IsRegexSpace(s[k])
    ensures j == |s| || !IsRegexSpace(s[j])
    decreases |s| - i
  {
    if i < |s| && IsRegexSpace(s[i]) then SpaceRunEnd(s, i + 1) else i
  }

  /** `s.split("\\s+", 2)` read as (nameParts[0], nameParts[1] or ""):
      the text before the first run of whitespace and the text after it. A
      leading run gives an empty first part; trailing text is kept as is. */
  function SplitOnce(s: string): (r: (string, string))
    ensures NoSpace(r.0)
    ensures NoSpace(s) ==> r == (s, "")
    ensures !NoSpace(s) ==>
              exists j :: |r.0| < j <= |s| && s[..|r.0|] == r.0 && s[j..] == r.1
                          && (forall k :: |r.0| <= k < j ==> IsRegexSpace(s[k]))
    ensures |r.1| > 0 ==> !IsRegexSpace(r.1[0])
  {
    match FirstSpace(s)
    case None => (s, "")
    case Some(i) =>
      var j := SpaceRunEnd(s, i);
      (s[..i], s[j..])
  }

  /** The names login reports: a null or empty full name gives two empty
      names, any other is split once. */
  function NameParts(fullName: Option<string>): (r: (string, string))
    ensures fullName.None? || fullName == Some("") ==> r == ("", "")
  {
    if fullName.None? || |fullName.value| == 0 then ("", "") else SplitOnce(fullName.value)
  }

  /** The full name register stores. */
  function JoinName(firstName: string, lastName: string): (full: string)
    ensures |full| == |firstName| + 1 + |lastName|
    ensures full[..|firstName|] == firstName && full[|firstName|] == ' ' && full[|firstName| + 1..] == lastName
  {
    firstName + " " + lastName
  }

  /** Register then login gives the names back whenever the first name has
      no whitespace and the last name does not start with whitespace; an
      empty first name is fine too, as the split then starts with an empty
      part. */
  lemma NamesRoundTrip(firstName: string, lastName: string)
    requires NoSpace(firstName)
    requires |lastName| == 0 || !IsRegexSpace(lastName[0])
    ensures NameParts(Some(JoinName(firstName, lastName))) == (firstName, lastName)
  {
    var full := JoinName(firstName, lastName);
    var n := |firstName|;
    assert IsRegexSpace(full[n]);
    var i := FirstSpace(full).value;
    assert i == n;
    var j := SpaceRunEnd(full, i);
    assert j == n + 1 by {
      if |lastName| > 0 {
        assert full[n + 1] == lastName[0];
      }
    }
  }

  /** A null first name is stored as a full name starting "null ", a null
      last name as one ending " null". */
  lemma NullNameJoined(firstName: Option<string>, lastName: Option<string>)
    ensures var full := JoinName(JavaText(firstName), JavaText(lastName));
            && (firstName.None? ==> full[..5] == "null ")
            && (lastName.None? ==> full[|full| - 5..] == " null")
  {
    var full := JoinName(JavaText(firstName), JavaText(lastName));
    if lastName.None? {
      assert full[|full| - 5..] == [' '] + full[|full| - 4..];
    }
  }

  /** register: the user is saved with the joined full name and the
      encoded password; the email's unique column refuses a duplicate. The
      request does not validate its names, so a null name is joined as the
      text "null" and echoed back as null. */
  function Register(s: Shop, firstName: Option<string>, lastName: Option<string>, email: string, password: string,
                    role: Role, encode: string -> string): (r: Result<(Shop, AuthResponse)>)
    ensures r.Err? <==> EmailTaken(s.users, email)
    ensures r.Err? ==> r.failure.kind == DataIntegrity
    ensures r.Ok? ==>
              && r.value.1 == AuthResponse(role, s.nextId, firstName, lastName)
              && r.value.0 == s.(users := s.users[s.nextId := User(s.nextId, Some(JoinName(JavaText(firstName), JavaText(lastName))),
                                                                   email, encode(password), role, false, false, [])],
                                 nextId := s.nextId + 1)
  {
    if EmailTaken(s.users, email) then Fail(DataIntegrity, DUPLICATE_EMAIL)
    else
      var u := User(s.nextId, Some(JoinName(JavaText(firstName), JavaText(lastName))), email, encode(password), role,
                    false, false, []);
      Ok((s.(users := s.users[s.nextId := u], nextId := s.nextId + 1), AuthResponse(role, s.nextId, firstName, lastName)))
  }

  /** login: an unknown email fails first, then a banned user is refused
      before the password is looked at, then the credentials are checked. */
  function Login(s: Shop, email: string, password: string, matches: (string, string) -> bool): (r: Result<AuthResponse>)
    ensures UserIdByEmail(s.users, email).None? <==> r.Err? && r.failure.kind == UsernameNotFound
    ensures r.Err? && r.failure.kind == RuntimeError <==>
              UserIdByEmail(s.users, email).Some? && s.users[UserIdByEmail(s.users, email).value].banned
    ensures r.Err? && r.failure.kind == BadCredentials <==>
              && UserIdByEmail(s.users, email).Some?
              && !s.users[UserIdByEmail(s.users, email).value].banned
              && !matches(password, s.users[UserIdByEmail(s.users, email).value].password)
    ensures r.Err? ==> r.failure.kind in {UsernameNotFound, RuntimeError, BadCredentials}
    ensures r.Ok? ==>
              var id := UserIdByEmail(s.users, email).value;
              r.value == AuthResponse(s.users[id].role, id, Some(NameParts(s.users[id].fullName).0), Some(NameParts(s.users[id].fullName).1))
  {
    match UserIdByEmail(s.users, email)
    case None => Fail(UsernameNotFound, LOGIN_USER_NOT_FOUND)
    case Some(id) =>
      var u := s.users[id];
      if u.banned then Fail(RuntimeError, USER_BANNED)
      else if !matches(password, u.password) then Fail(BadCredentials, BAD_CREDENTIALS)
      else
        var (first, last) := NameParts(u.fullName);
        Ok(AuthResponse(u.role, id, Some(first), Some(last)))
  }

  /** A fresh registration followed by a login with the same password
      answers the registered user, when the encoder's output is accepted for
      its input and the names survive the split: with the names it was
      given, and with "null" where a name was null. */
  lemma RegisterThenLogin(s: Shop, firstName: Option<string>, lastName: Option<string>, email: string, password: string,
                          role: Role, encode: string -> string, matches: (string, string) -> bool)
    requires Valid(s)
    requires forall p :: matches(p, encode(p))
    requires NoSpace(JavaText(firstName))
    requires |JavaText(lastName)| == 0 || !IsRegexSpace(JavaText(lastName)[0])
    requires Register(s, firstName, lastName, email, password, role, encode).Ok?
    ensures var (s', reply) := Register(s, firstName, lastName, email, password, role, encode).value;
            Login(s', email, password, matches) == Ok(reply.(firstName := Some(JavaText(firstName)), lastName := Some(JavaText(lastName))))
    ensures var (s', reply) := Register(s, firstName, lastName, email, password, role, encode).value;
            firstName.Some? && lastName.Some? ==> Login(s', email, password, matches) == Ok(reply)
  {
    var s' := Register(s, firstName, lastName, email, password, role, encode).value.0;
    assert !EmailTaken(s.users, email);
    assert s'.users[s.nextId].email == email;
    assert UserIdByEmail(s'.users, email) == Some(s.nextId);
    NamesRoundTrip(JavaText(firstName), JavaText(lastName));
  }
}

=== FILE: cart_service.dfy ===
/** CartService: each user has at most one cart (carts are keyed by their
    owner's id), created empty on first use. A cart holds at most one line
    per product; adding a product that is already there replaces the
    line's quantity instead of adding to it. */
module CartService {
  import opened Common
  import opened Domain

  // Exception messages, one constant each.
  const NO_USER := "No value present"
  const CART_PRODUCT_NOT_FOUND := "Product not found"
  const NOT_ENOUGH_STOCK := "Not enough stock."

  /** No product appears on two lines. */
  predicate OneLinePerProduct(lines: seq<CartLine>) {
    forall i, j :: 0 <= i < j < |lines| ==> lines[i].productId != lines[j].productId
  }

  predicate HasProduct(lines: seq<CartLine>, productId: int) {
    exists i :: 0 <= i < |lines| && lines[i].productId == productId
  }

  /** The position of the first line for the product, as the for-each loop
      of addToCart finds it. */
  function FirstLineOf(lines: seq<CartLine>, productId: int): (r: Option<nat>)
    ensures r.None? <==> !HasProduct(lines, productId)
    ensures r.Some? ==> r.value < |lines| && lines[r.value].productId == productId
    ensures r.Some? ==> forall j :: 0 <= j < r.value ==> lines[j].productId != productId
  {
    if |lines| == 0 then None
    else if lines[0].productId == productId then Some(0)
    else
      match FirstLineOf(lines[1..], productId)
      case None =>
        assert forall i :: 1 <= i < |lines| ==> lines[i] == lines[1..][i - 1];
        None
      case Some(k) =>
        assert lines[1..][k] == lines[k + 1];
        Some(k + 1)
  }

  /** getOrCreateCart: the user's cart, or a new empty one that is saved. An
      unknown user fails in `orElseThrow()`. */
  function GetOrCreateCart(s: Shop, userId: int): (r: Result<(Shop, Cart)>)
    ensures userId !in s.users <==> r.Err?
    ensures r.Err? ==> r.failure.kind == NoSuchElement
    ensures r.Ok? && userId in s.carts ==> r.value == (s, s.carts[userId])
    ensures r.Ok? && userId !in s.carts ==> r.value == (s.(carts := s.carts[userId := Cart([])]), Cart([]))
  {
    if userId !in s.users then Fail(NoSuchElement, NO_USER)
    else if userId in s.carts then Ok((s, s.carts[userId]))
    else Ok((s.(carts := s.carts[userId := Cart([])]), Cart([])))
  }

  /** The line list after adding `quantity` of a product: the first line for
      it gets the new quantity, or a new line is appended. */
  function PutLine(lines: seq<CartLine>, productId: int, quantity: int): (r: seq<CartLine>)
    ensures HasProduct(lines, productId) ==> |r| == |lines|
    ensures HasProduct(lines, productId) ==>
              forall i :: 0 <= i < |lines| ==>
                r[i] == (if i == FirstLineOf(lines, productId).value then CartLine(productId, quantity) else lines[i])
    ensures !HasProduct(lines, productId) ==> r == lines + [CartLine(productId, quantity)]
  {
    match FirstLineOf(lines, productId)
    case Some(k) => lines[k := CartLine(productId, quantity)]
    case None => lines + [CartLine(productId, quantity)]
  }

  /** addToCart: gets or creates the cart, looks the product up, refuses a
      quantity above the current stock, then puts the line. The method is
      transactional, so a failure also discards a cart created on the way. */
  function AddToCart(s: Shop, userId: int, productId: int, quantity: int): (r: Result<(Shop, Cart)>)
    ensures r.Ok? <==> userId in s.users && productId in s.products && quantity <= s.products[productId].stock
    ensures userId !in s.users ==> r.Err? && r.failure.kind == NoSuchElement
    ensures userId in s.users && r.Err? ==> r.failure.kind == RuntimeError
    ensures r.Ok? ==>
              var before := if userId in s.carts then s.carts[userId].lines else [];
              && r.value.1 == Cart(PutLine(before, productId, quantity))
              && r.value.0 == s.(carts := s.carts[userId := r.value.1])
  {
    match GetOrCreateCart(s, userId)
    case Err(f) => Err(f)
    case Ok((s1, cart)) =>
      if productId !in s.products then Fail(RuntimeError, CART_PRODUCT_NOT_FOUND)
      else if s.products[productId].stock < quantity then Fail(RuntimeError, NOT_ENOUGH_STOCK)
      else
        var updated := Cart(PutLine(cart.lines, productId, quantity));
        Ok((s1.(carts := s1.carts[userId := updated]), updated))
  }

  /** Putting a line keeps the cart at one line per product, and afterwards
      the product's line holds exactly the requested quantity. */
  lemma PutLineKeepsOneLinePerProduct(lines: seq<CartLine>, productId: int, quantity: int)
    requires OneLinePerProduct(lines)
    ensures var r := PutLine(lines, productId, quantity);
            && OneLinePerProduct(r)
            && HasProduct(r, productId)
            && forall i :: 0 <= i < |r| && r[i].productId == productId ==> r[i].quantity == quantity
  {
    var r := PutLine(lines, productId, quantity);
    if HasProduct(lines, productId) {
      var k := FirstLineOf(lines, productId).value;
      assert r[k].productId == productId;
      forall i, j | 0 <= i < j < |r| ensures r[i].productId != r[j].productId {
        assert r[i].productId == lines[i].productId && r[j].productId == lines[j].productId;
      }
    } else {
      assert r[|lines|].productId == productId;
      forall i, j | 0 <= i < j < |r| ensures r[i].productId != r[j].productId {
        if j < |lines| {
          assert r[i] == lines[i] && r[j] == lines[j];
        } else {
          assert r[i] == lines[i];
        }
      }
    }
  }

  /** The lines that do not belong to the product, in their order
      (List.removeIf). */
  function WithoutProduct(lines: seq<CartLine>, productId: int): (r: seq<CartLine>)
    ensures !HasProduct(r, productId)
    ensures |r| <= |lines|
    ensures forall x :: x in r <==> x in lines && x.productId != productId
  {
    if |lines| == 0 then []
    else if lines[0].productId == productId then WithoutProduct(lines[1..], productId)
    else [lines[0]] + WithoutProduct(lines[1..], productId)
  }

  /** removeFromCart: every line of the product is dropped; the cart is
      created first if the user had none. */
  function RemoveFromCart(s: Shop, userId: int, productId: int): (r: Result<(Shop, Cart)>)
    ensures userId !in s.users <==> r.Err?
    ensures r.Ok? ==>
              var before := if userId in s.carts then s.carts[userId].lines else [];
              && r.value.1 == Cart(WithoutProduct(before, productId))
              && r.value.0 == s.(carts := s.carts[userId := r.value.1])
  {
    match GetOrCreateCart(s, userId)
    case Err(f) => Err(f)
    case Ok((s1, cart)) =>
      var updated := Cart(WithoutProduct(cart.lines, productId));
      Ok((s1.(carts := s1.carts[userId := updated]), updated))
  }

  /** clearCart: the user's cart ends up with no lines. */
  function ClearCart(s: Shop, userId: int): (r: Result<Shop>)
    ensures userId !in s.users <==> r.Err?
    ensures r.Ok? ==> r.value == s.(carts := s.carts[userId := Cart([])])
  {
    match GetOrCreateCart(s, userId)
    case Err(f) => Err(f)
    case Ok((s1, _)) => Ok(s1.(carts := s1.carts[userId := Cart([])]))
  }

  /** Dropping a product the lines do not hold changes nothing. */
  lemma {:induction false} WithoutAbsentProduct(lines: seq<CartLine>, productId: int)
    requires !HasProduct(lines, productId)
    ensures WithoutProduct(lines, productId) == lines
  {
    if |lines| > 0 {
      assert lines[0].productId != productId;
      assert !HasProduct(lines[1..], productId) by {
        forall i | 0 <= i < |lines[1..]| ensures lines[1..][i].productId != productId {
          assert lines[1..][i] == lines[i + 1];
        }
      }
      WithoutAbsentProduct(lines[1..], productId);
      assert [lines[0]] + lines[1..] == lines;
    }
  }

  /** Adding a product that was not in an existing cart and then removing it
      gives back the cart as it was. */
  lemma AddThenRemove(s: Shop, userId: int, productId: int, quantity: int)
    requires userId in s.carts
    requires !HasProduct(s.carts[userId].lines, productId)
    requires AddToCart(s, userId, productId, quantity).Ok?
    ensures var s1 := AddToCart(s, userId, productId, quantity).value.0;
            RemoveFromCart(s1, userId, productId) == Ok((s, s.carts[userId]))
  {
    var lines := s.carts[userId].lines;
    var added := CartLine(productId, quantity);
    var s1 := AddToCart(s, userId, productId, quantity).value.0;
    assert s1 == s.(carts := s.carts[userId := Cart(lines + [added])]);
    WithoutAbsentProduct(lines, productId);
    WithoutSplit(lines, [added], productId);
    assert WithoutProduct([added], productId) == [];
    assert WithoutProduct(lines + [added], productId) == lines;
    assert s1.carts[userId := Cart(lines)] == s.carts;
  }

  lemma {:induction false} WithoutSplit(a: seq<CartLine>, b: seq<CartLine>, productId: int)
    ensures WithoutProduct(a + b, productId) == WithoutProduct(a, productId) + WithoutProduct(b, productId)
  {
    if |a| == 0 {
      assert a + b == b;
    } else {
      assert (a + b)[1..] == a[1..] + b;
      WithoutSplit(a[1..], b, productId);
    }
  }
}

=== FILE: cart_view.dfy ===
/** The cart page (CartComponent): the quantity buttons and input of each
    line decide which request, if any, to send to the backend cart; the
    page shows the cart total and guards the checkout button. The requests
    themselves and the page state they update are not modelled: each
    handler returns the request it would send, which is none unless a user
    with a non-zero id is logged in. */
module CartView {
  import opened Common
  import Domain
  import Stock
  import OrderService

  /** The product as embedded in a cart line; `stock` is `None` when the
      payload lacks it. */
  datatype LineProduct = LineProduct(id: int, price: int, stock: Option<int>)

  /** A cart line as the page receives it; `product` may be missing. */
  datatype ViewLine = ViewLine(product: Option<LineProduct>, quantity: int)

  /** What a quantity handler does. */
  datatype Action =
    | Ignore                          // returns without a request
    | RefuseAtStock                   // shows the stock-limit message
    | SetQuantity(userId: int, productId: int, quantity: int)   // cartService.addToCart
    | RemoveLine(userId: int, productId: int)                   // cartService.removeFromCart

  /** The current user as the page sees it, by id; `None` when nobody is
      logged in. An id of 0 is falsy, so the page treats it as no user. */
  predicate LoggedIn(userId: Option<int>) {
    userId.Some? && userId.value != 0
  }

  /** The handlers return at once for a line without a product and for the
      product whose update is still in flight. */
  predicate Busy(line: ViewLine, updating: Option<int>) {
    line.product.None? || updating == Some(line.product.value.id)
  }

  /** Whether the line already holds a known stock's worth. */
  predicate AtStock(line: ViewLine)
    requires line.product.Some?
  {
    line.product.value.stock.Some? && line.quantity >= line.product.value.stock.value
  }

  /** increaseQuantity: refused at or above a known stock; otherwise one
      more is requested for the logged-in user. */
  function Increase(line: ViewLine, updating: Option<int>, userId: Option<int>): (a: Action)
    ensures a == Ignore <==> Busy(line, updating) || (!AtStock(line) && !LoggedIn(userId))
    ensures a == RefuseAtStock <==> !Busy(line, updating) && AtStock(line)
    ensures a.SetQuantity? <==> !Busy(line, updating) && !AtStock(line) && LoggedIn(userId)
    ensures a.SetQuantity? ==> a == SetQuantity(userId.value, line.product.value.id, line.quantity + 1)
    ensures !a.RemoveLine?
  {
    if Busy(line, updating) then Ignore
    else
      var p := line.product.value;
      if p.stock.Some? && line.quantity >= p.stock.value then RefuseAtStock
      else if !LoggedIn(userId) then Ignore   // updateCartItem needs a user
      else SetQuantity(userId.value, p.id, line.quantity + 1)
  }

  /** decreaseQuantity: below one the line is removed, otherwise one less is
      requested, in both cases only for a logged-in user. */
  function Decrease(line: ViewLine, updating: Option<int>, userId: Option<int>): (a: Action)
    ensures a == Ignore <==> Busy(line, updating) || !LoggedIn(userId)
    ensures a.RemoveLine? <==> !Busy(line, updating) && LoggedIn(userId) && line.quantity - 1 < 1
    ensures a.RemoveLine? ==> a == RemoveLine(userId.value, line.product.value.id)
    ensures a.SetQuantity? ==> a == SetQuantity(userId.value, line.product.value.id, line.quantity - 1) && a.quantity >= 1
    ensures !a.RefuseAtStock?
  {
    if Busy(line, updating) then Ignore
    else if !LoggedIn(userId) then Ignore   // removeFromCart and updateCartItem need a user
    else if line.quantity - 1 < 1 then RemoveLine(userId.value, line.product.value.id)
    else SetQuantity(userId.value, line.product.value.id, line.quantity - 1)
  }

  /** The quantity typed into the input after correction: a missing or
      non-positive number becomes 1, then a known stock caps it. */
  function Corrected(parsed: Option<int>, stock: Option<int>): (q: int)
    ensures stock.Some? ==> q <= stock.value
    ensures stock.None? || stock.value >= 1 ==> q >= 1
    ensures parsed.Some? && parsed.value >= 1 && (stock.None? || parsed.value <= stock.value) ==> q == parsed.value
  {
    var q := if parsed.None? || parsed.value < 1 then 1 else parsed.value;
    if stock.Some? && q > stock.value then stock.value else q
  }

  /** onQuantityChange: `parsed` is parseInt of the input (`None` for NaN).
      A request is sent only when the corrected value differs from the
      line's quantity and a user is logged in. */
  function QuantityInput(line: ViewLine, updating: Option<int>, parsed: Option<int>, userId: Option<int>): (a: Action)
    ensures Busy(line, updating) || !LoggedIn(userId) ==> a == Ignore
    ensures !Busy(line, updating) && LoggedIn(userId) ==>
              var q := Corrected(parsed, line.product.value.stock);
              && (q == line.quantity <==> a == Ignore)
              && (q != line.quantity ==> a == SetQuantity(userId.value, line.product.value.id, q))
    ensures !a.RefuseAtStock? && !a.RemoveLine?
  {
    if Busy(line, updating) then Ignore
    else
      var q := Corrected(parsed, line.product.value.stock);
      if line.quantity == q || !LoggedIn(userId) then Ignore
      else SetQuantity(userId.value, line.product.value.id, q)
  }

  /** Whatever the buttons and the input request stays within a known
      stock of at least one, and never drops to zero, when the line itself
      was within its stock. */
  lemma RequestsStayWithinStock(line: ViewLine, updating: Option<int>, parsed: Option<int>, userId: Option<int>)
    requires line.product.Some? && line.product.value.stock.Some? && line.product.value.stock.value >= 1
    requires 1 <= line.quantity <= line.product.value.stock.value
    ensures Increase(line, updating, userId).SetQuantity? ==>
              1 <= Increase(line, updating, userId).quantity <= line.product.value.stock.value
    ensures Decrease(line, updating, userId).SetQuantity? ==>
              1 <= Decrease(line, updating, userId).quantity <= line.product.value.stock.value
    ensures QuantityInput(line, updating, parsed, userId).SetQuantity? ==>
              1 <= QuantityInput(line, updating, parsed, userId).quantity <= line.product.value.stock.value
  {
  }

  /** For a logged-in user, one press of minus followed by one press of
      plus requests the original quantity again. */
  lemma DecreaseThenIncrease(line: ViewLine, userId: Option<int>)
    requires line.product.Some? && line.quantity >= 2
    requires line.product.value.stock.None? || line.quantity <= line.product.value.stock.value
    requires LoggedIn(userId)
    ensures Decrease(line, None, userId) == SetQuantity(userId.value, line.product.value.id, line.quantity - 1)
    ensures Increase(line.(quantity := line.quantity - 1), None, userId) ==
              SetQuantity(userId.value, line.product.value.id, line.quantity)
  {
  }

  /** Without a logged-in user no handler sends a request. */
  lemma NoUserNoRequest(line: ViewLine, updating: Option<int>, parsed: Option<int>, userId: Option<int>)
    requires !LoggedIn(userId)
    ensures !Increase(line, updating, userId).SetQuantity?
    ensures Decrease(line, updating, userId) == Ignore
    ensures QuantityInput(line, updating, parsed, userId) == Ignore
  {
  }

  /** The cart total: 0 without a cart, otherwise price times quantity
      summed over the lines, a line without a product counting 0. */
  function CartTotal(lines: Option<seq<ViewLine>>): (total: int)
    ensures lines.None? || |lines.value| == 0 ==> total == 0
  {
    if lines.None? then 0 else LinesTotal(lines.value)
  }

  function LinesTotal(lines: seq<ViewLine>): int {
    if |lines| == 0 then 0
    else
      var price := if lines[|lines| - 1].product.Some? then lines[|lines| - 1].product.value.price else 0;
      LinesTotal(lines[..|lines| - 1]) + price * lines[|lines| - 1].quantity
  }

  /** The page's view of a stored cart: each line carries its product's
      current price and stock, or no product when it is gone. */
  function ViewOf(c: Domain.Cart, products: map<int, Domain.Product>): (v: seq<ViewLine>)
    ensures |v| == |c.lines|
    ensures forall i :: 0 <= i < |v| ==> v[i].quantity == c.lines[i].quantity
    ensures forall i :: 0 <= i < |v| ==>
              (c.lines[i].productId in products <==> v[i].product.Some?)
    ensures forall i :: 0 <= i < |v| && v[i].product.Some? ==>
              v[i].product.value == LineProduct(c.lines[i].productId, products[c.lines[i].productId].price,
                                                Some(products[c.lines[i].productId].stock))
  {
    seq(|c.lines|, i requires 0 <= i < |c.lines| =>
      var pid := c.lines[i].productId;
      ViewLine(if pid in products then Some(LineProduct(pid, products[pid].price, Some(products[pid].stock))) else None,
               c.lines[i].quantity))
  }

  /** While no price changes, the total the cart page shows is the total
      the order placed from that cart records. */
  lemma {:induction false} ShownTotalIsOrderTotal(c: Domain.Cart, products: map<int, Domain.Product>)
    requires forall i :: 0 <= i < |c.lines| ==> c.lines[i].productId in products
    ensures CartTotal(Some(ViewOf(c, products))) == Stock.Amount(products, OrderService.CartOrderLines(c))
    decreases |c.lines|
  {
    var v := ViewOf(c, products);
    var lines := OrderService.CartOrderLines(c);
    if |c.lines| > 0 {
      var init := Domain.Cart(c.lines[..|c.lines| - 1]);
      ShownTotalIsOrderTotal(init, products);
      assert ViewOf(init, products) == v[..|v| - 1];
      assert OrderService.CartOrderLines(init) == lines[..|lines| - 1];
      AmountSnoc(products, lines[..|lines| - 1], lines[|lines| - 1]);
      assert lines[..|lines| - 1] + [lines[|lines| - 1]] == lines;
    }
  }

  lemma {:induction false} AmountSnoc(products: map<int, Domain.Product>, lines: seq<Stock.Line>, l: Stock.Line)
    requires forall i :: 0 <= i < |lines| ==> lines[i].productId in products
    requires l.productId in products
    ensures Stock.Amount(products, lines + [l]) == Stock.Amount(products, lines) + l.quantity * products[l.productId].price
    decreases |lines|
  {
    if |lines| == 0 {
      assert ([] + [l])[1..] == [];
    } else {
      assert (lines + [l])[1..] == lines[1..] + [l];
      AmountSnoc(products, lines[1..], l);
    }
  }

  /** proceedToCheckout: refused without a user, with a user whose id is 0
      (falsy), without a cart, and with an empty cart. */
  function MayCheckout(userId: Option<int>, lines: Option<seq<ViewLine>>): (ok: bool)
    ensures ok <==> userId.Some? && userId.value != 0 && lines.Some? && |lines.value| > 0
  {
    !(userId.None? || userId.value == 0 || lines.None? || |lines.value| == 0)
  }

  /** Whatever the page refuses for a known user with a cart, the backend
      refuses too: an empty cart is turned away on both sides. */
  lemma EmptyCartRefusedOnBothSides(s: Domain.Shop, userId: int, now: int)
    requires userId != 0 && userId in s.carts
    requires !MayCheckout(Some(userId), Some(ViewOf(s.carts[userId], s.products)))
    ensures OrderService.PlaceOrderFromCart(s, userId, now).Err?
  {
  }
}

=== FILE: category_service.dfy ===
/** CategoryService: category names are unique; an incoming id of 0 means
    "new" and is cleared before the save. */
module CategoryService {
  import opened Common
  import opened Domain

  const CATEGORY_EXISTS := "Category already exists"
  const CATEGORY_IN_USE := "category still has products"

  /** existsByName. */
  predicate NameTaken(categories: map<int, Category>, name: string) {
    exists k :: k in categories && categories[k].name == name
  }

  ghost predicate UniqueNames(categories: map<int, Category>) {
    forall a, b :: a in categories && b in categories && a != b ==> categories[a].name != categories[b].name
  }

  /** The id the category is saved with: 0 becomes null, every other id,
      null included, is kept. */
  function NormaliseId(id: Option<int>): (r: Option<int>)
    ensures id == Some(0) ==> r.None?
    ensures id != Some(0) ==> r == id
  {
    if id.Some? && id.value == 0 then None else id
  }

  /** The stored category a save with this id merges into: the normalised
      id, when it names a stored category. */
  function MergeTarget(categories: map<int, Category>, id: Option<int>): (t: Option<int>)
    ensures t.Some? <==> id.Some? && id.value != 0 && id.value in categories
    ensures t.Some? ==> t == id
  {
    var n := NormaliseId(id);
    if n.Some? && n.value in categories then n else None
  }

  /** addCategory: refuses a taken name, then saves. A category without id
      is inserted under the next id. One with an id is merged: the stored
      category under that id is overwritten, and an id naming no category
      inserts a copy under the next id. */
  function AddCategory(s: Shop, c: Category): (r: Result<(Shop, Category)>)
    ensures r.Err? <==> NameTaken(s.categories, c.name)
    ensures r.Err? ==> r.failure.kind == RuntimeError
    ensures r.Ok? ==> r.value.1.name == c.name && r.value.1.id.Some?
    ensures r.Ok? && MergeTarget(s.categories, c.id).None? ==>
              r.value.1.id == Some(s.nextId) && r.value.0.nextId == s.nextId + 1
    ensures r.Ok? && MergeTarget(s.categories, c.id).Some? ==>
              r.value.1.id == c.id && r.value.0.nextId == s.nextId
    ensures r.Ok? ==>
              r.value.0 == s.(categories := s.categories[r.value.1.id.value := r.value.1], nextId := r.value.0.nextId)
  {
    if NameTaken(s.categories, c.name) then Fail(RuntimeError, CATEGORY_EXISTS)
    else
      match MergeTarget(s.categories, c.id)
      case Some(k) =>
        var saved := Category(Some(k), c.name);
        Ok((s.(categories := s.categories[k := saved]), saved))
      case None =>
        var saved := Category(Some(s.nextId), c.name);
        Ok((s.(categories := s.categories[s.nextId := saved], nextId := s.nextId + 1), saved))
  }

  /** Adding a category keeps every stored id among those the identity
      generator has handed out. */
  lemma AddCategoryKeepsValid(s: Shop, c: Category)
    requires Valid(s)
    requires AddCategory(s, c).Ok?
    ensures Valid(AddCategory(s, c).value.0)
  {
    var (s', saved) := AddCategory(s, c).value;
    assert saved.id.value < s'.nextId;
  }

  /** Adding a category keeps the names unique, and afterwards the name is
      taken. */
  lemma AddCategoryKeepsNamesUnique(s: Shop, c: Category)
    requires UniqueNames(s.categories)
    requires AddCategory(s, c).Ok?
    ensures UniqueNames(AddCategory(s, c).value.0.categories)
    ensures NameTaken(AddCategory(s, c).value.0.categories, c.name)
  {
    var (s', saved) := AddCategory(s, c).value;
    var k := saved.id.value;
    forall a, b | a in s'.categories && b in s'.categories && a != b
      ensures s'.categories[a].name != s'.categories[b].name
    {
      if a == k {
        assert b in s.categories;
      } else if b == k {
        assert a in s.categories;
      }
    }
    assert s'.categories[k].name == c.name;
  }

  /** deleteCategory: removes the category with that id, if any; the
      database refuses while a product still belongs to it. */
  function DeleteCategory(s: Shop, id: int): (r: Result<Shop>)
    ensures r.Err? <==> CategoryInUse(s, id)
    ensures r.Err? ==> r.failure.kind == DataIntegrity
    ensures r.Ok? ==> id !in r.value.categories
    ensures r.Ok? ==> forall k :: k in s.categories && k != id ==> k in r.value.categories && r.value.categories[k] == s.categories[k]
    ensures r.Ok? ==> r.value.categories.Keys <= s.categories.Keys
    ensures r.Ok? ==> r.value == s.(categories := r.value.categories)
  {
    if CategoryInUse(s, id) then Fail(DataIntegrity, CATEGORY_IN_USE)
    else Ok(s.(categories := s.categories - {id}))
  }

  /** Deleting a category no product belongs to frees its name for a later
      addCategory. */
  lemma DeleteFreesName(s: Shop, id: int)
    requires UniqueNames(s.categories)
    requires id in s.categories && !CategoryInUse(s, id)
    ensures DeleteCategory(s, id).Ok?
    ensures !NameTaken(DeleteCategory(s, id).value.categories, s.categories[id].name)
  {
  }

  /** A category just added, with no product in it yet, is deleted again,
      giving back the categories as they were. */
  lemma AddThenDeleteCategory(s: Shop, c: Category)
    requires Valid(s) && ReferencesIssued(s)
    requires MergeTarget(s.categories, c.id).None?
    requires AddCategory(s, c).Ok?
    ensures DeleteCategory(AddCategory(s, c).value.0, s.nextId) == Ok(s.(nextId := s.nextId + 1))
  {
    var s1 := AddCategory(s, c).value.0;
    FreshIdUnused(s);
    assert s1.products == s.products;
    assert s.nextId !in s.categories;
    assert s1.categories - {s.nextId} == s.categories;
  }
}

=== FILE: common.dfy ===
/** Shared vocabulary of the model: optional values, the Java exception
    classes the services throw, results, and a few string predicates that
    mirror the java.lang.String methods the source calls. */
module Common {

  datatype Option<+T> = None | Some(value: T)

  /** The exception classes the backend throws or catches. Every one of them
      is a RuntimeException; the controllers tell them apart with `catch`. */
  datatype Kind =
    | RuntimeError        // new RuntimeException(...)
    | SecurityError       // java.lang.SecurityException
    | IllegalState        // java.lang.IllegalStateException
    | UsernameNotFound    // Spring Security UsernameNotFoundException
    | BadCredentials      // Spring Security BadCredentialsException
    | MissingAddress      // MissingAddressException
    | NoSuchElement       // Optional.orElseThrow() without a supplier
    | NullPointer         // dereferencing a missing association
    | NumberFormat        // Long.parseLong on a malformed string
    | DataIntegrity       // a database constraint (unique column, foreign key) refusing a write
    | IndexOutOfBounds    // List.get past the end of the list

  datatype Failure = Failure(kind: Kind, message: string)

  datatype Result<+T> = Ok(value: T) | Err(failure: Failure)

  function Fail<T>(kind: Kind, message: string): (r: Result<T>)
    ensures r.Err? && r.failure.kind == kind
  {
    Err(Failure(kind, message))
  }

  // HTTP status codes the controllers return.
  const OK := 200
  const CREATED := 201
  const BAD_REQUEST := 400
  const UNAUTHORIZED := 401
  const FORBIDDEN := 403
  const NOT_FOUND := 404
  const CONFLICT := 409
  const INTERNAL_SERVER_ERROR := 500

  /** An HTTP reply: status code, message, and the entity in the body. */
  datatype Reply<T> = Reply(status: int, message: string, body: Option<T>)

  /** The characters matched by the Java regex class `\s`. */
  predicate IsRegexSpace(c: char) {
    c == ' ' || c == '\t' || c == '\n' || c == '\U{B}' || c == '\U{C}' || c == '\r'
  }

  /** The ASCII characters for which Character.isWhitespace holds. */
  predicate IsJavaWhitespace(c: char) {
    IsRegexSpace(c) || ('\U{1C}' <= c <= '\U{1F}')
  }

  /** String.isBlank: empty or only whitespace. */
  predicate IsBlank(s: string) {
    forall i :: 0 <= i < |s| ==> IsJavaWhitespace(s[i])
  }

  predicate OccursAt(s: string, part: string, i: int) {
    0 <= i <= |s| - |part| && s[i..i + |part|] == part
  }

  /** String.contains. */
  predicate Contains(s: string, part: string) {
    exists i | 0 <= i <= |s| :: OccursAt(s, part, i)
  }

  function LowerAscii(c: char): (d: char)
    ensures 'A' <= c <= 'Z' ==> 'a' <= d <= 'z'
    ensures !('A' <= c <= 'Z') ==> d == c
  {
    if 'A' <= c <= 'Z' then (c as int + 32) as char else c
  }

  /** String.equalsIgnoreCase, restricted to ASCII case folding. */
  predicate EqualsIgnoreCase(a: string, b: string) {
    |a| == |b| && forall i :: 0 <= i < |a| ==> LowerAscii(a[i]) == LowerAscii(b[i])
  }

  lemma EmptyOrInhabited(s: set<int>)
    ensures s == {} || exists x :: x in s
  {
    if forall x :: x !in s {
      assert s == {};
    }
  }

  /** A lemma-level choice of an element of a non-empty set. */
  lemma Pick(s: set<int>) returns (y: int)
    requires s != {}
    ensures y in s
  {
    EmptyOrInhabited(s);
    y :| y in s;
  }

  predicate IsLeast(m: int, s: set<int>) {
    m in s && forall x :: x in s ==> m <= x
  }

  lemma {:induction false} LeastExists(s: set<int>)
    requires s != {}
    ensures exists m :: IsLeast(m, s)
  {
    var y := Pick(s);
    var rest := s - {y};
    if rest == {} {
      forall x | x in s ensures y <= x {
        assert x == y || x in rest;
      }
      assert IsLeast(y, s);
    } else {
      LeastExists(rest);
      var m :| IsLeast(m, rest);
      var least := if y < m then y else m;
      forall x | x in s ensures least <= x {
        if x != y { assert x in rest; }
      }
      assert IsLeast(least, s);
    }
  }

  /** The least element of a non-empty set of ids. A repository lookup on a
      unique column has at most one candidate; taking the least makes the
      choice deterministic either way. */
  function Least(s: set<int>): (m: int)
    requires s != {}
    ensures m in s && forall x :: x in s ==> m <= x
  {
    LeastExists(s);
    var m :| IsLeast(m, s); m
  }
}

=== FILE: domain.dfy ===
/** The persistent entities of the backend (the JPA classes under model/)
    and the database they live in, as immutable values. Each repository is a
    map from id to record; `nextId` stands for the identity generator. */
module Domain {
  import opened Common

  datatype Role = Customer | Seller | Admin

  /** The item statuses OrderService actually assigns and tests. The Java enum
      declares the first five; CancelledBySeller is used by the service. */
  datatype ItemStatus = Preparing | Shipped | Delivered | Exchanged | Cancelled | CancelledBySeller

  datatype OrderStatus =
    | Preparing | Shipped | Delivered | Cancelled
    | ReturnRequested | Returned | ExchangeRequested | Refunded

  datatype User = User(
    id: int,
    fullName: Option<string>,
    email: string,
    password: string,          // as stored: the encoder's output
    role: Role,
    banned: bool,
    sellerRequested: bool,
    addressIds: seq<int>)      // the user's address list, in list order

  datatype Address = Address(
    id: int,
    owner: int,
    contactName: Option<string>,
    addressLine: Option<string>,
    city: Option<string>,
    state: Option<string>,
    postalCode: Option<string>,
    country: Option<string>,
    phoneNumber: Option<string>)

  datatype Product = Product(
    id: int,
    name: string,
    price: int,                // BigDecimal price in cents
    stock: int,
    sellerId: Option<int>,     // the seller association may be null
    categoryId: Option<int>,
    active: bool,
    deletedByAdmin: bool)

  datatype Category = Category(id: Option<int>, name: string)

  datatype OrderItem = OrderItem(
    id: int,
    orderId: int,
    productId: int,
    quantity: int,
    priceAtPurchase: int,
    status: ItemStatus)

  datatype Order = Order(
    id: int,
    customerId: int,
    addressId: int,
    createdAt: int,            // opaque timestamp token
    status: OrderStatus,
    totalPrice: int,
    itemIds: seq<int>,
    paymentIntentId: Option<string>)

  datatype CartLine = CartLine(productId: int, quantity: int)

  /** The user's cart; carts are keyed by their owner's id (one per user). */
  datatype Cart = Cart(lines: seq<CartLine>)

  datatype Review = Review(
    id: int,
    productId: int,
    customerId: int,
    rating: int,
    comment: string,
    sellerReply: Option<string>,
    createdAt: int)

  datatype ShipmentStatus = Pending | Shipped | Delivered | Other(name: string)

  datatype Shipment = Shipment(
    id: int,
    orderId: int,
    trackingNumber: string,
    status: ShipmentStatus,
    shippedAt: Option<int>,
    deliveredAt: Option<int>)

  datatype Shop = Shop(
    users: map<int, User>,
    addresses: map<int, Address>,
    products: map<int, Product>,
    categories: map<int, Category>,
    orders: map<int, Order>,
    items: map<int, OrderItem>,
    carts: map<int, Cart>,
    reviews: map<int, Review>,
    shipments: map<int, Shipment>,
    nextId: int)

  /** Every stored id was handed out by the identity generator. */
  ghost predicate Valid(s: Shop) {
    && (forall k :: k in s.users ==> k < s.nextId)
    && (forall k :: k in s.addresses ==> k < s.nextId)
    && (forall k :: k in s.products ==> k < s.nextId)
    && (forall k :: k in s.categories ==> k < s.nextId)
    && (forall k :: k in s.orders ==> k < s.nextId)
    && (forall k :: k in s.items ==> k < s.nextId)
    && (forall k :: k in s.reviews ==> k < s.nextId)
    && (forall k :: k in s.shipments ==> k < s.nextId)
  }

  /** Every reference a row holds names an id the identity generator has
      already handed out, as the foreign keys guarantee for stored rows. */
  ghost predicate ReferencesIssued(s: Shop) {
    && (forall k :: k in s.orders ==> s.orders[k].addressId < s.nextId)
    && (forall k :: k in s.items ==> s.items[k].productId < s.nextId)
    && (forall u, i :: u in s.carts && 0 <= i < |s.carts[u].lines| ==> s.carts[u].lines[i].productId < s.nextId)
    && (forall k :: k in s.reviews ==> s.reviews[k].productId < s.nextId)
    && (forall k :: k in s.products && s.products[k].categoryId.Some? ==> s.products[k].categoryId.value < s.nextId)
  }

  /** Some order ships to the address (the orders.address_id foreign key,
      declared without cascade). */
  predicate AddressInUse(orders: map<int, Order>, addressId: int) {
    exists k :: k in orders && orders[k].addressId == addressId
  }

  /** Some order item, cart line or review names the product (the three
      product_id foreign keys, none of them cascading). */
  predicate ProductInUse(s: Shop, productId: int) {
    || (exists k :: k in s.items && s.items[k].productId == productId)
    || (exists u, i :: u in s.carts && 0 <= i < |s.carts[u].lines| && s.carts[u].lines[i].productId == productId)
    || (exists k :: k in s.reviews && s.reviews[k].productId == productId)
  }

  /** Some product belongs to the category (the products.category_id
      foreign key). */
  predicate CategoryInUse(s: Shop, categoryId: int) {
    exists k :: k in s.products && s.products[k].categoryId == Some(categoryId)
  }

  /** No stored row refers to an id not yet handed out. */
  lemma FreshIdUnused(s: Shop)
    requires ReferencesIssued(s)
    ensures !AddressInUse(s.orders, s.nextId)
    ensures !ProductInUse(s, s.nextId)
    ensures !CategoryInUse(s, s.nextId)
  {
  }

  /** userRepository.findByEmail: the user holding that email, if any. */
  function UserIdByEmail(users: map<int, User>, email: string): (r: Option<int>)
    ensures r.Some? <==> exists k :: k in users && users[k].email == email
    ensures r.Some? ==> r.value in users && users[r.value].email == email
  {
    var ks := set k | k in users && users[k].email == email;
    if ks == {} then
      assert forall k :: k in users && users[k].email == email ==> k in ks;
      None
    else
      Some(Least(ks))
  }

  /** The email lookup only depends on the users' emails. */
  lemma SameEmailsSameLookup(a: map<int, User>, b: map<int, User>, email: string)
    requires a.Keys == b.Keys
    requires forall k :: k in a ==> a[k].email == b[k].email
    ensures UserIdByEmail(a, email) == UserIdByEmail(b, email)
  {
    var sa := set k | k in a && a[k].email == email;
    var sb := set k | k in b && b[k].email == email;
    forall k ensures k in sa <==> k in sb {
      if k in a {
        assert a[k].email == b[k].email;
      }
    }
    assert sa == sb;
  }

  /** existsByEmail. */
  predicate EmailTaken(users: map<int, User>, email: string) {
    exists k :: k in users && users[k].email == email
  }

  /** The seller who owns a product, when both product and seller are known. */
  function SellerOf(products: map<int, Product>, productId: int): Option<int> {
    if productId in products then products[productId].sellerId else None
  }
}

=== FILE: order_aggregate.dfy ===
/** The order-level status that OrderService derives from its items' statuses
    after every item mutation (the private helper updateOverallOrderStatus).
    The computation mirrors the Java streams: a filter of the non-cancelled
    items followed by allMatch / anyMatch tests. The contract of `Rollup`
    restates each outcome with quantifiers over the item statuses. */
module OrderAggregate {
  import opened Domain

  predicate IsCancelled(st: ItemStatus) {
    st == ItemStatus.Cancelled || st == ItemStatus.CancelledBySeller
  }

  function AllCancelled(sts: seq<ItemStatus>): (b: bool)
    ensures b <==> forall i :: 0 <= i < |sts| ==> IsCancelled(sts[i])
  {
    if |sts| == 0 then true else IsCancelled(sts[0]) && AllCancelled(sts[1..])
  }

  /** The stream filter that drops cancelled items, keeping order. */
  function ActiveOnly(sts: seq<ItemStatus>): (r: seq<ItemStatus>)
    ensures forall x :: x in r <==> x in sts && !IsCancelled(x)
  {
    if |sts| == 0 then []
    else if IsCancelled(sts[0]) then ActiveOnly(sts[1..])
    else [sts[0]] + ActiveOnly(sts[1..])
  }

  function AllDelivered(sts: seq<ItemStatus>): (b: bool)
    ensures b <==> forall i :: 0 <= i < |sts| ==> sts[i] == ItemStatus.Delivered
  {
    if |sts| == 0 then true
    else sts[0] == ItemStatus.Delivered && AllDelivered(sts[1..])
  }

  function AllShippedOrDelivered(sts: seq<ItemStatus>): (b: bool)
    ensures b <==> forall i :: 0 <= i < |sts| ==> sts[i] == ItemStatus.Shipped || sts[i] == ItemStatus.Delivered
  {
    if |sts| == 0 then true
    else (sts[0] == ItemStatus.Shipped || sts[0] == ItemStatus.Delivered) && AllShippedOrDelivered(sts[1..])
  }

  function AnyPreparing(sts: seq<ItemStatus>): (b: bool)
    ensures b <==> ItemStatus.Preparing in sts
  {
    if |sts| == 0 then false
    else sts[0] == ItemStatus.Preparing || AnyPreparing(sts[1..])
  }

  /** The new order status given the current one and the statuses of the
      order's items. No items: unchanged. All cancelled: CANCELLED. Otherwise
      only the non-cancelled items decide: all delivered gives DELIVERED, all
      shipped or delivered gives SHIPPED, any preparing gives PREPARING, and
      anything else (an EXCHANGED item among them) leaves the status as is. */
  function Rollup(current: OrderStatus, sts: seq<ItemStatus>): (r: OrderStatus)
    ensures |sts| == 0 ==> r == current
    ensures |sts| > 0 && (forall i :: 0 <= i < |sts| ==> IsCancelled(sts[i])) ==> r == OrderStatus.Cancelled
    ensures (exists i :: 0 <= i < |sts| && !IsCancelled(sts[i])) ==> r != OrderStatus.Cancelled || current == OrderStatus.Cancelled
    ensures (exists i :: 0 <= i < |sts| && !IsCancelled(sts[i]))
            && (forall i :: 0 <= i < |sts| ==> IsCancelled(sts[i]) || sts[i] == ItemStatus.Delivered)
            ==> r == OrderStatus.Delivered
    ensures (exists i :: 0 <= i < |sts| && sts[i] == ItemStatus.Shipped)
            && (forall i :: 0 <= i < |sts| ==> IsCancelled(sts[i]) || sts[i] == ItemStatus.Shipped || sts[i] == ItemStatus.Delivered)
            ==> r == OrderStatus.Shipped
    ensures (exists i :: 0 <= i < |sts| && sts[i] == ItemStatus.Preparing) ==> r == OrderStatus.Preparing
    ensures (exists i :: 0 <= i < |sts| && sts[i] == ItemStatus.Exchanged)
            && (forall i :: 0 <= i < |sts| ==> sts[i] != ItemStatus.Preparing)
            ==> r == current
    ensures r in {current, OrderStatus.Cancelled, OrderStatus.Delivered, OrderStatus.Shipped, OrderStatus.Preparing}
  {
    if |sts| == 0 then current
    else if AllCancelled(sts) then OrderStatus.Cancelled
    else
      var active := ActiveOnly(sts);
      assert active != [] by {
        var i :| 0 <= i < |sts| && !IsCancelled(sts[i]);
        assert sts[i] in active;
      }
      assert ItemStatus.Preparing in sts ==> ItemStatus.Preparing in active;
      assert ItemStatus.Shipped in sts ==> ItemStatus.Shipped in active;
      assert ItemStatus.Exchanged in sts ==> ItemStatus.Exchanged in active;
      assert forall j :: 0 <= j < |active| ==>
        exists i :: 0 <= i < |sts| && sts[i] == active[j] && !IsCancelled(sts[i]) by {
        forall j | 0 <= j < |active|
          ensures exists i :: 0 <= i < |sts| && sts[i] == active[j] && !IsCancelled(sts[i])
        {
          assert active[j] in active;
          var i :| 0 <= i < |sts| && sts[i] == active[j];
        }
      }
      if AllDelivered(active) then OrderStatus.Delivered
      else if AllShippedOrDelivered(active) then OrderStatus.Shipped
      else if AnyPreparing(active) then OrderStatus.Preparing
      else current
  }

  /** The statuses of the items an order lists, in list order. */
  function StatusesOf(ids: seq<int>, items: map<int, OrderItem>): (r: seq<ItemStatus>)
    ensures (forall i :: 0 <= i < |ids| ==> ids[i] in items) ==> |r| == |ids|
    ensures (forall i :: 0 <= i < |ids| ==> ids[i] in items) ==>
              forall i :: 0 <= i < |ids| ==> r[i] == items[ids[i]].status
  {
    if |ids| == 0 then []
    else
      (if ids[0] in items then [items[ids[0]].status] else []) + StatusesOf(ids[1..], items)
  }

  /** updateOverallOrderStatus applied to the order with the given id. */
  function RecomputeOrder(s: Shop, orderId: int): (s': Shop)
    ensures s' == s.(orders := s'.orders)
    ensures s'.orders.Keys == s.orders.Keys
    ensures forall k :: k in s.orders && k != orderId ==> s'.orders[k] == s.orders[k]
    ensures orderId in s.orders ==>
              s'.orders[orderId] == s.orders[orderId].(status := s'.orders[orderId].status)
    ensures orderId in s.orders ==>
              s'.orders[orderId].status == Rollup(s.orders[orderId].status, StatusesOf(s.orders[orderId].itemIds, s.items))
  {
    if orderId !in s.orders then s
    else
      var o := s.orders[orderId];
      s.(orders := s.orders[orderId := o.(status := Rollup(o.status, StatusesOf(o.itemIds, s.items)))])
  }
}

=== FILE: order_controller.dfy ===
/** The decisions OrderController adds around OrderService: the principal's
    ownership checks, the exception-to-status classification of its
    try/catch blocks, and the guard of the refund endpoint. An exception a
    controller method does not catch is returned as `Err`; one it catches
    becomes a reply with the corresponding status. */
module OrderController {
  import opened Common
  import opened Domain
  import opened OrderService

  // Reply messages, one constant each.
  const NOT_YOUR_ORDER_TO_PLACE := "You are not authorized to place this order."
  const ORDER_CREATION_FAILED := "Order creation failed: "
  const NOT_YOUR_ORDERS := "You are not allowed to view orders of another user."
  const FETCH_FAILED := "Failed to fetch orders: "
  const NO_PAYMENT := "No payment information was found for this order."
  const REFUND_FAILED := "Error during refund: "
  const REFUNDED := "Refund completed."

  /** The catch chain of update-item-status, cancel-by-seller and
      cancel-by-admin: SecurityException is 403, IllegalStateException is
      409, and any other RuntimeException is 404. */
  function ItemActionStatus(k: Kind): (code: int)
    ensures code in {FORBIDDEN, CONFLICT, NOT_FOUND}
    ensures code == FORBIDDEN <==> k == SecurityError
    ensures code == CONFLICT <==> k == IllegalState
  {
    match k
    case SecurityError => FORBIDDEN
    case IllegalState => CONFLICT
    case _ => NOT_FOUND
  }

  /** The catch chain of the refund-request, approve and reject endpoints:
      the same two subclasses first, then any other exception is 500. */
  function RefundActionStatus(k: Kind): (code: int)
    ensures code in {FORBIDDEN, CONFLICT, INTERNAL_SERVER_ERROR}
    ensures code == FORBIDDEN <==> k == SecurityError
    ensures code == CONFLICT <==> k == IllegalState
  {
    match k
    case SecurityError => FORBIDDEN
    case IllegalState => CONFLICT
    case _ => INTERNAL_SERVER_ERROR
  }

  /** The two catch chains agree on the two dedicated exception classes and
      differ only in the status of the fall-through case. */
  lemma ClassificationsAgree(k: Kind)
    ensures k in {SecurityError, IllegalState} ==> ItemActionStatus(k) == RefundActionStatus(k)
    ensures k !in {SecurityError, IllegalState} ==>
              ItemActionStatus(k) == NOT_FOUND && RefundActionStatus(k) == INTERNAL_SERVER_ERROR
  {
  }

  /** The reply of an item endpoint for a service call that returned `r`:
      200 with the updated item, or the classified failure and its message. */
  function ItemReply<T>(r: Result<T>): (reply: Reply<T>)
    ensures reply.status == OK <==> r.Ok?
    ensures r.Ok? ==> reply.body == Some(r.value)
    ensures r.Err? ==> reply.status == ItemActionStatus(r.failure.kind) && reply.message == r.failure.message
                       && reply.body == None
  {
    match r
    case Ok(v) => Reply(OK, "", Some(v))
    case Err(f) => Reply(ItemActionStatus(f.kind), f.message, None)
  }

  /** POST /from-cart: the principal must be a user, and may only order for
      itself; otherwise 403 and the service is not called. A failure of the
      service is reported as 400 and rolls back. */
  function PlaceOrderFromCartEndpoint(s: Shop, principal: string, userId: int, now: int): (r: Result<(Shop, Reply<Order>)>)
    ensures UserIdByEmail(s.users, principal).None? <==> r.Err?
    ensures r.Ok? && r.value.1.status != OK ==> r.value.0 == s
    ensures r.Ok? ==> (r.value.1.status == FORBIDDEN <==> UserIdByEmail(s.users, principal) != Some(userId))
    ensures r.Ok? && r.value.1.status == OK ==>
              && UserIdByEmail(s.users, principal) == Some(userId)
              && PlaceOrderFromCart(s, userId, now).Ok?
              && r.value.0 == PlaceOrderFromCart(s, userId, now).value
              && r.value.1.body == Some(r.value.0.orders[s.nextId])
    ensures UserIdByEmail(s.users, principal) == Some(userId) && PlaceOrderFromCart(s, userId, now).Ok? ==>
              r.Ok? && r.value.1.status == OK
    ensures r.Ok? ==> (r.value.1.status == BAD_REQUEST <==>
              UserIdByEmail(s.users, principal) == Some(userId) && PlaceOrderFromCart(s, userId, now).Err?)
    ensures r.Ok? ==> r.value.1.status in {OK, FORBIDDEN, BAD_REQUEST}
  {
    match UserIdByEmail(s.users, principal)
    case None => Fail(RuntimeError, USER_NOT_FOUND)
    case Some(id) =>
      if id != userId then Ok((s, Reply(FORBIDDEN, NOT_YOUR_ORDER_TO_PLACE, None)))
      else
        match PlaceOrderFromCart(s, userId, now)
        case Err(f) => Ok((s, Reply(BAD_REQUEST, ORDER_CREATION_FAILED + f.message, None)))
        case Ok(s') => Ok((s', Reply(OK, "", Some(s'.orders[s.nextId]))))
  }

  /** Whatever the request names, an order placed through the endpoint is
      the principal's own, and the customer's cart is left empty. */
  lemma PlacedOrderIsPrincipals(s: Shop, principal: string, userId: int, now: int)
    requires PlaceOrderFromCartEndpoint(s, principal, userId, now).Ok?
    requires PlaceOrderFromCartEndpoint(s, principal, userId, now).value.1.status == OK
    ensures var (s', reply) := PlaceOrderFromCartEndpoint(s, principal, userId, now).value;
            && UserIdByEmail(s.users, principal).Some?
            && reply.body.Some?
            && reply.body.value.customerId == UserIdByEmail(s.users, principal).value
            && s'.carts[reply.body.value.customerId] == Cart([])
  {
  }

  /** GET /by-customer: the ids of the orders of `userId`, but only for the
      principal itself (403 otherwise); an unknown principal is caught and
      reported as 400. */
  function GetOrders(s: Shop, principal: string, userId: int): (reply: Reply<set<int>>)
    ensures reply.status == OK <==> UserIdByEmail(s.users, principal) == Some(userId)
    ensures reply.status == FORBIDDEN <==>
              UserIdByEmail(s.users, principal).Some? && UserIdByEmail(s.users, principal) != Some(userId)
    ensures reply.status == BAD_REQUEST <==> UserIdByEmail(s.users, principal).None?
    ensures reply.status == OK ==>
              reply.body.Some? && forall k :: k in s.orders ==> (k in reply.body.value <==> s.orders[k].customerId == userId)
  {
    match UserIdByEmail(s.users, principal)
    case None => Reply(BAD_REQUEST, FETCH_FAILED + USER_NOT_FOUND, None)
    case Some(id) =>
      if id != userId then Reply(FORBIDDEN, NOT_YOUR_ORDERS, None)
      else Reply(OK, "", Some(set k | k in s.orders && s.orders[k].customerId == userId))
  }

  /** PUT /item/{id}/cancel-by-seller: the service call with every
      RuntimeException caught and classified. */
  function CancelBySellerEndpoint(s: Shop, itemId: int, principal: string): (r: (Shop, Reply<OrderItem>))
    ensures r.1.status != OK ==> r.0 == s
    ensures r.1.status == OK ==> CancelOrderItemBySeller(s, itemId, principal).Ok?
                                 && r.0 == CancelOrderItemBySeller(s, itemId, principal).value.0
                                 && r.1.body == Some(CancelOrderItemBySeller(s, itemId, principal).value.1)
  {
    match CancelOrderItemBySeller(s, itemId, principal)
    case Ok((s', item)) => (s', ItemReply(Ok(item)))
    case Err(f) => (s, ItemReply(Err(f)))
  }

  /** The reply of cancel-by-seller in terms of the shop: 200 exactly when
      the principal sells the item and it can still be cancelled, 403 when
      the item's known seller is someone else, 409 when the principal's own
      item is delivered or already cancelled, and 404 for every other
      failure (unknown principal, item, product or seller). */
  lemma CancelBySellerStatus(s: Shop, itemId: int, principal: string)
    ensures var code := CancelBySellerEndpoint(s, itemId, principal).1.status;
            var who := UserIdByEmail(s.users, principal);
            && (code == OK <==> who.Some? && SellsItem(s, itemId, who.value) && Cancellable(s.items[itemId].status))
            && (code == FORBIDDEN <==>
                  who.Some? && itemId in s.items && SellerOf(s.products, s.items[itemId].productId).Some?
                  && !SellsItem(s, itemId, who.value))
            && (code == CONFLICT <==> who.Some? && SellsItem(s, itemId, who.value) && !Cancellable(s.items[itemId].status))
            && (code == NOT_FOUND <==>
                  who.None? || itemId !in s.items || SellerOf(s.products, s.items[itemId].productId).None?)
  {
    var who := UserIdByEmail(s.users, principal);
    if who.Some? {
      var r := CancelItemAs(s, itemId, who.value);
      if itemId in s.items && SellerOf(s.products, s.items[itemId].productId).None? {
        assert r.Err? && r.failure.kind == RuntimeError;
      }
    }
  }

  /** PUT /refund: the order must exist and carry a non-blank payment intent
      id; the payment provider's refund (whose outcome is a parameter here)
      must succeed; then the order becomes CANCELLED. Every failure is
      caught and reported as 400, leaving the shop unchanged. */
  function RefundOrder(s: Shop, orderId: int, refundSucceeds: bool): (r: (Shop, Reply<()>))
    ensures r.1.status in {OK, BAD_REQUEST}
    ensures r.1.status == OK <==>
              && orderId in s.orders
              && s.orders[orderId].paymentIntentId.Some?
              && !IsBlank(s.orders[orderId].paymentIntentId.value)
              && refundSucceeds
    ensures r.1.status == OK ==>
              r.0 == s.(orders := s.orders[orderId := s.orders[orderId].(status := OrderStatus.Cancelled)])
    ensures r.1.status != OK ==> r.0 == s
  {
    if orderId !in s.orders then (s, Reply(BAD_REQUEST, REFUND_FAILED + ORDER_NOT_FOUND, None))
    else
      var o := s.orders[orderId];
      if o.paymentIntentId.None? || IsBlank(o.paymentIntentId.value) then (s, Reply(BAD_REQUEST, NO_PAYMENT, None))
      else if !refundSucceeds then (s, Reply(BAD_REQUEST, REFUND_FAILED, None))
      else (s.(orders := s.orders[orderId := o.(status := OrderStatus.Cancelled)]), Reply(OK, REFUNDED, None))
  }

  /** Nothing in the refund endpoint remembers a completed refund: a second
      call finds the same payment intent id, asks the provider again, and
      leaves the shop as the first call did. */
  lemma RefundRepeats(s: Shop, orderId: int)
    requires RefundOrder(s, orderId, true).1.status == OK
    ensures var s1 := RefundOrder(s, orderId, true).0;
            RefundOrder(s1, orderId, true).1.status == OK && RefundOrder(s1, orderId, true).0 == s1
  {
    var s1 := RefundOrder(s, orderId, true).0;
    assert s1.orders[orderId].paymentIntentId == s.orders[orderId].paymentIntentId;
  }

  /** The reply of the refund-request, approve and reject endpoints for a
      service outcome. */
  function RefundActionReply<T>(r: Result<T>): (reply: Reply<T>)
    ensures reply.status == OK <==> r.Ok?
    ensures r.Ok? ==> reply.body == Some(r.value)
    ensures r.Err? ==> reply.status == RefundActionStatus(r.failure.kind) && reply.body == None
  {
    match r
    case Ok(v) => Reply(OK, "", Some(v))
    case Err(f) => Reply(RefundActionStatus(f.kind), f.message, None)
  }
}

=== FILE: order_service.dfy ===
/** The order lifecycle of OrderService. The class is transactional, so each
    operation is one atomic step: `Ok(s')` is the state after commit and
    `Err(f)` is a rollback that leaves the caller's state as it was. */
module OrderService {
  import opened Common
  import opened Domain
  import opened Stock
  import opened OrderAggregate

  // Exception messages, one constant each.
  const NO_ADDRESS := "The user does not have an address. Add address before ordering."
  const USER_NOT_FOUND := "User not found"
  const QUANTITY_INDEX := "Index out of bounds for quantities"
  const CART_NOT_FOUND := "Cart not found or empty"
  const CART_EMPTY := "Cart is empty. Cannot place order."
  const ITEM_SELLER_MISSING := "product or seller of order item"
  const ORDER_ITEM_NOT_FOUND := "Order item not found"
  const ORDER_ITEM_ID_NOT_FOUND := "Order item not found with ID"
  const NO_SELLER_INFO := "Product or product seller information is missing for the order item."
  const NOT_ITEM_SELLER := "You are not authorized to cancel this order item as you are not the seller of the product."
  const DELIVERED_ITEM := "Delivered order items cannot be cancelled."
  const ALREADY_CANCELLED := "Order item is already cancelled."
  const SELLER_NOT_FOUND := "Seller not found with email: "
  const ORDER_NOT_FOUND := "Order not found"
  const UNAUTHORIZED_SELLER := "Unauthorized"
  const INVALID_SELLER_STATUS := "Invalid status change by seller"
  const NOT_YOUR_ORDER := "This order does not belong to you"
  const ONLY_DELIVERED := "Only delivered orders can be exchanged"
  const NOT_YOUR_ITEMS := "These order items are not yours."
  const NOT_AWAITING_EXCHANGE := "Order is not awaiting an exchange."

  /** validateUserAddress: a customer without an address cannot order. */
  function ValidateUserAddress(u: User): (r: Option<Failure>)
    ensures r.Some? <==> |u.addressIds| == 0
    ensures r.Some? ==> r.value.kind == MissingAddress
  {
    if |u.addressIds| == 0 then
      Some(Failure(MissingAddress, NO_ADDRESS))
    else None
  }

  /** placeOrder's lines: product ids paired with quantities by position. */
  function Pair(productIds: seq<int>, quantities: seq<int>): (r: seq<Line>)
    requires |productIds| <= |quantities|
    ensures |r| == |productIds|
    ensures forall i :: 0 <= i < |r| ==> r[i] == Line(productIds[i], quantities[i])
  {
    seq(|productIds|, i requires 0 <= i < |productIds| => Line(productIds[i], quantities[i]))
  }

  /** The cart's lines as order lines, in cart order. */
  function CartOrderLines(c: Cart): (r: seq<Line>)
    ensures |r| == |c.lines|
    ensures forall i :: 0 <= i < |r| ==> r[i] == Line(c.lines[i].productId, c.lines[i].quantity)
  {
    seq(|c.lines|, i requires 0 <= i < |c.lines| => Line(c.lines[i].productId, c.lines[i].quantity))
  }

  /** The items of a new order: one PREPARING item per line, the i-th under
      id oid + 1 + i, priced at its product's current price. */
  function NewItems(oid: int, products: map<int, Product>, lines: seq<Line>): (m: map<int, OrderItem>)
    requires forall i :: 0 <= i < |lines| ==> lines[i].productId in products
    ensures forall k :: k in m <==> oid < k <= oid + |lines|
    ensures forall i :: 0 <= i < |lines| ==>
              m[oid + 1 + i] == OrderItem(oid + 1 + i, oid, lines[i].productId, lines[i].quantity,
                                          products[lines[i].productId].price, ItemStatus.Preparing)
  {
    if |lines| == 0 then map[]
    else
      var n := |lines| - 1;
      var m := NewItems(oid, products, lines[..n]);
      assert forall i :: 0 <= i < n ==> lines[..n][i] == lines[i];
      m[oid + 1 + n := OrderItem(oid + 1 + n, oid, lines[n].productId, lines[n].quantity,
                                 products[lines[n].productId].price, ItemStatus.Preparing)]
  }

  /** Saves a new order for the reserved lines: the order takes the next id,
      its items the ids after it, in line order; `reserved` is the product
      store after the stock decrements. */
  function Commit(s: Shop, userId: int, addressId: int, now: int, lines: seq<Line>, reserved: map<int, Product>): (s': Shop)
    requires forall i :: 0 <= i < |lines| ==> lines[i].productId in s.products
  {
    var oid := s.nextId;
    var n := |lines|;
    s.(products := reserved,
       orders := s.orders[oid := Order(oid, userId, addressId, now, OrderStatus.Preparing,
                                       Amount(s.products, lines), seq(n, i => oid + 1 + i), None)],
       items := s.items + NewItems(oid, s.products, lines),
       nextId := oid + 1 + n)
  }

  /** The new order record of a placement: a PREPARING order under the next
      id, addressed to the customer's first address, whose total is the sum
      of quantity times price. */
  ghost predicate PlacedOrder(s: Shop, s': Shop, userId: int, lines: seq<Line>, now: int)
    requires userId in s.users && |s.users[userId].addressIds| > 0
    requires forall i :: 0 <= i < |lines| ==> lines[i].productId in s.products
  {
    && s.nextId in s'.orders
    && var o := s'.orders[s.nextId];
       (&& o.id == s.nextId
        && o.customerId == userId
        && o.addressId == s.users[userId].addressIds[0]
        && o.createdAt == now
        && o.status == OrderStatus.Preparing
        && o.paymentIntentId == None
        && o.totalPrice == Amount(s.products, lines)
        && |o.itemIds| == |lines|)
  }

  /** The new items of a placement: one PREPARING item per line, with fresh
      ids, the line's quantity and the product's price at that moment. */
  ghost predicate PlacedItems(s: Shop, s': Shop, lines: seq<Line>)
    requires forall i :: 0 <= i < |lines| ==> lines[i].productId in s.products
    requires s.nextId in s'.orders && |s'.orders[s.nextId].itemIds| == |lines|
  {
    var o := s'.orders[s.nextId];
    && (forall i :: 0 <= i < |lines| ==>
          && s.nextId < o.itemIds[i] < s'.nextId
          && o.itemIds[i] in s'.items
          && s'.items[o.itemIds[i]] == OrderItem(o.itemIds[i], s.nextId, lines[i].productId, lines[i].quantity,
                                                 s.products[lines[i].productId].price, ItemStatus.Preparing))
  }

  /** What else a placement changes: each product's stock drops by the
      quantity ordered of it, earlier orders and items stay as they were,
      the identity counter moves past the new ids, and nothing else differs. */
  ghost predicate PlacedFrame(s: Shop, s': Shop, lines: seq<Line>) {
    && SameButStock(s.products, s'.products)
    && (forall k :: k in s.products ==> s'.products[k].stock == s.products[k].stock - Demand(lines, k))
    && (forall k :: k in s.orders && k != s.nextId ==> k in s'.orders && s'.orders[k] == s.orders[k])
    && (forall k :: k in s.items && k <= s.nextId ==> k in s'.items && s'.items[k] == s.items[k])
    && s'.nextId == s.nextId + 1 + |lines|
    && s' == s.(products := s'.products, orders := s'.orders, items := s'.items, nextId := s'.nextId)
  }

  /** Everything a successful placement of `lines` for `userId` at time
      `now` leaves behind. */
  ghost predicate Placed(s: Shop, s': Shop, userId: int, lines: seq<Line>, now: int) {
    && userId in s.users
    && |s.users[userId].addressIds| > 0
    && (forall i :: 0 <= i < |lines| ==> lines[i].productId in s.products)
    && Covered(s.products, lines)
    && PlacedOrder(s, s', userId, lines, now)
    && PlacedItems(s, s', lines)
    && PlacedFrame(s, s', lines)
  }

  lemma CommitPlacesItems(s: Shop, s': Shop, lines: seq<Line>)
    requires forall i :: 0 <= i < |lines| ==> lines[i].productId in s.products
    requires s'.items == s.items + NewItems(s.nextId, s.products, lines)
    requires s.nextId in s'.orders
    requires s'.orders[s.nextId].itemIds == seq(|lines|, i => s.nextId + 1 + i)
    requires s'.nextId == s.nextId + 1 + |lines|
    ensures PlacedItems(s, s', lines)
  {
    NewItemsListed(s.nextId, s.products, lines, s.items, s'.items, s'.orders[s.nextId].itemIds);
  }

  /** The ids listed on a new order name, in line order, the new items of
      the store they were merged into. */
  lemma NewItemsListed(oid: int, products: map<int, Product>, lines: seq<Line>,
                       before: map<int, OrderItem>, after: map<int, OrderItem>, ids: seq<int>)
    requires forall i :: 0 <= i < |lines| ==> lines[i].productId in products
    requires after == before + NewItems(oid, products, lines)
    requires ids == seq(|lines|, i => oid + 1 + i)
    ensures forall i :: 0 <= i < |lines| ==>
              && oid < ids[i] < oid + 1 + |lines|
              && ids[i] in after
              && after[ids[i]] == OrderItem(ids[i], oid, lines[i].productId, lines[i].quantity,
                                            products[lines[i].productId].price, ItemStatus.Preparing)
  {
    var added := NewItems(oid, products, lines);
    forall i | 0 <= i < |lines|
      ensures oid < ids[i] < oid + 1 + |lines|
      ensures ids[i] in after
      ensures after[ids[i]] == OrderItem(ids[i], oid, lines[i].productId, lines[i].quantity,
                                         products[lines[i].productId].price, ItemStatus.Preparing)
    {
      var k := oid + 1 + i;
      assert ids[i] == k;
      NewItemAt(oid, products, lines, i);
      assert after[k] == added[k];
    }
  }

  /** The item a placement creates for its i-th line. */
  lemma NewItemAt(oid: int, products: map<int, Product>, lines: seq<Line>, i: int)
    requires forall j :: 0 <= j < |lines| ==> lines[j].productId in products
    requires 0 <= i < |lines|
    ensures oid + 1 + i in NewItems(oid, products, lines)
    ensures NewItems(oid, products, lines)[oid + 1 + i]
            == OrderItem(oid + 1 + i, oid, lines[i].productId, lines[i].quantity,
                         products[lines[i].productId].price, ItemStatus.Preparing)
  {
  }

  lemma CommitPlacesFrame(s: Shop, userId: int, lines: seq<Line>, now: int, reserved: map<int, Product>)
    requires userId in s.users && |s.users[userId].addressIds| > 0
    requires Reserve(s.products, lines) == Ok(reserved)
    ensures PlacedFrame(s, Commit(s, userId, s.users[userId].addressIds[0], now, lines, reserved), lines)
  {
    var s' := Commit(s, userId, s.users[userId].addressIds[0], now, lines, reserved);
    var added := NewItems(s.nextId, s.products, lines);
    ReserveStock(s.products, lines);
    forall k | k in s.items && k <= s.nextId
      ensures k in s'.items && s'.items[k] == s.items[k]
    {
      assert k !in added;
    }
  }

  lemma CommitPlaces(s: Shop, userId: int, lines: seq<Line>, now: int, reserved: map<int, Product>)
    requires userId in s.users && |s.users[userId].addressIds| > 0
    requires Reserve(s.products, lines) == Ok(reserved)
    ensures Placed(s, Commit(s, userId, s.users[userId].addressIds[0], now, lines, reserved), userId, lines, now)
  {
    var s' := Commit(s, userId, s.users[userId].addressIds[0], now, lines, reserved);
    ReserveCovers(s.products, lines);
    CommitPlacesItems(s, s', lines);
    CommitPlacesFrame(s, userId, lines, now, reserved);
  }

  /** placeOrder: loads the customer, requires an address, then walks the
      product ids in order. Each step looks the product up, then reads the
      matching quantity (a shorter quantity list fails there), then checks
      and decrements the stock. */
  function PlaceOrder(s: Shop, userId: int, productIds: seq<int>, quantities: seq<int>, now: int): (r: Result<Shop>)
    ensures userId !in s.users ==> r.Err? && r.failure.kind == RuntimeError
    ensures userId in s.users && |s.users[userId].addressIds| == 0 ==> r.Err? && r.failure.kind == MissingAddress
    ensures |quantities| < |productIds| ==> r.Err?
    ensures r.Ok? ==> |productIds| <= |quantities| && Placed(s, r.value, userId, Pair(productIds, quantities), now)
  {
    if userId !in s.users then Fail(RuntimeError, USER_NOT_FOUND)
    else
      var u := s.users[userId];
      match ValidateUserAddress(u)
      case Some(f) => Err(f)
      case None =>
        var n := if |quantities| < |productIds| then |quantities| else |productIds|;
        var lines := Pair(productIds[..n], quantities);
        match Reserve(s.products, lines)
        case Err(f) => Err(f)
        case Ok(reserved) =>
          if n < |productIds| then
            if productIds[n] !in reserved then Fail(RuntimeError, PRODUCT_NOT_FOUND)
            else Fail(IndexOutOfBounds, QUANTITY_INDEX)
          else
            assert productIds[..n] == productIds;
            CommitPlaces(s, userId, lines, now, reserved);
            Ok(Commit(s, userId, u.addressIds[0], now, lines, reserved))
  }

  /** With non-negative quantities, placeOrder succeeds exactly when the
      customer exists and has an address, every product id has a quantity,
      every product exists, and each product's stock covers the total
      quantity ordered of it. */
  lemma PlaceOrderSucceedsIff(s: Shop, userId: int, productIds: seq<int>, quantities: seq<int>, now: int)
    requires forall i :: 0 <= i < |quantities| ==> quantities[i] >= 0
    ensures PlaceOrder(s, userId, productIds, quantities, now).Ok? <==>
              && userId in s.users
              && |s.users[userId].addressIds| > 0
              && |productIds| <= |quantities|
              && (forall i :: 0 <= i < |productIds| ==> productIds[i] in s.products)
              && (forall i :: 0 <= i < |productIds| ==>
                    s.products[productIds[i]].stock >= Demand(Pair(productIds, quantities), productIds[i]))
  {
    if userId in s.users && |s.users[userId].addressIds| > 0 && |productIds| <= |quantities| {
      var lines := Pair(productIds, quantities);
      assert productIds[..|productIds|] == productIds;
      ReserveSucceedsIff(s.products, lines);
    }
  }

  /** placeOrderFromCart: the same placement over the lines of the user's
      cart, which must exist and be non-empty; the cart is emptied after the
      order is saved. */
  function PlaceOrderFromCart(s: Shop, userId: int, now: int): (r: Result<Shop>)
    ensures userId !in s.users ==> r.Err? && r.failure.kind == RuntimeError
    ensures userId in s.users && |s.users[userId].addressIds| == 0 ==> r.Err? && r.failure.kind == MissingAddress
    ensures (&& userId in s.users && |s.users[userId].addressIds| > 0
             && (userId !in s.carts || |s.carts[userId].lines| == 0)) ==> r.Err? && r.failure.kind == RuntimeError
    ensures r.Ok? ==>
              && userId in s.carts
              && |s.carts[userId].lines| > 0
              && Placed(s, r.value.(carts := s.carts), userId, CartOrderLines(s.carts[userId]), now)
              && r.value.carts == s.carts[userId := Cart([])]
  {
    if userId !in s.users then Fail(RuntimeError, USER_NOT_FOUND)
    else
      var u := s.users[userId];
      match ValidateUserAddress(u)
      case Some(f) => Err(f)
      case None =>
        if userId !in s.carts then Fail(RuntimeError, CART_NOT_FOUND)
        else
          var cart := s.carts[userId];
          if |cart.lines| == 0 then Fail(RuntimeError, CART_EMPTY)
          else
            var lines := CartOrderLines(cart);
            match Reserve(s.products, lines)
            case Err(f) => Err(f)
            case Ok(reserved) =>
              CommitPlaces(s, userId, lines, now, reserved);
              var placed := Commit(s, userId, u.addressIds[0], now, lines, reserved);
              assert placed.(carts := s.carts) == placed;
              Ok(placed.(carts := s.carts[userId := Cart([])]))
  }

  /** With non-negative cart quantities, placeOrderFromCart succeeds exactly
      when the customer exists, has an address and a non-empty cart, and
      each product of the cart exists and has stock for the total quantity
      the cart asks of it. */
  lemma PlaceOrderFromCartSucceedsIff(s: Shop, userId: int, now: int)
    requires userId in s.carts ==>
               forall i :: 0 <= i < |s.carts[userId].lines| ==> s.carts[userId].lines[i].quantity >= 0
    ensures PlaceOrderFromCart(s, userId, now).Ok? <==>
              && userId in s.users
              && |s.users[userId].addressIds| > 0
              && userId in s.carts
              && |s.carts[userId].lines| > 0
              && Covered(s.products, CartOrderLines(s.carts[userId]))
  {
    if userId in s.users && |s.users[userId].addressIds| > 0 && userId in s.carts && |s.carts[userId].lines| > 0 {
      ReserveSucceedsIff(s.products, CartOrderLines(s.carts[userId]));
    }
  }

  /** The list-order scan that updateOrderStatus and approveExchangeRequest
      run over an order's items: every item's product must be sold by the
      given seller. A missing product or seller is a null dereference. */
  function CheckSeller(s: Shop, itemIds: seq<int>, sellerId: int, message: string): (r: Option<Failure>)
    ensures r.None? <==> forall i :: 0 <= i < |itemIds| ==>
              && itemIds[i] in s.items
              && SellerOf(s.products, s.items[itemIds[i]].productId) == Some(sellerId)
    ensures r.Some? ==> r.value.kind in {NullPointer, RuntimeError}
  {
    if |itemIds| == 0 then None
    else if itemIds[0] !in s.items || SellerOf(s.products, s.items[itemIds[0]].productId).None? then
      Some(Failure(NullPointer, ITEM_SELLER_MISSING))
    else if SellerOf(s.products, s.items[itemIds[0]].productId) != Some(sellerId) then
      Some(Failure(RuntimeError, message))
    else
      var r := CheckSeller(s, itemIds[1..], sellerId, message);
      assert forall i :: 1 <= i < |itemIds| ==> itemIds[i] == itemIds[1..][i - 1];
      r
  }

  /** updateOrderItemStatus(id, status): sets the item's status with no
      guard and then re-derives the status of the item's order. */
  function UpdateOrderItemStatus(s: Shop, itemId: int, status: ItemStatus): (r: Result<Shop>)
    ensures itemId !in s.items ==> r.Err? && r.failure.kind == RuntimeError
    ensures itemId in s.items ==> r.Ok?
    ensures r.Ok? ==>
              && itemId in r.value.items
              && r.value.items == s.items[itemId := s.items[itemId].(status := status)]
              && r.value == s.(items := r.value.items, orders := r.value.orders)
              && r.value.orders.Keys == s.orders.Keys
              && var oid := s.items[itemId].orderId;
                 && (forall k :: k in s.orders && k != oid ==> r.value.orders[k] == s.orders[k])
                 && (oid in s.orders ==>
                       r.value.orders[oid] == s.orders[oid].(status := Rollup(s.orders[oid].status,
                                                               StatusesOf(s.orders[oid].itemIds, r.value.items))))
  {
    if itemId !in s.items then Fail(RuntimeError, ORDER_ITEM_NOT_FOUND)
    else
      var it := s.items[itemId];
      var s1 := s.(items := s.items[itemId := it.(status := status)]);
      Ok(RecomputeOrder(s1, it.orderId))
  }

  /** The success path of cancelOrderItemBySeller: the item's quantity goes
      back to its product's stock, the item becomes CANCELLED_BY_SELLER and
      the order's status is re-derived. */
  function RestoreAndMark(s: Shop, itemId: int): (r: (Shop, OrderItem))
    requires itemId in s.items && s.items[itemId].productId in s.products
    ensures var (s', item) := r;
            var before := s.items[itemId];
            && item == before.(status := ItemStatus.CancelledBySeller)
            && s'.items == s.items[itemId := item]
            && SameButStock(s.products, s'.products)
            && (forall k :: k in s.products ==>
                  s'.products[k].stock == s.products[k].stock + (if k == before.productId then before.quantity else 0))
            && s'.orders.Keys == s.orders.Keys
            && (forall k :: k in s.orders && k != before.orderId ==> s'.orders[k] == s.orders[k])
            && s' == s.(products := s'.products, items := s'.items, orders := s'.orders)
    ensures var (s', _) := r;
            var oid := s.items[itemId].orderId;
            oid in s.orders ==>
              s'.orders[oid] == s.orders[oid].(status := Rollup(s.orders[oid].status, StatusesOf(s.orders[oid].itemIds, s'.items)))
  {
    var it := s.items[itemId];
    var p := s.products[it.productId];
    var item := it.(status := ItemStatus.CancelledBySeller);
    var s1 := s.(products := s.products[it.productId := p.(stock := p.stock + it.quantity)],
                 items := s.items[itemId := item]);
    (RecomputeOrder(s1, it.orderId), item)
  }

  /** An item a seller may still cancel: neither delivered nor cancelled. */
  predicate Cancellable(st: ItemStatus) {
    st != ItemStatus.Delivered && !IsCancelled(st)
  }

  /** The item exists and its product names `sellerId` as its seller. */
  predicate SellsItem(s: Shop, itemId: int, sellerId: int) {
    itemId in s.items && SellerOf(s.products, s.items[itemId].productId) == Some(sellerId)
  }

  /** The checks of cancelOrderItemBySeller once the seller is known, in the
      order the method makes them: unknown item, product or seller missing,
      not the product's seller, item delivered, item already cancelled. */
  function CancelItemAs(s: Shop, itemId: int, sellerId: int): (r: Result<(Shop, OrderItem)>)
    ensures itemId !in s.items ==> r.Err? && r.failure.kind == RuntimeError
    ensures r.Err? && r.failure.kind == SecurityError ==>
              itemId in s.items && SellerOf(s.products, s.items[itemId].productId).Some? && !SellsItem(s, itemId, sellerId)
    ensures r.Err? && r.failure.kind == IllegalState ==>
              SellsItem(s, itemId, sellerId) && !Cancellable(s.items[itemId].status)
    ensures r.Ok? ==> SellsItem(s, itemId, sellerId) && Cancellable(s.items[itemId].status)
    ensures (SellsItem(s, itemId, sellerId) && Cancellable(s.items[itemId].status)) ==> r.Ok?
    ensures r.Ok? ==> s.items[itemId].productId in s.products && r.value == RestoreAndMark(s, itemId)
  {
    if itemId !in s.items then Fail(RuntimeError, ORDER_ITEM_ID_NOT_FOUND)
    else
      var it := s.items[itemId];
      var seller := SellerOf(s.products, it.productId);
      if seller.None? then
        Fail(RuntimeError, NO_SELLER_INFO)
      else if seller.value != sellerId then
        Fail(SecurityError, NOT_ITEM_SELLER)
      else if it.status == ItemStatus.Delivered then
        Fail(IllegalState, DELIVERED_ITEM)
      else if IsCancelled(it.status) then
        Fail(IllegalState, ALREADY_CANCELLED)
      else
        Ok(RestoreAndMark(s, itemId))
  }

  /** cancelOrderItemBySeller: the caller's email must name a user, whose id
      is then checked against the item's product. */
  function CancelOrderItemBySeller(s: Shop, itemId: int, sellerEmail: string): (r: Result<(Shop, OrderItem)>)
    ensures UserIdByEmail(s.users, sellerEmail).None? ==> r.Err? && r.failure.kind == RuntimeError
    ensures UserIdByEmail(s.users, sellerEmail).Some? ==>
              r == CancelItemAs(s, itemId, UserIdByEmail(s.users, sellerEmail).value)
  {
    match UserIdByEmail(s.users, sellerEmail)
    case None => Fail(RuntimeError, SELLER_NOT_FOUND + sellerEmail)
    case Some(sellerId) => CancelItemAs(s, itemId, sellerId)
  }

  /** A seller cannot cancel the same item twice: the first cancel marks it
      CANCELLED_BY_SELLER, so the second is refused as already cancelled and
      the stock is restored at most once along this path. */
  lemma SecondSellerCancelFails(s: Shop, itemId: int, sellerEmail: string)
    requires CancelOrderItemBySeller(s, itemId, sellerEmail).Ok?
    ensures var r2 := CancelOrderItemBySeller(CancelOrderItemBySeller(s, itemId, sellerEmail).value.0, itemId, sellerEmail);
            r2.Err? && r2.failure.kind == IllegalState
  {
    var s' := CancelOrderItemBySeller(s, itemId, sellerEmail).value.0;
    assert s'.users == s.users;
    assert SellerOf(s'.products, s'.items[itemId].productId) == SellerOf(s.products, s.items[itemId].productId);
  }

  /** After a seller cancel (the state `RestoreAndMark` builds, which is
      what a successful `CancelItemAs` returns) the order is CANCELLED when
      every other item of it was already cancelled, and only then unless the
      order already was; while another item is still PREPARING the order is
      PREPARING. */
  lemma SellerCancelRollsUp(s: Shop, itemId: int)
    requires itemId in s.items && s.items[itemId].productId in s.products
    requires s.items[itemId].orderId in s.orders
    requires var ids := s.orders[s.items[itemId].orderId].itemIds;
             itemId in ids && forall j :: 0 <= j < |ids| ==> ids[j] in s.items
    ensures var oid := s.items[itemId].orderId;
            var ids := s.orders[oid].itemIds;
            var st := RestoreAndMark(s, itemId).0.orders[oid].status;
            && ((forall j :: 0 <= j < |ids| && ids[j] != itemId ==> IsCancelled(s.items[ids[j]].status)) ==> st == OrderStatus.Cancelled)
            && (st == OrderStatus.Cancelled && s.orders[oid].status != OrderStatus.Cancelled ==>
                  forall j :: 0 <= j < |ids| && ids[j] != itemId ==> IsCancelled(s.items[ids[j]].status))
            && ((exists j :: 0 <= j < |ids| && ids[j] != itemId && s.items[ids[j]].status == ItemStatus.Preparing) ==>
                  st == OrderStatus.Preparing)
  {
    var oid := s.items[itemId].orderId;
    var o := s.orders[oid];
    var (s', _) := RestoreAndMark(s, itemId);
    StatusesAfterCancel(s.items, s'.items, itemId, o.itemIds);
    RollupAfterCancel(o.status, o.itemIds, itemId, s.items, StatusesOf(o.itemIds, s'.items));
  }

  /** The rollup of an order's statuses in which one listed item has just
      become CANCELLED_BY_SELLER, stated in terms of the other items. */
  lemma RollupAfterCancel(current: OrderStatus, ids: seq<int>, itemId: int, before: map<int, OrderItem>, sts: seq<ItemStatus>)
    requires itemId in ids
    requires forall j :: 0 <= j < |ids| ==> ids[j] in before
    requires |sts| == |ids|
    requires forall j :: 0 <= j < |ids| ==>
               sts[j] == (if ids[j] == itemId then ItemStatus.CancelledBySeller else before[ids[j]].status)
    ensures (forall j :: 0 <= j < |ids| && ids[j] != itemId ==> IsCancelled(before[ids[j]].status)) ==>
              Rollup(current, sts) == OrderStatus.Cancelled
    ensures Rollup(current, sts) == OrderStatus.Cancelled && current != OrderStatus.Cancelled ==>
              forall j :: 0 <= j < |ids| && ids[j] != itemId ==> IsCancelled(before[ids[j]].status)
    ensures (exists j :: 0 <= j < |ids| && ids[j] != itemId && before[ids[j]].status == ItemStatus.Preparing) ==>
              Rollup(current, sts) == OrderStatus.Preparing
  {
    var i :| 0 <= i < |ids| && ids[i] == itemId;
    assert sts[i] == ItemStatus.CancelledBySeller;
    if forall j :: 0 <= j < |ids| && ids[j] != itemId ==> IsCancelled(before[ids[j]].status) {
      assert forall j :: 0 <= j < |sts| ==> IsCancelled(sts[j]);
    }
    if exists j :: 0 <= j < |ids| && ids[j] != itemId && !IsCancelled(before[ids[j]].status) {
      var j :| 0 <= j < |ids| && ids[j] != itemId && !IsCancelled(before[ids[j]].status);
      assert !IsCancelled(sts[j]);
    }
    if exists j :: 0 <= j < |ids| && ids[j] != itemId && before[ids[j]].status == ItemStatus.Preparing {
      var j :| 0 <= j < |ids| && ids[j] != itemId && before[ids[j]].status == ItemStatus.Preparing;
      assert sts[j] == ItemStatus.Preparing;
    }
  }

  /** The statuses an order lists once one of its items is cancelled by
      its seller: that item's is CANCELLED_BY_SELLER, the others' unchanged. */
  lemma StatusesAfterCancel(before: map<int, OrderItem>, after: map<int, OrderItem>, itemId: int, ids: seq<int>)
    requires itemId in before
    requires after == before[itemId := before[itemId].(status := ItemStatus.CancelledBySeller)]
    requires forall j :: 0 <= j < |ids| ==> ids[j] in before
    ensures |StatusesOf(ids, after)| == |ids|
    ensures forall j :: 0 <= j < |ids| ==>
              StatusesOf(ids, after)[j] == (if ids[j] == itemId then ItemStatus.CancelledBySeller else before[ids[j]].status)
  {
  }

  /** updateOrderStatus: every item must be the seller's (an order without
      items passes), and the seller may only move the order to PREPARING,
      SHIPPED or DELIVERED. Only the order's status changes. */
  function UpdateOrderStatus(s: Shop, orderId: int, sellerId: int, newStatus: OrderStatus): (r: Result<Shop>)
    ensures orderId !in s.orders ==> r.Err? && r.failure.kind == RuntimeError
    ensures r.Ok? <==>
              && orderId in s.orders
              && (forall i :: 0 <= i < |s.orders[orderId].itemIds| ==>
                    && s.orders[orderId].itemIds[i] in s.items
                    && SellerOf(s.products, s.items[s.orders[orderId].itemIds[i]].productId) == Some(sellerId))
              && newStatus in {OrderStatus.Preparing, OrderStatus.Shipped, OrderStatus.Delivered}
    ensures r.Ok? ==> r.value == s.(orders := s.orders[orderId := s.orders[orderId].(status := newStatus)])
  {
    if orderId !in s.orders then Fail(RuntimeError, ORDER_NOT_FOUND)
    else
      var o := s.orders[orderId];
      match CheckSeller(s, o.itemIds, sellerId, UNAUTHORIZED_SELLER)
      case Some(f) => Err(f)
      case None =>
        if newStatus == OrderStatus.Shipped || newStatus == OrderStatus.Delivered || newStatus == OrderStatus.Preparing then
          Ok(s.(orders := s.orders[orderId := o.(status := newStatus)]))
        else Fail(RuntimeError, INVALID_SELLER_STATUS)
  }

  /** cancelOrderByAdmin: adds every item's quantity back to its product and
      marks the order CANCELLED. There is no guard on the order's or the
      items' statuses, and the item statuses are left as they are. */
  function CancelOrderByAdmin(s: Shop, orderId: int): (r: Result<Shop>)
    ensures orderId !in s.orders ==> r.Err? && r.failure.kind == RuntimeError
    ensures orderId in s.orders && (forall i :: 0 <= i < |s.orders[orderId].itemIds| ==>
              s.orders[orderId].itemIds[i] in s.items && s.items[s.orders[orderId].itemIds[i]].productId in s.products)
            ==> r.Ok?
    ensures r.Ok? ==>
              && orderId in s.orders
              && r.value.orders == s.orders[orderId := s.orders[orderId].(status := OrderStatus.Cancelled)]
              && SameButStock(s.products, r.value.products)
              && (forall k :: k in s.products ==>
                    r.value.products[k].stock == s.products[k].stock + Demand(LinesOf(s.items, s.orders[orderId].itemIds), k))
              && r.value == s.(orders := r.value.orders, products := r.value.products)
  {
    if orderId !in s.orders then Fail(RuntimeError, ORDER_NOT_FOUND)
    else
      var o := s.orders[orderId];
      match Restock(s.products, s.items, o.itemIds)
      case Err(f) => Err(f)
      case Ok(ps) =>
        RestockStock(s.products, s.items, o.itemIds);
        Ok(s.(products := ps, orders := s.orders[orderId := o.(status := OrderStatus.Cancelled)]))
  }

  /** Nothing stops a second admin cancellation of an order, and it restores
      the stock again: two calls add each product's ordered quantity twice. */
  lemma AdminCancelRestocksTwice(s: Shop, orderId: int)
    requires CancelOrderByAdmin(s, orderId).Ok?
    ensures var s1 := CancelOrderByAdmin(s, orderId).value;
            var r2 := CancelOrderByAdmin(s1, orderId);
            && r2.Ok?
            && forall k :: k in s.products ==>
                 r2.value.products[k].stock == s.products[k].stock + 2 * Demand(LinesOf(s.items, s.orders[orderId].itemIds), k)
  {
    var s1 := CancelOrderByAdmin(s, orderId).value;
    assert s1.orders[orderId].itemIds == s.orders[orderId].itemIds;
    assert s1.items == s.items;
  }

  /** requestExchange: only the order's customer, and only for a DELIVERED
      order, which becomes EXCHANGE_REQUESTED. */
  function RequestExchange(s: Shop, orderId: int, userId: int): (r: Result<Shop>)
    ensures r.Ok? <==> orderId in s.orders && s.orders[orderId].customerId == userId
                       && s.orders[orderId].status == OrderStatus.Delivered
    ensures r.Err? ==> r.failure.kind == RuntimeError
    ensures r.Ok? ==> r.value == s.(orders := s.orders[orderId := s.orders[orderId].(status := OrderStatus.ExchangeRequested)])
  {
    if orderId !in s.orders then Fail(RuntimeError, ORDER_NOT_FOUND)
    else
      var o := s.orders[orderId];
      if o.customerId != userId then Fail(RuntimeError, NOT_YOUR_ORDER)
      else if o.status != OrderStatus.Delivered then Fail(RuntimeError, ONLY_DELIVERED)
      else Ok(s.(orders := s.orders[orderId := o.(status := OrderStatus.ExchangeRequested)]))
  }

  /** approveExchangeRequest: every item must be the seller's and the order
      must be EXCHANGE_REQUESTED; it goes back to PREPARING. */
  function ApproveExchangeRequest(s: Shop, orderId: int, sellerId: int): (r: Result<Shop>)
    ensures r.Ok? <==>
              && orderId in s.orders
              && (forall i :: 0 <= i < |s.orders[orderId].itemIds| ==>
                    && s.orders[orderId].itemIds[i] in s.items
                    && SellerOf(s.products, s.items[s.orders[orderId].itemIds[i]].productId) == Some(sellerId))
              && s.orders[orderId].status == OrderStatus.ExchangeRequested
    ensures r.Ok? ==> r.value == s.(orders := s.orders[orderId := s.orders[orderId].(status := OrderStatus.Preparing)])
  {
    if orderId !in s.orders then Fail(RuntimeError, ORDER_NOT_FOUND)
    else
      var o := s.orders[orderId];
      match CheckSeller(s, o.itemIds, sellerId, NOT_YOUR_ITEMS)
      case Some(f) => Err(f)
      case None =>
        if o.status != OrderStatus.ExchangeRequested then Fail(RuntimeError, NOT_AWAITING_EXCHANGE)
        else Ok(s.(orders := s.orders[orderId := o.(status := OrderStatus.Preparing)]))
  }

  /** The exchange round trip: a delivered order whose items all belong to
      one seller, asked for by its customer and approved by that seller, is
      PREPARING again and nothing else in the shop differs. */
  lemma ExchangeRoundTrip(s: Shop, orderId: int, userId: int, sellerId: int)
    requires orderId in s.orders
    requires s.orders[orderId].customerId == userId
    requires s.orders[orderId].status == OrderStatus.Delivered
    requires forall i :: 0 <= i < |s.orders[orderId].itemIds| ==>
               && s.orders[orderId].itemIds[i] in s.items
               && SellerOf(s.products, s.items[s.orders[orderId].itemIds[i]].productId) == Some(sellerId)
    ensures RequestExchange(s, orderId, userId).Ok?
    ensures var r := ApproveExchangeRequest(RequestExchange(s, orderId, userId).value, orderId, sellerId);
            r.Ok? && r.value == s.(orders := s.orders[orderId := s.orders[orderId].(status := OrderStatus.Preparing)])
  {
    var s1 := RequestExchange(s, orderId, userId).value;
    assert s1.orders[orderId].itemIds == s.orders[orderId].itemIds;
  }

  /** Placing an order keeps every stored id below the identity counter, and
      the new order's id was not in use. */
  lemma PlaceOrderKeepsValid(s: Shop, userId: int, productIds: seq<int>, quantities: seq<int>, now: int)
    requires Valid(s)
    requires PlaceOrder(s, userId, productIds, quantities, now).Ok?
    ensures s.nextId !in s.orders
    ensures Valid(PlaceOrder(s, userId, productIds, quantities, now).value)
  {
    var s' := PlaceOrder(s, userId, productIds, quantities, now).value;
    forall k | k in s'.items ensures k < s'.nextId {
      if k !in s.items {
      }
    }
  }
}

=== FILE: product_detail.dfy ===
/** The product page (ProductDetailComponent): the quantity picker and the
    guards in front of add-to-cart and submit-review. */
module ProductDetail {
  import opened Common
  import Domain
  import CartService

  /** increaseQuantity: only while below the loaded product's stock. */
  function Increase(quantity: int, stock: Option<int>): (q: int)
    ensures stock.Some? && quantity < stock.value ==> q == quantity + 1
    ensures stock.None? || quantity >= stock.value ==> q == quantity
  {
    if stock.Some? && quantity < stock.value then quantity + 1 else quantity
  }

  /** decreaseQuantity: only while above 1. */
  function Decrease(quantity: int): (q: int)
    ensures quantity > 1 ==> q == quantity - 1
    ensures quantity <= 1 ==> q == quantity
  {
    if quantity > 1 then quantity - 1 else quantity
  }

  /** onQuantityChange: `parsed` is parseInt of the input (`None` for NaN);
      a missing or non-positive value becomes 1, then the loaded product's
      stock caps it. */
  function QuantityInput(parsed: Option<int>, stock: Option<int>): (q: int)
    ensures stock.Some? ==> q <= stock.value
    ensures stock.None? || stock.value >= 1 ==> q >= 1
    ensures parsed.Some? && parsed.value >= 1 && (stock.None? || parsed.value <= stock.value) ==> q == parsed.value
  {
    var v := if parsed.None? || parsed.value < 1 then 1 else parsed.value;
    if stock.Some? && v > stock.value then stock.value else v
  }

  /** The buttons keep a quantity that is between 1 and the stock there:
      the picker starts at 1, and every button press and every typed value
      leaves it in range. */
  lemma PickerStaysInRange(quantity: int, stock: int, parsed: Option<int>)
    requires 1 <= quantity <= stock
    ensures 1 <= Increase(quantity, Some(stock)) <= stock
    ensures 1 <= Decrease(quantity) <= stock
    ensures 1 <= QuantityInput(parsed, Some(stock)) <= stock
  {
  }

  /** A typed value the picker accepts as it is is a fixed point: typing
      it again changes nothing. */
  lemma QuantityInputIdempotent(parsed: Option<int>, stock: Option<int>)
    requires stock.None? || stock.value >= 1
    ensures QuantityInput(Some(QuantityInput(parsed, stock)), stock) == QuantityInput(parsed, stock)
  {
  }

  /** What addToCart does. */
  datatype AddAction =
    | ToLogin(carried: Option<(int, int)>)             // to login, with (product, quantity) if loaded
    | Add(userId: int, productId: int, quantity: int)  // cartService.addToCart
    | ShowError

  /** addToCart: a visitor who is not logged in is sent to the login page
      (carrying the product and quantity when the product is loaded); the
      service is called only with a loaded product, a non-zero user id and
      a positive quantity. */
  function AddToCart(loggedIn: bool, productId: Option<int>, userId: Option<int>, quantity: int): (a: AddAction)
    ensures !loggedIn <==> a.ToLogin?
    ensures a.ToLogin? ==> (a.carried.Some? <==> productId.Some?)
    ensures a.ToLogin? && productId.Some? ==> a.carried == Some((productId.value, quantity))
    ensures a.Add? <==> loggedIn && productId.Some? && userId.Some? && userId.value != 0 && quantity > 0
    ensures a.Add? ==> a == Add(userId.value, productId.value, quantity)
  {
    if !loggedIn then ToLogin(if productId.Some? then Some((productId.value, quantity)) else None)
    else if productId.Some? && userId.Some? && userId.value != 0 && quantity > 0 then
      Add(userId.value, productId.value, quantity)
    else ShowError
  }

  /** The review form: rating required and between 1 and 5, comment
      required and at least 10 characters. */
  predicate ReviewFormValid(rating: Option<int>, comment: string) {
    rating.Some? && 1 <= rating.value <= 5 && |comment| >= 10
  }

  /** submitReview: blocked unless the product is loaded, the form is
      valid, the user is logged in, and the user has bought the product. */
  function MaySubmitReview(productLoaded: bool, rating: Option<int>, comment: string,
                           loggedIn: bool, purchased: bool): (ok: bool)
    ensures ok ==> rating.Some? && 1 <= rating.value <= 5
    ensures ok ==> |comment| >= 10 && loggedIn && purchased && productLoaded
    ensures productLoaded && ReviewFormValid(rating, comment) && loggedIn && purchased ==> ok
  {
    !(!productLoaded || !ReviewFormValid(rating, comment) || !loggedIn || !purchased)
  }

  /** A quantity typed on the page of a product with its current stock is
      one the backend cart accepts for a known user. */
  lemma TypedQuantityAccepted(s: Domain.Shop, userId: int, productId: int, parsed: Option<int>)
    requires userId in s.users && productId in s.products
    ensures var q := QuantityInput(parsed, Some(s.products[productId].stock));
            CartService.AddToCart(s, userId, productId, q).Ok?
  {
  }
}

=== FILE: product_list.dfy ===
/** The product list page (ProductsComponent.applyFiltersAndSorting): the
    loaded products are narrowed to the category in the URL and to the
    price range, then sorted by the chosen key. Array.prototype.sort is
    stable, so products with equal keys keep their loaded order. */
module ProductList {
  import opened Common

  /** A product as the page receives it; prices in cents, the average
      rating in fixed-point units, `None` where the payload has none. */
  datatype ListedProduct = ListedProduct(id: int, price: int, categoryId: Option<int>, averageRating: Option<int>)

  const PRICE_ASC := "price_asc"
  const PRICE_DESC := "price_desc"
  const RATING := "rating"

  /** The URL's category, when one is given, must be the product's. */
  predicate InCategory(p: ListedProduct, category: Option<int>) {
    category.None? || p.categoryId == category
  }

  /** The price filter: inclusive at both ends, a missing bound is no
      bound. */
  predicate InPriceRange(p: ListedProduct, minPrice: Option<int>, maxPrice: Option<int>) {
    (minPrice.None? || p.price >= minPrice.value) && (maxPrice.None? || p.price <= maxPrice.value)
  }

  predicate Kept(p: ListedProduct, category: Option<int>, minPrice: Option<int>, maxPrice: Option<int>) {
    InCategory(p, category) && InPriceRange(p, minPrice, maxPrice)
  }

  /** Array.prototype.filter. */
  function Filter(ps: seq<ListedProduct>, category: Option<int>, minPrice: Option<int>, maxPrice: Option<int>): (r: seq<ListedProduct>)
    ensures forall i :: 0 <= i < |r| ==> Kept(r[i], category, minPrice, maxPrice)
    ensures forall p :: p in r <==> p in ps && Kept(p, category, minPrice, maxPrice)
    ensures |r| <= |ps|
  {
    if |ps| == 0 then []
    else
      var rest := Filter(ps[1..], category, minPrice, maxPrice);
      if Kept(ps[0], category, minPrice, maxPrice) then [ps[0]] + rest else rest
  }

  /** A single product is shown exactly when it passes the filters. */
  lemma FilterSingle(p: ListedProduct, category: Option<int>, minPrice: Option<int>, maxPrice: Option<int>)
    ensures Filter([p], category, minPrice, maxPrice) == if Kept(p, category, minPrice, maxPrice) then [p] else []
  {
    assert [p][1..] == [];
  }

  /** Filtering keeps the loaded order and the multiplicity of each
      product: the filter of a concatenation is the concatenation of the
      filters. */
  lemma {:induction false} FilterAppend(a: seq<ListedProduct>, b: seq<ListedProduct>,
                                        category: Option<int>, minPrice: Option<int>, maxPrice: Option<int>)
    ensures Filter(a + b, category, minPrice, maxPrice) == Filter(a, category, minPrice, maxPrice) + Filter(b, category, minPrice, maxPrice)
  {
    if |a| > 0 {
      assert (a + b)[1..] == a[1..] + b;
      FilterAppend(a[1..], b, category, minPrice, maxPrice);
    } else {
      assert a + b == b;
    }
  }

  /** The sort orders the page offers, and `Unsorted` for any other
      value of sortBy. */
  datatype Order = Ascending | Descending | ByRating | Unsorted

  function OrderOf(sortBy: string): Order {
    if sortBy == PRICE_ASC then Ascending
    else if sortBy == PRICE_DESC then Descending
    else if sortBy == RATING then ByRating
    else Unsorted
  }

  /** The comparator of each order as a key to sort ascending on: the price,
      the negated price, or the negated rating (a missing rating as 0). */
  function Key(order: Order, p: ListedProduct): int {
    match order
    case Ascending => p.price
    case Descending => -p.price
    case ByRating => -(if p.averageRating.Some? then p.averageRating.value else 0)
    case Unsorted => 0
  }

  predicate Sorted(order: Order, ps: seq<ListedProduct>) {
    forall i, j :: 0 <= i < j < |ps| ==> Key(order, ps[i]) <= Key(order, ps[j])
  }

  /** Inserts `p` before the first element whose key is not smaller, which
      keeps it ahead of the equal-key elements that followed it. */
  function Insert(order: Order, p: ListedProduct, ps: seq<ListedProduct>): (r: seq<ListedProduct>)
    ensures multiset(r) == multiset(ps) + multiset{p}
    ensures |r| == |ps| + 1
  {
    if |ps| == 0 || Key(order, p) <= Key(order, ps[0]) then [p] + ps
    else
      var r := [ps[0]] + Insert(order, p, ps[1..]);
      assert ps == [ps[0]] + ps[1..];
      r
  }

  /** A stable insertion sort on the key. */
  function Sort(order: Order, ps: seq<ListedProduct>): (r: seq<ListedProduct>)
    ensures multiset(r) == multiset(ps)
    ensures |r| == |ps|
  {
    if |ps| == 0 then []
    else
      var r := Insert(order, ps[0], Sort(order, ps[1..]));
      assert ps == [ps[0]] + ps[1..];
      r
  }

  /** applyFiltersAndSorting. */
  function ApplyFiltersAndSorting(products: seq<ListedProduct>, category: Option<int>,
                                  minPrice: Option<int>, maxPrice: Option<int>, sortBy: string): (r: seq<ListedProduct>)
    ensures multiset(r) == multiset(Filter(products, category, minPrice, maxPrice))
    ensures forall p :: p in r <==> p in products && Kept(p, category, minPrice, maxPrice)
    ensures OrderOf(sortBy) == Unsorted ==> r == Filter(products, category, minPrice, maxPrice)
  {
    var kept := Filter(products, category, minPrice, maxPrice);
    var order := OrderOf(sortBy);
    var r := if order == Unsorted then kept else Sort(order, kept);
    assert forall p :: p in r <==> p in multiset(r);
    assert forall p :: p in kept <==> p in multiset(kept);
    r
  }

  /** Every key in `ps` is at least `b`. */
  predicate KeysFrom(order: Order, ps: seq<ListedProduct>, b: int) {
    forall i :: 0 <= i < |ps| ==> b <= Key(order, ps[i])
  }

  lemma {:induction false} InsertKeysFrom(order: Order, p: ListedProduct, ps: seq<ListedProduct>, b: int)
    requires KeysFrom(order, ps, b) && b <= Key(order, p)
    ensures KeysFrom(order, Insert(order, p, ps), b)
  {
    if |ps| > 0 && Key(order, p) > Key(order, ps[0]) {
      assert KeysFrom(order, ps[1..], b) by {
        forall i | 0 <= i < |ps[1..]| ensures b <= Key(order, ps[1..][i]) {
          assert ps[1..][i] == ps[i + 1];
        }
      }
      InsertKeysFrom(order, p, ps[1..], b);
    }
  }

  lemma {:induction false} InsertSorted(order: Order, p: ListedProduct, ps: seq<ListedProduct>)
    requires Sorted(order, ps)
    ensures Sorted(order, Insert(order, p, ps))
  {
    if |ps| > 0 && Key(order, p) > Key(order, ps[0]) {
      SortedTail(order, ps);
      InsertSorted(order, p, ps[1..]);
      InsertKeysFrom(order, p, ps[1..], Key(order, ps[0]));
      SortedCons(order, ps[0], Insert(order, p, ps[1..]));
      assert Insert(order, p, ps) == [ps[0]] + Insert(order, p, ps[1..]);
    } else {
      if |ps| > 0 {
        SortedFromHead(order, ps, Key(order, p));
      }
      SortedCons(order, p, ps);
      assert Insert(order, p, ps) == [p] + ps;
    }
  }

  /** The tail of a sorted list is sorted, with keys from the head's on. */
  lemma SortedTail(order: Order, ps: seq<ListedProduct>)
    requires Sorted(order, ps) && |ps| > 0
    ensures Sorted(order, ps[1..]) && KeysFrom(order, ps[1..], Key(order, ps[0]))
  {
    forall i, j | 0 <= i < j < |ps[1..]| ensures Key(order, ps[1..][i]) <= Key(order, ps[1..][j]) {
      assert ps[1..][i] == ps[i + 1] && ps[1..][j] == ps[j + 1];
    }
    forall i | 0 <= i < |ps[1..]| ensures Key(order, ps[0]) <= Key(order, ps[1..][i]) {
      assert ps[1..][i] == ps[i + 1];
    }
  }

  /** A bound below a sorted list's head bounds all of it. */
  lemma SortedFromHead(order: Order, ps: seq<ListedProduct>, b: int)
    requires Sorted(order, ps) && |ps| > 0 && b <= Key(order, ps[0])
    ensures KeysFrom(order, ps, b)
  {
    forall i | 0 <= i < |ps| ensures b <= Key(order, ps[i]) {
      if i > 0 {
        assert Key(order, ps[0]) <= Key(order, ps[i]);
      }
    }
  }

  /** A head whose key bounds a sorted list keeps it sorted. */
  lemma SortedCons(order: Order, x: ListedProduct, r: seq<ListedProduct>)
    requires Sorted(order, r) && KeysFrom(order, r, Key(order, x))
    ensures Sorted(order, [x] + r)
  {
    var xr := [x] + r;
    forall i, j | 0 <= i < j < |xr| ensures Key(order, xr[i]) <= Key(order, xr[j]) {
      assert xr[j] == r[j - 1];
      if i > 0 {
        assert xr[i] == r[i - 1];
      }
    }
  }

  lemma {:induction false} SortSorted(order: Order, ps: seq<ListedProduct>)
    ensures Sorted(order, Sort(order, ps))
  {
    if |ps| > 0 {
      SortSorted(order, ps[1..]);
      InsertSorted(order, ps[0], Sort(order, ps[1..]));
    }
  }

  /** The products with key `k`, in order. */
  function WithKey(order: Order, ps: seq<ListedProduct>, k: int): seq<ListedProduct> {
    if |ps| == 0 then []
    else (if Key(order, ps[0]) == k then [ps[0]] else []) + WithKey(order, ps[1..], k)
  }

  lemma {:induction false} WithKeyCons(order: Order, p: ListedProduct, ps: seq<ListedProduct>, k: int)
    ensures WithKey(order, [p] + ps, k) == (if Key(order, p) == k then [p] else []) + WithKey(order, ps, k)
  {
    assert ([p] + ps)[0] == p;
    assert ([p] + ps)[1..] == ps;
  }

  lemma {:induction false} InsertStable(order: Order, p: ListedProduct, ps: seq<ListedProduct>, k: int)
    ensures WithKey(order, Insert(order, p, ps), k)
            == (if Key(order, p) == k then [p] else []) + WithKey(order, ps, k)
  {
    if |ps| == 0 || Key(order, p) <= Key(order, ps[0]) {
      assert Insert(order, p, ps) == [p] + ps;
      WithKeyCons(order, p, ps, k);
    } else {
      var tail := Insert(order, p, ps[1..]);
      assert Insert(order, p, ps) == [ps[0]] + tail;
      InsertStable(order, p, ps[1..], k);
      WithKeyShift(order, ps[0], tail, ps[1..], p, k);
      assert [ps[0]] + ps[1..] == ps;
    }
  }

  /** Putting an element of another key in front of both sides keeps the
      products of key `k` related as before. */
  lemma WithKeyShift(order: Order, x: ListedProduct, tail: seq<ListedProduct>, rest: seq<ListedProduct>,
                     p: ListedProduct, k: int)
    requires Key(order, x) != Key(order, p)
    requires WithKey(order, tail, k) == (if Key(order, p) == k then [p] else []) + WithKey(order, rest, k)
    ensures WithKey(order, [x] + tail, k) == (if Key(order, p) == k then [p] else []) + WithKey(order, [x] + rest, k)
  {
    WithKeyCons(order, x, tail, k);
    WithKeyCons(order, x, rest, k);
    if Key(order, p) != k {
      assert [] + WithKey(order, [x] + rest, k) == WithKey(order, [x] + rest, k);
    }
  }

  lemma {:induction false} SortStable(order: Order, ps: seq<ListedProduct>, k: int)
    ensures WithKey(order, Sort(order, ps), k) == WithKey(order, ps, k)
  {
    if |ps| > 0 {
      SortStable(order, ps[1..], k);
      InsertStable(order, ps[0], Sort(order, ps[1..]), k);
    }
  }

  /** For each of the three orders the result is sorted on its key, and the
      products sharing a key appear in the order they were loaded in. */
  lemma SortedAndStable(products: seq<ListedProduct>, category: Option<int>,
                        minPrice: Option<int>, maxPrice: Option<int>, sortBy: string, k: int)
    requires OrderOf(sortBy) != Unsorted
    ensures Sorted(OrderOf(sortBy), ApplyFiltersAndSorting(products, category, minPrice, maxPrice, sortBy))
    ensures WithKey(OrderOf(sortBy), ApplyFiltersAndSorting(products, category, minPrice, maxPrice, sortBy), k)
            == WithKey(OrderOf(sortBy), Filter(products, category, minPrice, maxPrice), k)
  {
    var kept := Filter(products, category, minPrice, maxPrice);
    SortSorted(OrderOf(sortBy), kept);
    SortStable(OrderOf(sortBy), kept, k);
  }

  /** Ascending by price means cheapest first, descending means dearest
      first, and by rating means best rated first. */
  lemma SortedMeans(order: Order, ps: seq<ListedProduct>, i: int, j: int)
    requires Sorted(order, ps) && 0 <= i < j < |ps|
    ensures order == Ascending ==> ps[i].price <= ps[j].price
    ensures order == Descending ==> ps[i].price >= ps[j].price
    ensures order == ByRating ==>
              (if ps[i].averageRating.Some? then ps[i].averageRating.value else 0)
              >= (if ps[j].averageRating.Some? then ps[j].averageRating.value else 0)
  {
    assert Key(order, ps[i]) <= Key(order, ps[j]);
  }
}

=== FILE: product_service.dfy ===
/** ProductService: only sellers add products; a product leaves the
    storefront by deactivation or by an admin's soft delete, and is removed
    outright only by its own seller, and only while nothing refers to it.
    The rating shown with a product is computed from its reviews as a
    (count, sum) pair. */
module ProductService {
  import opened Common
  import opened Domain

  // Exception messages, one constant each.
  const SELLER_NOT_FOUND := "Seller not found"
  const ONLY_SELLERS := "Only sellers can add products"
  const CATEGORY_NOT_FOUND := "Category not found"
  const PRODUCT_NOT_FOUND := "Product not found"
  const NOT_YOUR_PRODUCT := "You are not allowed to delete this product."
  const SELLER_MISSING := "product without a seller"
  const PRODUCT_IN_USE := "product still referenced"

  /** getActiveAndNotDeletedProducts: the storefront shows a product only
      while it is active and not deleted by an admin. */
  predicate Listed(p: Product) {
    p.active && !p.deletedByAdmin
  }

  /** addProduct: the seller must exist and have role SELLER, and the
      category must exist. The request body is then saved with that seller
      and category, and active; `bodyId` is the id the body carries (the
      entity does not make it read-only), and `p.id` is not read. Spring
      Data inserts a body without an id as a new row and merges one with an
      id: the merge overwrites the stored product under that id, and for an
      id naming no product inserts a copy under a new id. */
  function AddProduct(s: Shop, p: Product, bodyId: Option<int>, sellerId: int, categoryId: int): (r: Result<(Shop, Product)>)
    ensures r.Ok? <==> sellerId in s.users && s.users[sellerId].role == Seller && categoryId in s.categories
    ensures r.Err? ==> r.failure.kind == RuntimeError
    ensures r.Ok? ==>
              var stored := r.value.1;
              && stored == p.(id := stored.id, sellerId := Some(sellerId), categoryId := Some(categoryId), active := true)
              && r.value.0 == s.(products := s.products[stored.id := stored], nextId := r.value.0.nextId)
    ensures r.Ok? && bodyId.Some? && bodyId.value in s.products ==>
              r.value.1.id == bodyId.value && r.value.0.nextId == s.nextId
    ensures r.Ok? && (bodyId.None? || bodyId.value !in s.products) ==>
              r.value.1.id == s.nextId && r.value.0.nextId == s.nextId + 1
  {
    if sellerId !in s.users then Fail(RuntimeError, SELLER_NOT_FOUND)
    else if s.users[sellerId].role != Seller then Fail(RuntimeError, ONLY_SELLERS)
    else if categoryId !in s.categories then Fail(RuntimeError, CATEGORY_NOT_FOUND)
    else
      var merged := bodyId.Some? && bodyId.value in s.products;
      var id := if merged then bodyId.value else s.nextId;
      var stored := p.(id := id, sellerId := Some(sellerId), categoryId := Some(categoryId), active := true);
      Ok((s.(products := s.products[id := stored], nextId := if merged then s.nextId else s.nextId + 1), stored))
  }

  /** Adding a product, by insert or by merge, keeps every stored id and
      every reference among those the identity generator has handed out. */
  lemma AddProductKeepsValid(s: Shop, p: Product, bodyId: Option<int>, sellerId: int, categoryId: int)
    requires Valid(s) && ReferencesIssued(s)
    requires AddProduct(s, p, bodyId, sellerId, categoryId).Ok?
    ensures Valid(AddProduct(s, p, bodyId, sellerId, categoryId).value.0)
    ensures ReferencesIssued(AddProduct(s, p, bodyId, sellerId, categoryId).value.0)
  {
    var (s', stored) := AddProduct(s, p, bodyId, sellerId, categoryId).value;
    assert stored.id < s'.nextId;
    assert categoryId < s.nextId;
    forall k | k in s'.products && s'.products[k].categoryId.Some?
      ensures s'.products[k].categoryId.value < s'.nextId
    {
      if k != stored.id {
        assert s'.products[k] == s.products[k];
      }
    }
  }

  /** deactivateProduct: only the active flag is cleared. */
  function DeactivateProduct(s: Shop, productId: int): (r: Result<Shop>)
    ensures r.Ok? <==> productId in s.products
    ensures r.Err? ==> r.failure.kind == RuntimeError
    ensures r.Ok? ==>
              && r.value == s.(products := r.value.products)
              && r.value.products.Keys == s.products.Keys
              && !r.value.products[productId].active
              && r.value.products[productId] == s.products[productId].(active := false)
              && forall k :: k in s.products && k != productId ==> r.value.products[k] == s.products[k]
  {
    if productId !in s.products then Fail(RuntimeError, PRODUCT_NOT_FOUND)
    else Ok(s.(products := s.products[productId := s.products[productId].(active := false)]))
  }

  /** deleteProductByAdmin: a soft delete; the product stays stored (and
      stays referable from orders and carts) with deletedByAdmin set. */
  function DeleteProductByAdmin(s: Shop, productId: int): (r: Result<Shop>)
    ensures r.Ok? <==> productId in s.products
    ensures r.Err? ==> r.failure.kind == RuntimeError
    ensures r.Ok? ==>
              && r.value == s.(products := r.value.products)
              && r.value.products.Keys == s.products.Keys
              && r.value.products[productId] == s.products[productId].(deletedByAdmin := true)
              && forall k :: k in s.products && k != productId ==> r.value.products[k] == s.products[k]
  {
    if productId !in s.products then Fail(RuntimeError, PRODUCT_NOT_FOUND)
    else Ok(s.(products := s.products[productId := s.products[productId].(deletedByAdmin := true)]))
  }

  /** deleteProductBySeller: the product, then the caller, must exist; a
      product without a seller is a null dereference; a caller other than
      the product's seller is refused. Only then is the product removed,
      which the database refuses while an order item, a cart line or a
      review still names it. */
  function DeleteProductBySeller(s: Shop, productId: int, sellerEmail: string): (r: Result<Shop>)
    ensures r.Ok? <==>
              && productId in s.products
              && UserIdByEmail(s.users, sellerEmail).Some?
              && s.products[productId].sellerId == UserIdByEmail(s.users, sellerEmail)
              && !ProductInUse(s, productId)
    ensures productId !in s.products ==> r.Err? && r.failure.kind == RuntimeError
    ensures productId in s.products && UserIdByEmail(s.users, sellerEmail).None? ==> r.Err? && r.failure.kind == RuntimeError
    ensures (productId in s.products && UserIdByEmail(s.users, sellerEmail).Some?
             && s.products[productId].sellerId.None?) ==> r.Err? && r.failure.kind == NullPointer
    ensures (productId in s.products && UserIdByEmail(s.users, sellerEmail).Some?
             && s.products[productId].sellerId.Some?
             && s.products[productId].sellerId != UserIdByEmail(s.users, sellerEmail)) ==> r.Err? && r.failure.kind == RuntimeError
    ensures (productId in s.products && UserIdByEmail(s.users, sellerEmail).Some?
             && s.products[productId].sellerId == UserIdByEmail(s.users, sellerEmail)
             && ProductInUse(s, productId)) ==> r.Err? && r.failure.kind == DataIntegrity
    ensures r.Ok? ==> r.value == s.(products := s.products - {productId})
  {
    if productId !in s.products then Fail(RuntimeError, PRODUCT_NOT_FOUND)
    else
      match UserIdByEmail(s.users, sellerEmail)
      case None => Fail(RuntimeError, SELLER_NOT_FOUND)
      case Some(me) =>
        var owner := s.products[productId].sellerId;
        if owner.None? then Fail(NullPointer, SELLER_MISSING)
        else if owner.value != me then Fail(RuntimeError, NOT_YOUR_PRODUCT)
        else if ProductInUse(s, productId) then Fail(DataIntegrity, PRODUCT_IN_USE)
        else Ok(s.(products := s.products - {productId}))
  }

  /** Either way of taking a product off the storefront unlists it and
      keeps it stored, and the two orders of doing both agree. */
  lemma UnlistingKeepsProduct(s: Shop, productId: int)
    requires productId in s.products
    ensures var s1 := DeactivateProduct(s, productId).value;
            productId in s1.products && !Listed(s1.products[productId])
    ensures var s2 := DeleteProductByAdmin(s, productId).value;
            productId in s2.products && !Listed(s2.products[productId])
    ensures DeleteProductByAdmin(DeactivateProduct(s, productId).value, productId)
            == DeactivateProduct(DeleteProductByAdmin(s, productId).value, productId)
  {
    var p := s.products[productId];
    var both := p.(active := false, deletedByAdmin := true);
    var s1 := DeactivateProduct(s, productId).value;
    var s2 := DeleteProductByAdmin(s, productId).value;
    assert DeleteProductByAdmin(s1, productId).value.products == s.products[productId := both];
    assert DeactivateProduct(s2, productId).value.products == s.products[productId := both];
  }

  /** A product just inserted is removed again by its own seller, giving
      back the shop as it was but for the identity generator; any other
      caller is refused. */
  lemma AddThenSellerDeletes(s: Shop, p: Product, bodyId: Option<int>, sellerId: int, categoryId: int, email: string)
    requires Valid(s) && ReferencesIssued(s)
    requires bodyId.None? || bodyId.value !in s.products
    requires AddProduct(s, p, bodyId, sellerId, categoryId).Ok?
    ensures var s1 := AddProduct(s, p, bodyId, sellerId, categoryId).value.0;
            DeleteProductBySeller(s1, s.nextId, email).Ok? <==> UserIdByEmail(s.users, email) == Some(sellerId)
    ensures var s1 := AddProduct(s, p, bodyId, sellerId, categoryId).value.0;
            UserIdByEmail(s.users, email) == Some(sellerId) ==>
              DeleteProductBySeller(s1, s.nextId, email) == Ok(s.(nextId := s.nextId + 1))
  {
    var s1 := AddProduct(s, p, bodyId, sellerId, categoryId).value.0;
    assert s1.users == s.users;
    FreshIdUnused(s);
    assert s1.(products := s.products) == s.(nextId := s1.nextId);
    assert !ProductInUse(s1, s.nextId);
    assert s.nextId !in s.products;
    assert s1.products - {s.nextId} == s.products;
  }

  /** The review statistics of a product: how many reviews, and the sum of
      their ratings (the average is sum / count, shown as 0 when there are
      none). */
  datatype RatingSummary = RatingSummary(count: int, sum: int)

  /** calculateAndSetProductRating over the product's review list. */
  function Rating(reviews: seq<Review>): (r: RatingSummary)
    ensures r.count == |reviews|
    ensures r.count == 0 ==> r.sum == 0
  {
    if |reviews| == 0 then RatingSummary(0, 0)
    else
      var rest := Rating(reviews[1..]);
      RatingSummary(rest.count + 1, rest.sum + reviews[0].rating)
  }

  /** The rating of two review lists together is the sum of their
      ratings. */
  lemma {:induction false} RatingAppend(a: seq<Review>, b: seq<Review>)
    ensures Rating(a + b) == RatingSummary(Rating(a).count + Rating(b).count, Rating(a).sum + Rating(b).sum)
  {
    if |a| == 0 {
      assert a + b == b;
    } else {
      assert (a + b)[1..] == a[1..] + b;
      RatingAppend(a[1..], b);
    }
  }

  /** One review counts once, with its own rating. */
  lemma RatingSingle(r: Review)
    ensures Rating([r]) == RatingSummary(1, r.rating)
  {
    assert [r][1..] == [];
  }

  /** The plain total of the ratings, added up from the last review back. */
  function RatingsTotal(reviews: seq<Review>): int {
    if |reviews| == 0 then 0
    else RatingsTotal(reviews[..|reviews| - 1]) + reviews[|reviews| - 1].rating
  }

  /** The sum the rating keeps is the total of the reviews' ratings. */
  lemma {:induction false} RatingIsTotal(reviews: seq<Review>)
    ensures Rating(reviews).sum == RatingsTotal(reviews)
  {
    if |reviews| > 0 {
      var n := |reviews| - 1;
      RatingIsTotal(reviews[..n]);
      RatingAppend(reviews[..n], [reviews[n]]);
      RatingSingle(reviews[n]);
      assert reviews[..n] + [reviews[n]] == reviews;
    }
  }

  /** With every rating on the 1..5 scale the request enforces, the
      average sum / count lies on that scale too. */
  lemma {:induction false} RatingOnScale(reviews: seq<Review>)
    requires forall i :: 0 <= i < |reviews| ==> 1 <= reviews[i].rating <= 5
    ensures Rating(reviews).count <= Rating(reviews).sum <= 5 * Rating(reviews).count
  {
    if |reviews| > 0 {
      RatingOnScale(reviews[1..]);
    }
  }
}

=== FILE: review_service.dfy ===
/** ReviewService: a customer reviews a product at most once, and only the
    seller of the reviewed product may reply to a review. */
module ReviewService {
  import opened Common
  import opened Domain

  // Exception messages, one constant each.
  const REVIEW_PRODUCT_NOT_FOUND := "Product not found: "
  const REVIEW_USER_NOT_FOUND := "User not found with email: "
  const ALREADY_REVIEWED := "User has already reviewed this product."
  const REVIEW_NOT_FOUND := "Review not found"
  const REVIEW_SELLER_MISSING := "seller of reviewed product"
  const NOT_AUTHORIZED_TO_REPLY := "You are not authorized to reply"

  /** existsByCustomerAndProduct. */
  predicate Reviewed(reviews: map<int, Review>, customerId: int, productId: int) {
    exists k :: k in reviews && reviews[k].customerId == customerId && reviews[k].productId == productId
  }

  /** No two stored reviews share both customer and product. */
  ghost predicate OneReviewPerCustomerAndProduct(reviews: map<int, Review>) {
    forall a, b :: a in reviews && b in reviews && a != b ==>
      reviews[a].customerId != reviews[b].customerId || reviews[a].productId != reviews[b].productId
  }

  /** addReview: the product and the customer (by email) must exist and the
      customer must not have reviewed the product yet; the new review gets
      the next id, the given rating and comment, and no seller reply. */
  function AddReview(s: Shop, productId: int, email: string, rating: int, comment: string, now: int): (r: Result<Shop>)
    ensures productId !in s.products ==> r.Err? && r.failure.kind == RuntimeError
    ensures productId in s.products && UserIdByEmail(s.users, email).None? ==> r.Err? && r.failure.kind == RuntimeError
    ensures r.Err? && r.failure.kind == IllegalState <==>
              && productId in s.products
              && UserIdByEmail(s.users, email).Some?
              && Reviewed(s.reviews, UserIdByEmail(s.users, email).value, productId)
    ensures r.Ok? <==>
              && productId in s.products
              && UserIdByEmail(s.users, email).Some?
              && !Reviewed(s.reviews, UserIdByEmail(s.users, email).value, productId)
    ensures r.Ok? ==>
              r.value == s.(reviews := s.reviews[s.nextId := Review(s.nextId, productId, UserIdByEmail(s.users, email).value,
                                                                    rating, comment, None, now)],
                            nextId := s.nextId + 1)
  {
    if productId !in s.products then Fail(RuntimeError, REVIEW_PRODUCT_NOT_FOUND)
    else
      match UserIdByEmail(s.users, email)
      case None => Fail(RuntimeError, REVIEW_USER_NOT_FOUND + email)
      case Some(customerId) =>
        if Reviewed(s.reviews, customerId, productId) then Fail(IllegalState, ALREADY_REVIEWED)
        else
          Ok(s.(reviews := s.reviews[s.nextId := Review(s.nextId, productId, customerId, rating, comment, None, now)],
                nextId := s.nextId + 1))
  }

  /** Adding reviews keeps at most one review per customer and product. */
  lemma AddReviewKeepsOnePerCustomer(s: Shop, productId: int, email: string, rating: int, comment: string, now: int)
    requires Valid(s)
    requires OneReviewPerCustomerAndProduct(s.reviews)
    requires AddReview(s, productId, email, rating, comment, now).Ok?
    ensures OneReviewPerCustomerAndProduct(AddReview(s, productId, email, rating, comment, now).value.reviews)
    ensures Reviewed(AddReview(s, productId, email, rating, comment, now).value.reviews,
                     UserIdByEmail(s.users, email).value, productId)
  {
    var s' := AddReview(s, productId, email, rating, comment, now).value;
    var c := UserIdByEmail(s.users, email).value;
    assert s.nextId !in s.reviews;
    forall a, b | a in s'.reviews && b in s'.reviews && a != b
      ensures s'.reviews[a].customerId != s'.reviews[b].customerId || s'.reviews[a].productId != s'.reviews[b].productId
    {
      if a == s.nextId {
        assert b in s.reviews;
      } else if b == s.nextId {
        assert a in s.reviews;
      }
    }
    assert s'.reviews[s.nextId].customerId == c;
  }

  /** A second review of the same product by the same customer is refused. */
  lemma SecondReviewRefused(s: Shop, productId: int, email: string, rating: int, comment: string, now: int,
                            rating2: int, comment2: string, now2: int)
    requires AddReview(s, productId, email, rating, comment, now).Ok?
    ensures var s' := AddReview(s, productId, email, rating, comment, now).value;
            var r := AddReview(s', productId, email, rating2, comment2, now2);
            r.Err? && r.failure.kind == IllegalState
  {
    var s' := AddReview(s, productId, email, rating, comment, now).value;
    assert s'.reviews[s.nextId].customerId == UserIdByEmail(s.users, email).value;
  }

  /** replyToReview: the review must exist and its product's seller must be
      the caller; the reply overwrites any earlier one and nothing else
      changes. A product or seller that is missing is a null dereference. */
  function ReplyToReview(s: Shop, reviewId: int, sellerId: int, reply: string): (r: Result<Shop>)
    ensures reviewId !in s.reviews ==> r.Err? && r.failure.kind == RuntimeError
    ensures r.Ok? <==> reviewId in s.reviews && SellerOf(s.products, s.reviews[reviewId].productId) == Some(sellerId)
    ensures r.Err? ==> r.failure.kind in {RuntimeError, NullPointer}
    ensures r.Ok? ==> r.value == s.(reviews := s.reviews[reviewId := s.reviews[reviewId].(sellerReply := Some(reply))])
  {
    if reviewId !in s.reviews then Fail(RuntimeError, REVIEW_NOT_FOUND)
    else
      var rv := s.reviews[reviewId];
      match SellerOf(s.products, rv.productId)
      case None => Fail(NullPointer, REVIEW_SELLER_MISSING)
      case Some(owner) =>
        if owner != sellerId then Fail(RuntimeError, NOT_AUTHORIZED_TO_REPLY)
        else Ok(s.(reviews := s.reviews[reviewId := rv.(sellerReply := Some(reply))]))
  }

  /** A later reply replaces an earlier one: replying twice is the same as
      replying once with the second text. */
  lemma LastReplyWins(s: Shop, reviewId: int, sellerId: int, first: string, second: string)
    requires ReplyToReview(s, reviewId, sellerId, first).Ok?
    ensures ReplyToReview(ReplyToReview(s, reviewId, sellerId, first).value, reviewId, sellerId, second)
            == ReplyToReview(s, reviewId, sellerId, second)
  {
    var s1 := ReplyToReview(s, reviewId, sellerId, first).value;
    assert s1.reviews[reviewId].productId == s.reviews[reviewId].productId;
    assert s1.reviews[reviewId := s1.reviews[reviewId].(sellerReply := Some(second))]
        == s.reviews[reviewId := s.reviews[reviewId].(sellerReply := Some(second))];
  }
}

=== FILE: role_guard.dfy ===
/** The route guard of the role-restricted pages (RoleGuard.canActivate):
    a visitor who is not logged in is sent to the login page with the
    requested URL to come back to; a logged-in user whose role is the
    route's expected role passes; anyone else is sent to the product list. */
module RoleGuard {
  import opened Common
  import opened Domain

  const LOGIN_PATH := "/auth/login"
  const PRODUCTS_PATH := "/products"

  /** The guard's answer: pass, or refuse and navigate. */
  datatype Decision =
    | Allow
    | ToLogin(returnUrl: string)
    | ToProducts

  /** canActivate. `currentUser` is the stored user's role (`None` without
      a stored user), `loggedIn` is AuthService.isLoggedIn(), and
      `expectedRole` is the route's data (`None` when the route sets
      none). */
  function CanActivate(currentUser: Option<Role>, loggedIn: bool, expectedRole: Option<Role>, url: string): (d: Decision)
    ensures currentUser.None? || !loggedIn <==> d == ToLogin(url)
    ensures d == Allow <==> currentUser.Some? && loggedIn && expectedRole == Some(currentUser.value)
    ensures d == ToProducts <==> currentUser.Some? && loggedIn && expectedRole != Some(currentUser.value)
  {
    if currentUser.None? || !loggedIn then ToLogin(url)
    else if expectedRole == Some(currentUser.value) then Allow
    else ToProducts
  }

  /** Where a refusal navigates to: the login page or the product list,
      so a refusal never loops back into a guarded page. */
  function Target(d: Decision): (path: Option<string>)
    ensures d.Allow? <==> path.None?
    ensures path.Some? ==> path.value == LOGIN_PATH || path.value == PRODUCTS_PATH
  {
    match d
    case Allow => None
    case ToLogin(_) => Some(LOGIN_PATH)
    case ToProducts => Some(PRODUCTS_PATH)
  }
}

=== FILE: shipment_service.dfy ===
/** ShipmentService: a shipment starts PENDING for an existing order; each
    status update sets the status, and stamps the shipping or delivery time
    when the new status is SHIPPED or DELIVERED. The clock is a parameter. */
module ShipmentService {
  import opened Common
  import opened Domain

  const ORDER_NOT_FOUND := "Order not found"
  const SHIPMENT_NOT_FOUND := "Shipment not found"

  /** createShipment: a new PENDING shipment of the order with the given
      tracking number and no timestamps. */
  function CreateShipment(s: Shop, orderId: int, trackingNumber: string): (r: Result<(Shop, Shipment)>)
    ensures r.Ok? <==> orderId in s.orders
    ensures r.Err? ==> r.failure.kind == RuntimeError
    ensures r.Ok? ==>
              && r.value.1 == Shipment(s.nextId, orderId, trackingNumber, ShipmentStatus.Pending, None, None)
              && r.value.0 == s.(shipments := s.shipments[s.nextId := r.value.1], nextId := s.nextId + 1)
  {
    if orderId !in s.orders then Fail(RuntimeError, ORDER_NOT_FOUND)
    else
      var sh := Shipment(s.nextId, orderId, trackingNumber, ShipmentStatus.Pending, None, None);
      Ok((s.(shipments := s.shipments[s.nextId := sh], nextId := s.nextId + 1), sh))
  }

  /** The shipment after one status change at time `now`. */
  function Advance(sh: Shipment, status: ShipmentStatus, now: int): (r: Shipment)
    ensures r.id == sh.id && r.orderId == sh.orderId && r.trackingNumber == sh.trackingNumber
    ensures r.status == status
    ensures r.shippedAt == (if status == ShipmentStatus.Shipped then Some(now) else sh.shippedAt)
    ensures r.deliveredAt == (if status == ShipmentStatus.Delivered then Some(now) else sh.deliveredAt)
  {
    var moved := sh.(status := status);
    if status == ShipmentStatus.Shipped then moved.(shippedAt := Some(now))
    else if status == ShipmentStatus.Delivered then moved.(deliveredAt := Some(now))
    else moved
  }

  /** updateShipmentStatus: only the status and at most one timestamp of
      that shipment change. */
  function UpdateShipmentStatus(s: Shop, shipmentId: int, status: ShipmentStatus, now: int): (r: Result<Shop>)
    ensures r.Ok? <==> shipmentId in s.shipments
    ensures r.Err? ==> r.failure.kind == RuntimeError
    ensures r.Ok? ==> r.value == s.(shipments := s.shipments[shipmentId := Advance(s.shipments[shipmentId], status, now)])
  {
    if shipmentId !in s.shipments then Fail(RuntimeError, SHIPMENT_NOT_FOUND)
    else Ok(s.(shipments := s.shipments[shipmentId := Advance(s.shipments[shipmentId], status, now)]))
  }

  /** A status change requested at a time. */
  datatype Update = Update(status: ShipmentStatus, at: int)

  /** The shipment after a sequence of status changes, in order. */
  function AdvanceAll(sh: Shipment, updates: seq<Update>): Shipment
    decreases |updates|
  {
    if |updates| == 0 then sh
    else AdvanceAll(Advance(sh, updates[0].status, updates[0].at), updates[1..])
  }

  /** The time of the last update to the given status, if any. */
  function LastAt(updates: seq<Update>, status: ShipmentStatus): (r: Option<int>)
    ensures r.Some? <==> exists i :: 0 <= i < |updates| && updates[i].status == status
  {
    if |updates| == 0 then None
    else if updates[|updates| - 1].status == status then Some(updates[|updates| - 1].at)
    else
      var r := LastAt(updates[..|updates| - 1], status);
      assert forall i :: 0 <= i < |updates| - 1 ==> updates[..|updates| - 1][i] == updates[i];
      r
  }

  /** After any run of updates, the shipping time is that of the last
      update to SHIPPED (the one before the run if there was none), the
      delivery time likewise, and the status is the last one requested. */
  lemma {:induction false} AdvanceAllStamps(sh: Shipment, updates: seq<Update>)
    ensures var r := AdvanceAll(sh, updates);
            && r.shippedAt == (if LastAt(updates, ShipmentStatus.Shipped).Some? then LastAt(updates, ShipmentStatus.Shipped) else sh.shippedAt)
            && r.deliveredAt == (if LastAt(updates, ShipmentStatus.Delivered).Some? then LastAt(updates, ShipmentStatus.Delivered) else sh.deliveredAt)
            && (|updates| > 0 ==> r.status == updates[|updates| - 1].status)
            && r.id == sh.id && r.orderId == sh.orderId && r.trackingNumber == sh.trackingNumber
    decreases |updates|
  {
    if |updates| > 0 {
      var init := updates[..|updates| - 1];
      var last := updates[|updates| - 1];
      AdvanceAllSnoc(sh, init, last);
      assert init + [last] == updates;
      AdvanceAllStamps(sh, init);
    }
  }

  lemma {:induction false} AdvanceAllSnoc(sh: Shipment, updates: seq<Update>, u: Update)
    ensures AdvanceAll(sh, updates + [u]) == Advance(AdvanceAll(sh, updates), u.status, u.at)
    decreases |updates|
  {
    if |updates| == 0 {
      assert ([] + [u])[1..] == [];
    } else {
      assert (updates + [u])[1..] == updates[1..] + [u];
      AdvanceAllSnoc(Advance(sh, updates[0].status, updates[0].at), updates[1..], u);
    }
  }

  /** A newly created shipment has a shipping time only once some update
      set it to SHIPPED, and a delivery time only once some update set it to
      DELIVERED. */
  lemma NewShipmentStamps(s: Shop, orderId: int, trackingNumber: string, updates: seq<Update>)
    requires CreateShipment(s, orderId, trackingNumber).Ok?
    ensures var r := AdvanceAll(CreateShipment(s, orderId, trackingNumber).value.1, updates);
            && (r.shippedAt.Some? <==> exists i :: 0 <= i < |updates| && updates[i].status == ShipmentStatus.Shipped)
            && (r.deliveredAt.Some? <==> exists i :: 0 <= i < |updates| && updates[i].status == ShipmentStatus.Delivered)
  {
    AdvanceAllStamps(CreateShipment(s, orderId, trackingNumber).value.1, updates);
  }
}

=== FILE: status_modal.dfy ===
/** The admin's change-item-status dialog (ChangeItemStatusModalComponent):
    it opens with the item's current status selected, offers a fixed list
    of status names, and on save emits the item id and the chosen status
    only when that is a real change. */
module StatusModal {
  import opened Common
  import Domain

  const PREPARING := "PREPARING"
  const SHIPPED := "SHIPPED"
  const DELIVERED := "DELIVERED"
  const REFUNDED := "REFUNDED"
  const EXCHANGED := "EXCHANGED"
  const CANCELLED_BY_ADMIN := "CANCELLED_BY_ADMIN"

  /** ORDER_ITEM_STATUSES, which the dialog offers as availableStatuses. */
  const AVAILABLE_STATUSES: seq<string> := [PREPARING, SHIPPED, DELIVERED, REFUNDED, EXCHANGED, CANCELLED_BY_ADMIN]

  /** The item input: its id (`None` when the payload has none) and its
      current status name. */
  datatype ModalItem = ModalItem(id: Option<int>, status: string)

  /** The event the dialog emits on a successful save. */
  datatype Payload = Payload(itemId: int, newStatus: string)

  /** ngOnInit: the selected status starts as the item's status, and stays
      empty without an item. */
  function Init(item: Option<ModalItem>): (selected: string)
    ensures item.Some? ==> selected == item.value.status
    ensures item.None? ==> |selected| == 0
  {
    if item.Some? then item.value.status else ""
  }

  /** onSave: emits only for a non-empty selection, an item with a truthy
      (present, non-zero) id, and a selection other than the item's current
      status; otherwise nothing is emitted. */
  function Save(selected: string, item: Option<ModalItem>): (emitted: Option<Payload>)
    ensures emitted.Some? <==>
              && |selected| > 0
              && item.Some? && item.value.id.Some? && item.value.id.value != 0
              && selected != item.value.status
    ensures emitted.Some? ==> emitted.value == Payload(item.value.id.value, selected)
  {
    if |selected| == 0 || item.None? || item.value.id.None? || item.value.id.value == 0
       || selected == item.value.status then None
    else Some(Payload(item.value.id.value, selected))
  }

  /** Saving without touching the selection never emits. */
  lemma SaveAfterInitIsSilent(item: Option<ModalItem>)
    ensures Save(Init(item), item).None?
  {
  }

  /** Any offered status other than the current one, chosen for an item
      with a real id, is emitted with that id. */
  lemma OfferedChangeIsEmitted(item: ModalItem, i: int)
    requires 0 <= i < |AVAILABLE_STATUSES|
    requires item.id.Some? && item.id.value != 0
    requires AVAILABLE_STATUSES[i] != item.status
    ensures Save(AVAILABLE_STATUSES[i], Some(item)) == Some(Payload(item.id.value, AVAILABLE_STATUSES[i]))
  {
    assert |AVAILABLE_STATUSES[i]| > 0;
  }

  /** The enum constant name of each item status the order service uses. */
  function ItemStatusName(st: Domain.ItemStatus): string {
    match st
    case Preparing => PREPARING
    case Shipped => SHIPPED
    case Delivered => DELIVERED
    case Exchanged => EXCHANGED
    case Cancelled => "CANCELLED"
    case CancelledBySeller => "CANCELLED_BY_SELLER"
  }

  /** Of the six offered names, exactly PREPARING, SHIPPED, DELIVERED and
      EXCHANGED name an item status the order service knows; REFUNDED and
      CANCELLED_BY_ADMIN name none, and the service's two cancelled statuses
      are not offered. */
  lemma OfferedAgainstService(i: int)
    requires 0 <= i < |AVAILABLE_STATUSES|
    ensures (exists st :: ItemStatusName(st) == AVAILABLE_STATUSES[i]) <==> i in {0, 1, 2, 4}
    ensures forall st :: ItemStatusName(st) in AVAILABLE_STATUSES <==>
              st in {Domain.ItemStatus.Preparing, Domain.ItemStatus.Shipped, Domain.ItemStatus.Delivered, Domain.ItemStatus.Exchanged}
  {
    if i == 3 || i == 5 {
      forall st ensures ItemStatusName(st) != AVAILABLE_STATUSES[i] {
        assert AVAILABLE_STATUSES[i][0] == 'R' || AVAILABLE_STATUSES[i][1] == 'A';
      }
    } else {
      var st := if i == 0 then Domain.ItemStatus.Preparing else if i == 1 then Domain.ItemStatus.Shipped
                else if i == 2 then Domain.ItemStatus.Delivered else Domain.ItemStatus.Exchanged;
      assert ItemStatusName(st) == AVAILABLE_STATUSES[i];
    }
    forall st ensures ItemStatusName(st) in AVAILABLE_STATUSES <==>
                st in {Domain.ItemStatus.Preparing, Domain.ItemStatus.Shipped, Domain.ItemStatus.Delivered, Domain.ItemStatus.Exchanged} {
      if st == Domain.ItemStatus.Cancelled || st == Domain.ItemStatus.CancelledBySeller {
        var name := ItemStatusName(st);
        assert name[0] == 'C' && |name| >= 10 && name[9] == '_' ==> name !in AVAILABLE_STATUSES;
      }
    }
  }
}

=== FILE: stock.dfy ===
/** Stock bookkeeping shared by the two order-placement paths and by the
    admin cancellation: the per-line check-and-decrement loop of
    OrderService.placeOrder / placeOrderFromCart, and the restoring loop of
    cancelOrderByAdmin. */
module Stock {
  import opened Common
  import opened Domain

  // Exception messages, one constant each.
  const PRODUCT_NOT_FOUND := "Product not found"
  const INSUFFICIENT_STOCK := "Insufficient stock: "
  const ITEM_PRODUCT_MISSING := "product of order item"

  /** One requested order line: a product id and a quantity. */
  datatype Line = Line(productId: int, quantity: int)

  /** The total quantity the lines ask for of one product. */
  function Demand(lines: seq<Line>, productId: int): int {
    if |lines| == 0 then 0
    else (if lines[0].productId == productId then lines[0].quantity else 0) + Demand(lines[1..], productId)
  }

  /** The reference amount of an order: each line's quantity times the
      price its product has when the order is placed. */
  function Amount(products: map<int, Product>, lines: seq<Line>): int
    requires forall i :: 0 <= i < |lines| ==> lines[i].productId in products
  {
    if |lines| == 0 then 0
    else lines[0].quantity * products[lines[0].productId].price + Amount(products, lines[1..])
  }

  /** Only the stock of a product may differ between the two maps. */
  ghost predicate SameButStock(before: map<int, Product>, after: map<int, Product>) {
    && after.Keys == before.Keys
    && forall k :: k in before ==> after[k] == before[k].(stock := after[k].stock)
  }

  /** Every line names a known product whose stock covers the total
      quantity the lines ask of it. */
  ghost predicate Covered(products: map<int, Product>, lines: seq<Line>) {
    && (forall i :: 0 <= i < |lines| ==> lines[i].productId in products)
    && (forall i :: 0 <= i < |lines| ==> products[lines[i].productId].stock >= Demand(lines, lines[i].productId))
  }

  /** The loop body of placeOrder, run over all lines in order: look the
      product up, refuse when its current stock is below the line's
      quantity, otherwise decrement the stock. A failure anywhere aborts the
      whole placement. The result is the product store after all lines; the
      prices are read from the store before the loop, which the loop never
      changes. */
  function Reserve(products: map<int, Product>, lines: seq<Line>): (r: Result<map<int, Product>>)
    ensures r.Err? ==> r.failure.kind == RuntimeError
    ensures r.Ok? ==> forall i :: 0 <= i < |lines| ==> lines[i].productId in products
    ensures r.Ok? ==> SameButStock(products, r.value)
  {
    if |lines| == 0 then Ok(products)
    else
      var l := lines[0];
      if l.productId !in products then Fail(RuntimeError, PRODUCT_NOT_FOUND)
      else
        var p := products[l.productId];
        if p.stock < l.quantity then Fail(RuntimeError, INSUFFICIENT_STOCK + p.name)
        else
          var r := Reserve(products[l.productId := p.(stock := p.stock - l.quantity)], lines[1..]);
          assert forall i :: 1 <= i < |lines| ==> lines[i] == lines[1..][i - 1];
          r
  }

  /** A successful placement lowers each product's stock by exactly the
      total quantity the lines ask of it, and leaves no ordered product with
      negative stock (each step checks before it decrements). */
  lemma {:induction false} ReserveStock(products: map<int, Product>, lines: seq<Line>)
    requires Reserve(products, lines).Ok?
    ensures forall k :: k in products ==>
              Reserve(products, lines).value[k].stock == products[k].stock - Demand(lines, k)
    ensures forall k :: k in products && products[k].stock >= 0 ==> Reserve(products, lines).value[k].stock >= 0
    ensures forall i :: 0 <= i < |lines| ==> Reserve(products, lines).value[lines[i].productId].stock >= 0
  {
    if |lines| > 0 {
      var l := lines[0];
      var p := products[l.productId];
      var decremented := products[l.productId := p.(stock := p.stock - l.quantity)];
      ReserveStock(decremented, lines[1..]);
      assert forall i :: 1 <= i < |lines| ==> lines[i] == lines[1..][i - 1];
    }
  }

  /** A reservation that goes through never oversells: the stock it started
      from covered every product's total demand. */
  lemma ReserveCovers(products: map<int, Product>, lines: seq<Line>)
    requires Reserve(products, lines).Ok?
    ensures Covered(products, lines)
  {
    ReserveStock(products, lines);
  }

  /** Adds each listed item's quantity back to its product's stock, in list
      order; a listed item whose product is unknown is a null dereference. */
  function Restock(products: map<int, Product>, items: map<int, OrderItem>, ids: seq<int>): (r: Result<map<int, Product>>)
    ensures r.Err? ==> r.failure.kind == NullPointer
    ensures r.Ok? <==> forall i :: 0 <= i < |ids| ==> ids[i] in items && items[ids[i]].productId in products
    ensures r.Ok? ==> SameButStock(products, r.value)
  {
    if |ids| == 0 then Ok(products)
    else if ids[0] !in items || items[ids[0]].productId !in products then
      Fail(NullPointer, ITEM_PRODUCT_MISSING)
    else
      var it := items[ids[0]];
      var p := products[it.productId];
      match Restock(products[it.productId := p.(stock := p.stock + it.quantity)], items, ids[1..])
      case Err(f) => Err(f)
      case Ok(ps) =>
        assert forall i :: 1 <= i < |ids| ==> ids[i] == ids[1..][i - 1];
        Ok(ps)
  }

  /** A successful restore raises each product's stock by exactly the total
      quantity the listed items hold of it. */
  lemma {:induction false} RestockStock(products: map<int, Product>, items: map<int, OrderItem>, ids: seq<int>)
    requires Restock(products, items, ids).Ok?
    ensures forall k :: k in products ==>
              Restock(products, items, ids).value[k].stock == products[k].stock + Demand(LinesOf(items, ids), k)
  {
    if |ids| > 0 {
      var it := items[ids[0]];
      var p := products[it.productId];
      var raised := products[it.productId := p.(stock := p.stock + it.quantity)];
      assert Restock(products, items, ids) == Restock(raised, items, ids[1..]);
      RestockStock(raised, items, ids[1..]);
      var lines := [Line(it.productId, it.quantity)] + LinesOf(items, ids[1..]);
      assert LinesOf(items, ids) == lines;
      assert lines[1..] == LinesOf(items, ids[1..]);
    }
  }

  /** The (product, quantity) lines of the listed items that exist. */
  function LinesOf(items: map<int, OrderItem>, ids: seq<int>): seq<Line> {
    if |ids| == 0 then []
    else
      (if ids[0] in items then [Line(items[ids[0]].productId, items[ids[0]].quantity)] else [])
      + LinesOf(items, ids[1..])
  }

  lemma {:induction false} DemandAppend(a: seq<Line>, b: seq<Line>, k: int)
    ensures Demand(a + b, k) == Demand(a, k) + Demand(b, k)
  {
    if |a| == 0 {
      assert a + b == b;
    } else {
      assert (a + b)[1..] == a[1..] + b;
      DemandAppend(a[1..], b, k);
    }
  }

  lemma {:induction false} DemandNonNegative(lines: seq<Line>, k: int)
    requires forall i :: 0 <= i < |lines| ==> lines[i].quantity >= 0
    ensures Demand(lines, k) >= 0
  {
    if |lines| > 0 {
      DemandNonNegative(lines[1..], k);
    }
  }

  lemma {:induction false} DemandCoversLine(lines: seq<Line>, i: int)
    requires forall j :: 0 <= j < |lines| ==> lines[j].quantity >= 0
    requires 0 <= i < |lines|
    ensures Demand(lines, lines[i].productId) >= lines[i].quantity
  {
    var k := lines[i].productId;
    if i == 0 {
      DemandNonNegative(lines[1..], k);
    } else {
      assert lines[1..][i - 1] == lines[i];
      DemandCoversLine(lines[1..], i - 1);
    }
  }

  /** When every product exists and covers the total demand for it, no step
      of the placement loop refuses. */
  lemma {:induction false} ReserveOkWhenCovered(products: map<int, Product>, lines: seq<Line>)
    requires forall i :: 0 <= i < |lines| ==> lines[i].quantity >= 0
    requires forall i :: 0 <= i < |lines| ==> lines[i].productId in products
    requires forall i :: 0 <= i < |lines| ==> products[lines[i].productId].stock >= Demand(lines, lines[i].productId)
    ensures Reserve(products, lines).Ok?
  {
    if |lines| > 0 {
      var l := lines[0];
      var rest := lines[1..];
      var p := products[l.productId];
      DemandNonNegative(rest, l.productId);
      assert p.stock >= l.quantity;
      var decremented := products[l.productId := p.(stock := p.stock - l.quantity)];
      forall i | 0 <= i < |rest|
        ensures rest[i].productId in decremented
        ensures decremented[rest[i].productId].stock >= Demand(rest, rest[i].productId)
      {
        assert rest[i] == lines[i + 1];
      }
      ReserveOkWhenCovered(decremented, rest);
    }
  }

  /** With non-negative quantities, the placement loop succeeds exactly when
      every product exists and holds at least the total quantity all lines
      ask of it; repeated lines for one product are counted together. */
  lemma ReserveSucceedsIff(products: map<int, Product>, lines: seq<Line>)
    requires forall i :: 0 <= i < |lines| ==> lines[i].quantity >= 0
    ensures Reserve(products, lines).Ok? <==>
              && (forall i :: 0 <= i < |lines| ==> lines[i].productId in products)
              && (forall i :: 0 <= i < |lines| ==>
                    products[lines[i].productId].stock >= Demand(lines, lines[i].productId))
  {
    if Reserve(products, lines).Ok? {
      ReserveStock(products, lines);
    }
    if (forall i :: 0 <= i < |lines| ==> lines[i].productId in products)
       && (forall i :: 0 <= i < |lines| ==> products[lines[i].productId].stock >= Demand(lines, lines[i].productId)) {
      ReserveOkWhenCovered(products, lines);
    }
  }
}

=== FILE: stripe_webhook.dfy ===
/** The decision StripeWebhookService.handleEvent takes once the event has
    been parsed and its signature checked: for a completed checkout session
    whose payment is "paid", the session's payment intent id is recorded on
    the order named in the session metadata. Parsing, signature checking
    and logging are not modelled; the parsed event is the input. */
module StripeWebhook {
  import opened Common
  import opened Domain

  const CHECKOUT_COMPLETED := "checkout.session.completed"
  const PAID := "paid"
  const DESERIALIZATION_ERROR := "Deserialization error"
  const NOT_A_NUMBER := "For input string: "
  const ORDER_NOT_FOUND := "Order not found for webhook"

  /** The checkout session fields the handler reads; `None` is null. */
  datatype Session = Session(
    orderIdText: Option<string>,     // metadata "orderId"
    paymentStatus: Option<string>,
    paymentIntent: Option<string>)

  /** A verified event: its type and the deserialised session, if the
      payload could be deserialised. */
  datatype Event = Event(eventType: string, session: Option<Session>)

  const MIN_LONG := -0x8000_0000_0000_0000
  const MAX_LONG := 0x7FFF_FFFF_FFFF_FFFF

  predicate IsDigit(c: char) {
    '0' <= c <= '9'
  }

  predicate AllDigits(t: string) {
    forall i :: 0 <= i < |t| ==> IsDigit(t[i])
  }

  /** The value of a string of decimal digits, most significant first. */
  function DigitsValue(t: string): nat
    requires AllDigits(t)
  {
    if |t| == 0 then 0
    else DigitsValue(t[..|t| - 1]) * 10 + (t[|t| - 1] as int - '0' as int)
  }

  predicate IsSign(c: char) {
    c == '-' || c == '+'
  }

  /** The text Long.parseLong accepts before the range check: a sign or a
      digit, then digits only, and at least one digit in all. */
  predicate LongSyntax(t: string) {
    && |t| > 0
    && (IsDigit(t[0]) || (IsSign(t[0]) && |t| > 1))
    && forall i :: 1 <= i < |t| ==> IsDigit(t[i])
  }

  /** The digits of well-formed text, without its sign. */
  function Unsigned(t: string): (u: string)
    requires LongSyntax(t)
    ensures |u| > 0 && AllDigits(u)
  {
    if IsSign(t[0]) then t[1..] else t
  }

  /** Long.parseLong over ASCII digits: an optional sign, then at least one
      digit, and a value within the 64-bit range; anything else throws. */
  function ParseLong(t: string): (r: Option<int>)
    ensures r.Some? <==>
              LongSyntax(t) &&
              DigitsValue(Unsigned(t)) <= (if t[0] == '-' then -MIN_LONG else MAX_LONG)
    ensures r.Some? ==> MIN_LONG <= r.value <= MAX_LONG
    ensures r.Some? ==> (if r.value < 0 then -r.value else r.value) == DigitsValue(Unsigned(t))
    ensures r.Some? && r.value < 0 ==> t[0] == '-'
    ensures r.Some? && r.value > 0 ==> t[0] != '-'
  {
    if |t| == 0 then None
    else
      var negative := t[0] == '-';
      var digits := if t[0] == '-' || t[0] == '+' then t[1..] else t;
      if |digits| == 0 || !AllDigits(digits) then None
      else
        var magnitude: int := DigitsValue(digits);
        var v := if negative then -magnitude else magnitude;
        if MIN_LONG <= v <= MAX_LONG then Some(v) else None
  }

  /** Text that is not a signed run of ASCII digits is refused, whatever
      it is: an empty id, a bare sign, a letter anywhere. */
  lemma MalformedIdRefused(t: string, k: int)
    requires 0 <= k < |t| && !IsDigit(t[k]) && !(k == 0 && IsSign(t[k]) && |t| > 1)
    ensures ParseLong(t) == None
  {
  }

  /** Long.toString of a non-negative number. */
  function Decimal(n: nat): (t: string)
    ensures |t| > 0 && AllDigits(t)
  {
    var d := ['0' + (n % 10) as char];
    if n < 10 then d else Decimal(n / 10) + d
  }

  lemma {:induction false} DecimalValue(n: nat)
    ensures DigitsValue(Decimal(n)) == n
  {
    var t := Decimal(n);
    assert t[..|t| - 1] == (if n < 10 then [] else Decimal(n / 10));
    if n >= 10 {
      DecimalValue(n / 10);
    }
  }

  /** The metadata written by the checkout endpoint, Long.toString of the
      order id, parses back to that id. */
  lemma ParseDecimal(n: int)
    requires MIN_LONG <= n <= MAX_LONG
    ensures n >= 0 ==> ParseLong(Decimal(n)) == Some(n)
    ensures n < 0 ==> ParseLong("-" + Decimal(-n)) == Some(n)
  {
    if n >= 0 {
      DecimalValue(n);
      assert Decimal(n)[0] != '-' && Decimal(n)[0] != '+';
    } else {
      DecimalValue(-n);
      var t := "-" + Decimal(-n);
      assert t[1..] == Decimal(-n);
    }
  }

  /** Whether the session says the order should record `intent`. */
  predicate Records(session: Session, stored: Option<string>) {
    && session.paymentStatus.Some? && EqualsIgnoreCase(PAID, session.paymentStatus.value)
    && session.paymentIntent.Some? && !IsBlank(session.paymentIntent.value)
    && stored != session.paymentIntent
  }

  /** handleEvent after Webhook.constructEvent. Any other event type, and a
      session without an order id, change nothing; an undeserialisable
      session, a malformed id and an unknown order are errors. A "paid"
      session with a non-blank intent id different from the stored one
      records it; everything else leaves the order as it was. */
  function HandleEvent(s: Shop, e: Event): (r: Result<Shop>)
    ensures e.eventType != CHECKOUT_COMPLETED ==> r == Ok(s)
    ensures e.eventType == CHECKOUT_COMPLETED && e.session.None? ==> r.Err? && r.failure.kind == RuntimeError
    ensures e.eventType == CHECKOUT_COMPLETED && e.session.Some? && e.session.value.orderIdText.None? ==> r == Ok(s)
    ensures e.eventType == CHECKOUT_COMPLETED && e.session.Some? && e.session.value.orderIdText.Some? ==>
              var id := ParseLong(e.session.value.orderIdText.value);
              && (id.None? ==> r.Err? && r.failure.kind == NumberFormat)
              && (id.Some? && id.value !in s.orders ==> r.Err? && r.failure.kind == RuntimeError)
              && (id.Some? && id.value in s.orders ==>
                    var o := s.orders[id.value];
                    && (Records(e.session.value, o.paymentIntentId) ==>
                          r == Ok(s.(orders := s.orders[id.value := o.(paymentIntentId := e.session.value.paymentIntent)])))
                    && (!Records(e.session.value, o.paymentIntentId) ==> r == Ok(s)))
  {
    if e.eventType != CHECKOUT_COMPLETED then Ok(s)
    else if e.session.None? then Fail(RuntimeError, DESERIALIZATION_ERROR)
    else
      var session := e.session.value;
      if session.orderIdText.None? then Ok(s)
      else
        match ParseLong(session.orderIdText.value)
        case None => Fail(NumberFormat, NOT_A_NUMBER + session.orderIdText.value)
        case Some(orderId) =>
          if orderId !in s.orders then Fail(RuntimeError, ORDER_NOT_FOUND)
          else
            var o := s.orders[orderId];
            if Records(session, o.paymentIntentId) then
              Ok(s.(orders := s.orders[orderId := o.(paymentIntentId := session.paymentIntent)]))
            else Ok(s)
  }

  /** Stripe may deliver an event more than once; handling it again
      changes nothing further. */
  lemma RedeliveryIsHarmless(s: Shop, e: Event)
    requires HandleEvent(s, e).Ok?
    ensures HandleEvent(HandleEvent(s, e).value, e) == HandleEvent(s, e)
  {
  }

  /** Only the payment intent id of the named order can change, and only to
      the session's non-blank id of a paid session. */
  lemma HandleEventChangesOnlyIntent(s: Shop, e: Event)
    requires HandleEvent(s, e).Ok?
    ensures var s' := HandleEvent(s, e).value;
            && s'.orders.Keys == s.orders.Keys
            && s' == s.(orders := s'.orders)
            && forall k :: k in s.orders ==>
                 && s'.orders[k] == s.orders[k].(paymentIntentId := s'.orders[k].paymentIntentId)
                 && (s'.orders[k] != s.orders[k] ==>
                       && e.session.Some?
                       && s'.orders[k].paymentIntentId == e.session.value.paymentIntent
                       && Records(e.session.value, s.orders[k].paymentIntentId))
  {
  }
}

=== FILE: user_controller.dfy ===
/** The account endpoints of UserController: partial address update by the
    address's owner, ban and unban (admins cannot be banned), the seller
    request, and its approval. An exception the endpoint does not catch is
    returned as `Err`. */
module UserController {
  import opened Common
  import opened Domain

  // Messages, one constant each.
  const PRINCIPAL_NOT_FOUND := "User not found"
  const ADDRESS_NOT_FOUND := "Address not found"
  const USER_MISSING := "User not found"
  const ADDRESS_UPDATED := "Address details updated."
  const ADDRESS_UNCHANGED := "Address details are already up to date."
  const ADMIN_NOT_BANNABLE := "An admin user cannot be banned."
  const BANNED := "User banned."
  const UNBANNED := "User unbanned."
  const ALREADY_SELLER := "User is already a seller."
  const ADMIN_CANNOT_REQUEST := "Admin cannot request seller status."
  const BANNED_CANNOT_REQUEST := "Banned users cannot request seller status."
  const REQUEST_PENDING := "Seller request is already pending."
  const REQUEST_SUBMITTED := "Seller status request submitted successfully. Please wait for admin approval."
  const APPROVED := "Seller request approved and role updated."

  /** The fields of an UpdateAddressRequest; `None` is a null field. */
  datatype AddressPatch = AddressPatch(
    addressLine: Option<string>,
    city: Option<string>,
    postalCode: Option<string>,
    country: Option<string>,
    phoneNumber: Option<string>)

  /** One field of the update: a non-null value that differs replaces the
      stored one. */
  predicate Overwrites(given: Option<string>, stored: Option<string>) {
    given.Some? && Some(given.value) != stored
  }

  function Field(given: Option<string>, stored: Option<string>): (r: Option<string>)
    ensures Overwrites(given, stored) ==> r == given
    ensures !Overwrites(given, stored) ==> r == stored
  {
    if Overwrites(given, stored) then given else stored
  }

  /** Whether the request changes any of the five fields. */
  predicate Changes(p: AddressPatch, a: Address) {
    || Overwrites(p.addressLine, a.addressLine)
    || Overwrites(p.city, a.city)
    || Overwrites(p.postalCode, a.postalCode)
    || Overwrites(p.country, a.country)
    || Overwrites(p.phoneNumber, a.phoneNumber)
  }

  function Patched(p: AddressPatch, a: Address): (b: Address)
    ensures b == a.(addressLine := b.addressLine, city := b.city, postalCode := b.postalCode,
                    country := b.country, phoneNumber := b.phoneNumber)
    ensures !Changes(p, a) <==> b == a
  {
    a.(addressLine := Field(p.addressLine, a.addressLine),
       city := Field(p.city, a.city),
       postalCode := Field(p.postalCode, a.postalCode),
       country := Field(p.country, a.country),
       phoneNumber := Field(p.phoneNumber, a.phoneNumber))
  }

  /** The first of the user's addresses with the given id. */
  predicate OwnsAddress(u: User, addressId: int) {
    exists i :: 0 <= i < |u.addressIds| && u.addressIds[i] == addressId
  }

  /** PUT /update-address: the address is searched among the principal's
      own addresses only. The result carries `changed`; the address is saved
      only when some field changed. */
  function UpdateAddress(s: Shop, principal: string, addressId: int, p: AddressPatch): (r: Result<(Shop, bool)>)
    ensures r.Ok? <==>
              && UserIdByEmail(s.users, principal).Some?
              && OwnsAddress(s.users[UserIdByEmail(s.users, principal).value], addressId)
              && addressId in s.addresses
    ensures r.Err? ==> r.failure.kind == RuntimeError
    ensures r.Ok? ==> r.value.1 == Changes(p, s.addresses[addressId])
    ensures r.Ok? ==> r.value.0 == s.(addresses := s.addresses[addressId := Patched(p, s.addresses[addressId])])
    ensures r.Ok? && !r.value.1 ==> r.value.0 == s
  {
    match UserIdByEmail(s.users, principal)
    case None => Fail(RuntimeError, PRINCIPAL_NOT_FOUND)
    case Some(id) =>
      if !OwnsAddress(s.users[id], addressId) || addressId !in s.addresses then Fail(RuntimeError, ADDRESS_NOT_FOUND)
      else
        var a := s.addresses[addressId];
        var changed := Changes(p, a);
        if changed then Ok((s.(addresses := s.addresses[addressId := Patched(p, a)]), true))
        else
          assert s.addresses[addressId := a] == s.addresses;
          Ok((s, false))
  }

  /** Sending the same update twice: the second one finds nothing to
      change and saves nothing. */
  lemma UpdateAddressIdempotent(s: Shop, principal: string, addressId: int, p: AddressPatch)
    requires UpdateAddress(s, principal, addressId, p).Ok?
    ensures var s1 := UpdateAddress(s, principal, addressId, p).value.0;
            UpdateAddress(s1, principal, addressId, p) == Ok((s1, false))
  {
    var s1 := UpdateAddress(s, principal, addressId, p).value.0;
    var a := Patched(p, s.addresses[addressId]);
    assert s1.users == s.users;
    assert s1.addresses[addressId] == a;
    assert !Changes(p, a);
  }

  /** PUT /ban/{userId}: an admin is refused with 400 and unchanged; any
      other user is banned. */
  function BanUser(s: Shop, userId: int): (r: Result<(Shop, Reply<()>)>)
    ensures r.Err? <==> userId !in s.users
    ensures r.Ok? ==> (r.value.1.status == BAD_REQUEST <==> s.users[userId].role == Admin)
    ensures r.Ok? ==> r.value.1.status in {OK, BAD_REQUEST}
    ensures r.Ok? && r.value.1.status == BAD_REQUEST ==> r.value.0 == s
    ensures r.Ok? && r.value.1.status == OK ==>
              r.value.0 == s.(users := s.users[userId := s.users[userId].(banned := true)])
  {
    if userId !in s.users then Fail(RuntimeError, USER_MISSING)
    else if s.users[userId].role == Admin then Ok((s, Reply(BAD_REQUEST, ADMIN_NOT_BANNABLE, None)))
    else Ok((s.(users := s.users[userId := s.users[userId].(banned := true)]), Reply(OK, BANNED, None)))
  }

  /** PUT /unban/{userId}: no guard. */
  function UnbanUser(s: Shop, userId: int): (r: Result<(Shop, Reply<()>)>)
    ensures r.Err? <==> userId !in s.users
    ensures r.Ok? ==> r.value.1.status == OK
    ensures r.Ok? ==> r.value.0 == s.(users := s.users[userId := s.users[userId].(banned := false)])
  {
    if userId !in s.users then Fail(RuntimeError, USER_MISSING)
    else Ok((s.(users := s.users[userId := s.users[userId].(banned := false)]), Reply(OK, UNBANNED, None)))
  }

  /** No sequence of endpoint bans bans an admin: banning keeps every
      banned user a non-admin, provided none was banned before. */
  lemma BanNeverBansAdmin(s: Shop, userId: int)
    requires forall k :: k in s.users && s.users[k].banned ==> s.users[k].role != Admin
    requires BanUser(s, userId).Ok?
    ensures var s' := BanUser(s, userId).value.0;
            forall k :: k in s'.users && s'.users[k].banned ==> s'.users[k].role != Admin
  {
  }

  /** PUT /approve-seller-request/{userId}: only a CUSTOMER is promoted;
      the promotion clears the pending request. */
  function ApproveSellerRequest(s: Shop, userId: int): (r: Result<(Shop, Reply<()>)>)
    ensures r.Err? <==> userId !in s.users
    ensures r.Ok? ==> (r.value.1.status == OK <==> s.users[userId].role == Customer)
    ensures r.Ok? ==> r.value.1.status in {OK, BAD_REQUEST}
    ensures r.Ok? && r.value.1.status != OK ==> r.value.0 == s
    ensures r.Ok? && r.value.1.status == OK ==>
              r.value.0 == s.(users := s.users[userId := s.users[userId].(role := Seller, sellerRequested := false)])
  {
    if userId !in s.users then Fail(RuntimeError, USER_MISSING)
    else if s.users[userId].role != Customer then Ok((s, Reply(BAD_REQUEST, ALREADY_SELLER, None)))
    else
      Ok((s.(users := s.users[userId := s.users[userId].(role := Seller, sellerRequested := false)]),
          Reply(OK, APPROVED, None)))
  }

  /** PUT /request-seller-status, checked in order: a SELLER or an ADMIN
      gets 400, a banned user 403, a pending request is acknowledged
      without change, and otherwise the request is recorded. */
  function RequestSellerStatus(s: Shop, principal: string): (r: Result<(Shop, Reply<()>)>)
    ensures r.Err? <==> UserIdByEmail(s.users, principal).None?
    ensures r.Ok? ==>
              var id := UserIdByEmail(s.users, principal).value;
              var u := s.users[id];
              && (r.value.1.status == BAD_REQUEST <==> u.role != Customer)
              && (r.value.1.status == FORBIDDEN <==> u.role == Customer && u.banned)
              && (r.value.1.status == OK <==> u.role == Customer && !u.banned)
              && (r.value.0 != s ==> r.value.1.status == OK && !u.sellerRequested)
              && (r.value.1.status == OK ==>
                    r.value.0 == s.(users := s.users[id := u.(sellerRequested := true)]) || r.value.0 == s)
              && (r.value.1.status == OK ==> r.value.0.users[id].sellerRequested)
  {
    match UserIdByEmail(s.users, principal)
    case None => Fail(RuntimeError, PRINCIPAL_NOT_FOUND)
    case Some(id) =>
      var u := s.users[id];
      if u.role == Seller then Ok((s, Reply(BAD_REQUEST, ALREADY_SELLER, None)))
      else if u.role == Admin then Ok((s, Reply(BAD_REQUEST, ADMIN_CANNOT_REQUEST, None)))
      else if u.banned then Ok((s, Reply(FORBIDDEN, BANNED_CANNOT_REQUEST, None)))
      else if u.sellerRequested then Ok((s, Reply(OK, REQUEST_PENDING, None)))
      else Ok((s.(users := s.users[id := u.(sellerRequested := true)]), Reply(OK, REQUEST_SUBMITTED, None)))
  }

  /** The seller-status workflow: a customer in good standing who asks and
      is approved ends up a SELLER with no pending request, and asking
      again is then refused. */
  lemma RequestThenApprove(s: Shop, principal: string)
    requires UserIdByEmail(s.users, principal).Some?
    requires s.users[UserIdByEmail(s.users, principal).value].role == Customer
    requires !s.users[UserIdByEmail(s.users, principal).value].banned
    ensures var id := UserIdByEmail(s.users, principal).value;
            var s1 := RequestSellerStatus(s, principal).value.0;
            var s2 := ApproveSellerRequest(s1, id).value.0;
            && s2.users[id].role == Seller && !s2.users[id].sellerRequested
            && RequestSellerStatus(s2, principal).Ok?
            && RequestSellerStatus(s2, principal).value.1.status == BAD_REQUEST
  {
    var id := UserIdByEmail(s.users, principal).value;
    var s1 := RequestSellerStatus(s, principal).value.0;
    var s2 := ApproveSellerRequest(s1, id).value.0;
    SameEmailsSameLookup(s.users, s1.users, principal);
    SameEmailsSameLookup(s.users, s2.users, principal);
  }
}

=== FILE: user_service.dfy ===
/** UserService: registration with a unique email, the service-level ban
    flag, and the password change. Password hashing is a parameter:
    `encode` is the encoder and `matches(raw, stored)` its check. */
module UserService {
  import opened Common
  import opened Domain

  // Exception messages, one constant each.
  const EMAIL_IN_USE := "Email already in use."
  const USER_NOT_FOUND := "User not found"
  const USER_EMAIL_NOT_FOUND := "User not found with email: "
  const WRONG_PASSWORD := "Incorrect current password."
  const EMPTY_PASSWORD := "New password cannot be empty."

  /** No two users share an email (the unique column of users.email). */
  ghost predicate UniqueEmails(users: map<int, User>) {
    forall a, b :: a in users && b in users && a != b ==> users[a].email != users[b].email
  }

  /** The record a registration saves under `id`: no address, not banned,
      no pending seller request, the password encoded. */
  function NewUser(id: int, fullName: Option<string>, email: string, encodedPassword: string, role: Role): (u: User)
    ensures u.id == id && u.email == email && u.password == encodedPassword && u.role == role
    ensures !u.banned && !u.sellerRequested && u.addressIds == []
  {
    User(id, fullName, email, encodedPassword, role, false, false, [])
  }

  /** registerUser: refuses an email already in use, otherwise saves the
      user with the encoded password under the next id. */
  function RegisterUser(s: Shop, fullName: Option<string>, email: string, password: string, role: Role,
                        encode: string -> string): (r: Result<Shop>)
    ensures r.Err? <==> EmailTaken(s.users, email)
    ensures r.Err? ==> r.failure.kind == RuntimeError
    ensures r.Ok? ==> r.value == s.(users := s.users[s.nextId := NewUser(s.nextId, fullName, email, encode(password), role)],
                                   nextId := s.nextId + 1)
  {
    if EmailTaken(s.users, email) then Fail(RuntimeError, EMAIL_IN_USE)
    else Ok(s.(users := s.users[s.nextId := NewUser(s.nextId, fullName, email, encode(password), role)],
               nextId := s.nextId + 1))
  }

  /** A registration keeps emails unique, and the email then names exactly
      the new user. */
  lemma RegisterKeepsEmailsUnique(s: Shop, fullName: Option<string>, email: string, password: string, role: Role,
                                  encode: string -> string)
    requires Valid(s) && UniqueEmails(s.users)
    requires RegisterUser(s, fullName, email, password, role, encode).Ok?
    ensures var s' := RegisterUser(s, fullName, email, password, role, encode).value;
            UniqueEmails(s'.users) && UserIdByEmail(s'.users, email) == Some(s.nextId)
  {
    var s' := RegisterUser(s, fullName, email, password, role, encode).value;
    assert s.nextId !in s.users;
    assert !EmailTaken(s.users, email);
    assert s'.users[s.nextId].email == email;
  }

  /** Sets the banned flag of a user and changes nothing else. */
  function WithBanned(s: Shop, userId: int, banned: bool): (s': Shop)
    requires userId in s.users
    ensures s'.users.Keys == s.users.Keys
    ensures s'.users[userId].banned == banned
    ensures s'.users[userId] == s.users[userId].(banned := s'.users[userId].banned)
    ensures forall k :: k in s.users && k != userId ==> s'.users[k] == s.users[k]
    ensures s' == s.(users := s'.users)
  {
    s.(users := s.users[userId := s.users[userId].(banned := banned)])
  }

  /** banUser (service level): no guard on the role. */
  function BanUser(s: Shop, userId: int): (r: Result<Shop>)
    ensures r.Err? <==> userId !in s.users
    ensures r.Err? ==> r.failure.kind == RuntimeError
    ensures r.Ok? ==> r.value == WithBanned(s, userId, true)
  {
    if userId !in s.users then Fail(RuntimeError, USER_NOT_FOUND) else Ok(WithBanned(s, userId, true))
  }

  /** unbanUser (service level). */
  function UnbanUser(s: Shop, userId: int): (r: Result<Shop>)
    ensures r.Err? <==> userId !in s.users
    ensures r.Err? ==> r.failure.kind == RuntimeError
    ensures r.Ok? ==> r.value == WithBanned(s, userId, false)
  {
    if userId !in s.users then Fail(RuntimeError, USER_NOT_FOUND) else Ok(WithBanned(s, userId, false))
  }

  /** Banning and then unbanning a user who was not banned gives back the
      shop as it was. */
  lemma BanThenUnban(s: Shop, userId: int)
    requires userId in s.users && !s.users[userId].banned
    ensures UnbanUser(BanUser(s, userId).value, userId) == Ok(s)
  {
    var s1 := BanUser(s, userId).value;
    assert s1.users[userId := s1.users[userId].(banned := false)] == s.users;
  }

  /** changeUserPassword: the user is found by email, the current password
      must match the stored one, and only then is an absent or empty new
      password refused; the stored password becomes the encoded new one. */
  function ChangeUserPassword(s: Shop, email: string, current: string, newPassword: Option<string>,
                              encode: string -> string, matches: (string, string) -> bool): (r: Result<Shop>)
    ensures r.Err? ==> r.failure.kind == RuntimeError
    ensures r.Ok? <==>
              && UserIdByEmail(s.users, email).Some?
              && matches(current, s.users[UserIdByEmail(s.users, email).value].password)
              && newPassword.Some? && |newPassword.value| > 0
    ensures (&& UserIdByEmail(s.users, email).Some?
             && !matches(current, s.users[UserIdByEmail(s.users, email).value].password))
            ==> r == Fail(RuntimeError, WRONG_PASSWORD)
    ensures r.Ok? ==>
              var id := UserIdByEmail(s.users, email).value;
              r.value == s.(users := s.users[id := s.users[id].(password := encode(newPassword.value))])
  {
    match UserIdByEmail(s.users, email)
    case None => Fail(RuntimeError, USER_EMAIL_NOT_FOUND + email)
    case Some(id) =>
      var u := s.users[id];
      if !matches(current, u.password) then Fail(RuntimeError, WRONG_PASSWORD)
      else if newPassword.None? || |newPassword.value| == 0 then Fail(RuntimeError, EMPTY_PASSWORD)
      else Ok(s.(users := s.users[id := u.(password := encode(newPassword.value))]))
  }

  /** With an encoder whose output its check accepts, the new password is
      in force after a change: a second change authenticated with it
      succeeds. */
  lemma ChangePasswordTwice(s: Shop, email: string, current: string, p1: string, p2: string,
                            encode: string -> string, matches: (string, string) -> bool)
    requires forall p :: matches(p, encode(p))
    requires ChangeUserPassword(s, email, current, Some(p1), encode, matches).Ok?
    requires |p2| > 0
    ensures var s1 := ChangeUserPassword(s, email, current, Some(p1), encode, matches).value;
            ChangeUserPassword(s1, email, p1, Some(p2), encode, matches).Ok?
  {
    var s1 := ChangeUserPassword(s, email, current, Some(p1), encode, matches).value;
    var id := UserIdByEmail(s.users, email).value;
    assert s1.users[id].password == encode(p1);
    SameEmailsSameLookup(s.users, s1.users, email);
  }
}
